=== FILE: README.md ===
# Chance-It server core in Dafny

Chance-It is a two-player dice game played over line-oriented TCP
connections. The players alternate turns for a fixed number of rounds. A turn
opens with a roll of two dice, and the player may then keep re-rolling ("chance
it"). A re-roll whose sum repeats the turn's first sum busts the turn to zero.
Any other re-roll adds its sum to the turn score. When the player ends the turn,
the turn score is banked. The higher total after all rounds wins.

This project models two implementations of the game.

1. **The pooled game server.** It covers these modules:
   - `GamePlay` models `GamePlayWorker`: the pairing step of `run`, the
     roll-off, `playGame`, `logGameOutcome` and `resetData`.
   - `GamePlay.ActivePlayer` models `ActivePlayer.takeTurn` and
     `getNextCommand`.
   - `Turns` holds the turn rules as functions over the player's input and
     dice.
   - `Outcomes` holds the score slots, the winner and how the game ended, and
     the comma-separated outcome line.
   - `Registration` models `PlayerRegistrar`. It covers the HELLO parse, the
     FIFO registration queue, the guarded GOODBYE withdrawal, the time-out
     hand-off to the game worker, and the claim a game worker makes.
   - `WaitStates` models the four-valued `RegistrationWaitState`.
2. **The older prototype** `ChanceItServer` (`Game` and `Game.Player`) is the
   `Prototype` module. Its rules differ from the pooled server's, and the
   differences are stated as lemmas.

Support modules:

- `Wrappers` provides `Option`.
- `Text` provides prefix tags, integer text and splitting and joining on a
  separator.
- `Sockets` models a connection as a finite sequence of read events. The events
  are a line, a read time-out, end of stream, or a broken socket.
- `Dice` models each player's `java.util.Random` as a stream of die values in
  1..6. It also defines the roll-off predicates.
- `Scores` models the two-slot `Data` object.

Every `synchronized` block of the source is one atomic method of the model:

- enqueue on HELLO;
- poll two registrations and clear their `canUnregister`;
- the guarded withdrawal;
- appending to the game log.

Objects whose fields the source updates in place are classes:

- `Connection`, `Registrar`, `RegistrationQueue` and `CallBack`;
- `ActivePlayer`, `GamePlayWorker` and `OutcomeLog`;
- `Data`, `Player` and `Game`.

Their loops are methods proved against the specification functions of `Turns`,
`Outcomes` and `Prototype`. The `Registrar` carries a ghost `fate`: unqueued,
queued, claimed by a game or withdrawn. It records that each registration is
either claimed by a game worker or withdrawn by its own thread, and never both.

A game is stated turn by turn. Each player stands at a `Seat`: the route of
the next fetch, the unread input, the socket's state and the dice drawn.
`Ends` lists the turns the two seats would give if every turn were played,
the players alternating. `Cut` stops that list at the first turn that ends the
game, and `Play` is the two together. The game methods take the turn rule as a
ghost parameter `turn`, and `Genuine(turn)` requires that it is the server's
own rule `TurnAt`. This keeps each turn's definition folded while a whole game
is reasoned about. The two players of a game hold distinct sockets, which is
what `accept` gives them.

## Model

| member | source | states |
|---|---|---|
| WaitStates.Values | com/chanceit/RegistrationWaitState.java:3-10 | the enum has four values |
| WaitStates.Ordinal | com/chanceit/RegistrationWaitState.java:3-10 | every state sits in `values()` at its ordinal |
| WaitStates.ExactlyFourStates | com/chanceit/RegistrationWaitState.java:3-10 | the four constants are pairwise distinct and every state is one of them |
| WaitStates.QueueAndTurnExclusive | com/chanceit/RegistrationWaitState.java:4-9 | a registration's run from WAIT_HELLO never reaches both WAIT_QUEUE (after a Goodbye) and WAIT_TURN (after a time-out while in a game); once in either it stays there |
| Sockets.NextEvent | com/chanceit/PlayerRegistrar.java:136-138 | a read on a closed socket fails, a read past the last line reports end of stream, otherwise the next pending event is returned |
| Sockets.AfterRead | com/chanceit/PlayerRegistrar.java:136-138 | a read consumes exactly one pending event, and a read that fails or hits end of stream consumes nothing |
| Sockets.Connection.constructor | com/chanceit/PlayerRegistrar.java:66-71 | a fresh connection is open with the given pending input |
| Sockets.Connection.ReadLine | com/chanceit/PlayerRegistrar.java:136-138 | returns the next event and consumes it, leaving the socket's open state unchanged |
| Sockets.Connection.Close | com/chanceit/GamePlayWorker.java:666-671 | the socket is closed and its pending input is untouched |
| Text.Tagged | com/chanceit/PlayerRegistrar.java:90-94 | a value is found exactly when the line starts with the tag and is longer than it; the value is the non-empty remainder |
| Text.TaggedRoundTrip | com/chanceit/PlayerRegistrar.java:90-94 | tag plus a non-empty value reads back as that value; tag alone reads as nothing |
| Text.NatText | com/chanceit/GamePlayWorker.java:680-683 | the `%s` text of a natural number is a non-empty string of decimal digits |
| Text.NatTextRoundTrip | com/chanceit/GamePlayWorker.java:680-683 | the digits of a natural number read back as the number |
| Text.IntText | com/chanceit/GamePlayWorker.java:680-683 | the `%s` text of a score is non-empty and holds no comma |
| Text.IntTextRoundTrip | com/chanceit/GamePlayWorker.java:680-683 | the text of every integer, negative ones included, parses back to it |
| Text.Split | com/chanceit/GamePlayWorker.java:680-683 | splitting yields at least one field and no field holds the separator |
| Text.SplitJoin | com/chanceit/GamePlayWorker.java:680-683 | joining separator-free fields and splitting again gives back the fields |
| Dice.PairSum | com/chanceit/GamePlayWorker.java:282-283 | a two-dice sum lies in 2..12 |
| Dice.DecidedAfterTie | com/chanceit/GamePlayWorker.java:709-723 | a tied round followed by a roll-off decided at round n is a roll-off decided at round n+1, with the same winner |
| Dice.DecidedOnce | com/chanceit/GamePlayWorker.java:709-723 | a roll-off is decided at exactly one round, the first that does not tie |
| Scores.Data.constructor | com/chanceit/GamePlayWorker.java:58-61 | both score slots start at 0 |
| Scores.Data.SwapSlots | com/chanceit/GamePlayWorker.java:604-606 | the two slots are exchanged |
| Turns.Classify | com/chanceit/GamePlayWorker.java:276-310 | a command re-rolls iff it is empty, starts with "Y" or starts with "chance-it"; otherwise it ends the turn iff it starts with "n"; otherwise it stops iff it starts with "stop"; anything else is ignored |
| Turns.ClassifyProtocolWords | com/chanceit/GamePlayWorker.java:276-310 | "", "Y", "Yes", "chance-it" re-roll; "n", "no" end the turn; "stop" stops; lower-case "y", "N" and "Stop" are ignored |
| Turns.DirectFetch | com/chanceit/GamePlayWorker.java:146-156 | an ordinary read yields the line, a time-out, or a disconnect on end of stream and on a broken socket, never a missing command |
| Turns.ProbePick | com/chanceit/GamePlayWorker.java:171-189 | in the hand-off path the registrar's captured line wins over the callback line, which wins over this thread's own read; nothing is picked only when all three are absent |
| Turns.FetchAsWritten | com/chanceit/GamePlayWorker.java:137-200 | with no hand-off the command is an ordinary read; in the hand-off path it is the picked line, a disconnect on a broken socket, or no command when nothing was picked; when neither branch applies (no WAIT_TURN callback state, no registrar still in WAIT_GOODBYE) it is no command |
| Turns.FetchAsWrittenCanBeNull | com/chanceit/GamePlayWorker.java:137-200 | a time-out or end of stream in the hand-off probe with no line held elsewhere, or a call where neither branch applies, makes getNextCommand return no command (null) |
| Turns.NextFetch | com/chanceit/GamePlayWorker.java:137-200 | the corrected fetch never returns no command, and every line it returns consumes input or leaves the hand-off path |
| Turns.NextFetchAgrees | com/chanceit/GamePlayWorker.java:137-200 | the corrected fetch returns what getNextCommand returns whenever that is not null, and otherwise falls back to an ordinary read |
| Turns.NextFetchReads | com/chanceit/GamePlayWorker.java:150-196 | a fetch reads one line, or two when a hand-off probe found nothing; afterwards the registrar is detached unless the probe hit a broken socket |
| Turns.Roll | com/chanceit/GamePlayWorker.java:282-283 | a roll of the pair from the die stream scores 2..12 |
| Turns.TurnPass | com/chanceit/GamePlayWorker.java:258-311 | one pass of the turn loop rolls at most once, using the next two dice, and a pass that does not end the turn consumes input or leaves the hand-off path |
| Turns.TurnPassScores | com/chanceit/GamePlayWorker.java:276-305 | a re-roll that repeats the first sum banks 0; another re-roll adds its sum and continues; "n" banks the accumulator; a forfeit rolls nothing |
| Turns.Continue | com/chanceit/GamePlayWorker.java:230-312 | the turn loop after the first roll consumes input, draws two dice per re-roll, and every re-roll scores 2..12 |
| Turns.Turn | com/chanceit/GamePlayWorker.java:202-314 | a turn draws two dice for the first roll and two per re-roll |
| Turns.TurnOpensWithRoll | com/chanceit/GamePlayWorker.java:206-240 | a turn is the loop started with the first roll as both the bust sum and the accumulator |
| Turns.ContinueScores | com/chanceit/GamePlayWorker.java:276-305 | the turn ends banking the accumulator plus every non-busting re-roll, or banking 0 on the first re-roll that repeats the first sum, or as a forfeit |
| Turns.TurnScores | com/chanceit/GamePlayWorker.java:202-314 | the same for a whole turn, starting from the first roll |
| Turns.TurnBanksZeroOrAtLeastFirst | com/chanceit/GamePlayWorker.java:286-305 | a banked turn scores 0 (bust) or at least its first roll, which is at least 2 |
| Turns.FirstAnswerNoBanksFirstRoll | com/chanceit/GamePlayWorker.java:303-305 | answering "n" at once banks the first roll |
| Turns.ChanceItAdds | com/chanceit/GamePlayWorker.java:286-297 | "chance-it" with a non-busting roll adds its sum and continues on the next line |
| Turns.NoBanksAccumulated | com/chanceit/GamePlayWorker.java:303-305 | "n" ends the turn banking the accumulator, consuming only that line |
| Turns.ChanceItThenNo | com/chanceit/GamePlayWorker.java:286-305 | a non-busting re-roll followed by "n" banks the accumulator plus that roll |
| Turns.TwoChanceItsThenNo | com/chanceit/GamePlayWorker.java:286-305 | two non-busting re-rolls followed by "n" bank the accumulator plus both rolls |
| Turns.StopForfeits | com/chanceit/GamePlayWorker.java:307-309 | "stop" forfeits the turn with a stop and consumes only that line |
| Turns.SilenceForfeits | com/chanceit/GamePlayWorker.java:316-320 | a read time-out forfeits the turn with a time-out |
| Outcomes.Advance | com/chanceit/GamePlayWorker.java:600-606 | after a turn the mover's slot, grown by the banked points, becomes slot 1, and the opponent's becomes slot 0 |
| Outcomes.ReplaySnoc | com/chanceit/GamePlayWorker.java:597-649 | replaying one more turn is one more advance |
| Outcomes.ReplayIsShares | com/chanceit/GamePlayWorker.java:597-649 | after any number of turns slot 0 holds the total of the player about to move and slot 1 the other player's |
| Outcomes.ShareNonNegative | com/chanceit/GamePlayWorker.java:597-649 | a player's total of banked turns is never negative |
| Outcomes.HowText | com/chanceit/GamePlayWorker.java:610-661 | every HOW text is non-empty and holds no comma |
| Outcomes.HowRoundTrip | com/chanceit/GamePlayWorker.java:610-661 | the five HOW texts are distinct and read back as the outcome kind |
| Outcomes.Decide | com/chanceit/GamePlayWorker.java:652-664 | a higher slot 0 makes the current player win FAIR_PLAY; a lower one makes the opponent win FAIR_PLAY; equal slots log FAIR_PLAY\|\|TIE with the opponent as winner and the current player as loser, at equal scores; the winner's score is never lower |
| Outcomes.ForfeitRecord | com/chanceit/GamePlayWorker.java:608-623 | a forfeit names the mover as loser with slot 0 and the opponent as winner with slot 1, with the forfeit's reason |
| Outcomes.HigherTotalWins | com/chanceit/GamePlayWorker.java:652-664 | after an even number of turns the first mover wins iff their total is higher, the opponent wins iff theirs is higher, and equal totals are a tie |
| Outcomes.Fields | com/chanceit/GamePlayWorker.java:680-683 | the record has five fields |
| Outcomes.FormatRecord | com/chanceit/GamePlayWorker.java:680-683 | the line ends in a newline and starts with WINNER: and the winner's name |
| Outcomes.RecordRoundTrip | com/chanceit/GamePlayWorker.java:680-683 | the outcome line parses back into winner, both scores, loser and HOW, for names without commas |
| Outcomes.Ends | com/chanceit/GamePlayWorker.java:597-649 | the turns a game would run from two seats number exactly the turns left |
| Outcomes.PointsSnoc | com/chanceit/GamePlayWorker.java:599-606 | one more turn adds its points to the banked points iff it banked |
| Outcomes.TallyStep | com/chanceit/GamePlayWorker.java:599-623 | after one more turn the game ends with that turn's forfeit reason iff it was forfeited, and the replayed slots advance by its points iff it banked |
| Outcomes.CutAfterBanked | com/chanceit/GamePlayWorker.java:597-623 | banked turns before the rest never stop the game: cutting at the first forfeit keeps them all |
| Outcomes.CutShape | com/chanceit/GamePlayWorker.java:597-623 | the turns played are a prefix of the turns the seats give: all of them, every one banked, when none is forfeited; else up to and including the first forfeit, every turn before it banked |
| Outcomes.CutAtTurn | com/chanceit/GamePlayWorker.java:599-623 | after banked turns a forfeit is where the game stops, and a banked turn extends the run |
| Outcomes.PlayStep | com/chanceit/GamePlayWorker.java:599-623 | the next turn of a game under way is the mover's turn from its seat: a forfeit ends the game there; a banked turn joins the run, and the opponent moves next from its own seat |
| Outcomes.PlayWhole | com/chanceit/GamePlayWorker.java:597-649 | a game whose turns all bank is played out in full and ends without a forfeit |
| Outcomes.PlayShape | com/chanceit/GamePlayWorker.java:597-649 | a game runs all its turns, each banked, unless a turn is forfeited, which is then the last turn, all before it banked |
| Outcomes.PointsOfBanking | com/chanceit/GamePlayWorker.java:599-606 | a run of banked turns has one banked score per turn |
| Outcomes.GameOutcome | com/chanceit/GamePlayWorker.java:597-664 | over an even number of turns the record is a forfeit (TIMEOUT, DISCONNECT or STOP) iff some turn was forfeited; the reason is that turn's and the loser is its mover; otherwise all turns are counted and the higher total wins, equal totals a tie |
| Outcomes.EndsBankZeroOrAtLeastTwo | com/chanceit/GamePlayWorker.java:286-305 | under this server's turn rule every turn a game would run banks 0 or at least 2 |
| Outcomes.PlayBanksZeroOrAtLeastTwo | com/chanceit/GamePlayWorker.java:286-305 | every turn a game actually plays and banks scores 0 or at least 2 |
| GamePlay.OutcomeLog.constructor | com/chanceit/GamePlayWorker.java:49 | a new game log is empty |
| GamePlay.OutcomeLog.Append | com/chanceit/GamePlayWorker.java:677-684 | the line is appended to the log and nothing else changes |
| GamePlay.ActivePlayer.constructor | com/chanceit/GamePlayWorker.java:100-107 | the active player takes the registration's socket and name, has no opponent yet, and an empty callback mailbox |
| GamePlay.ActivePlayer.SetOpponent | com/chanceit/GamePlayWorker.java:489-491 | sets the opponent |
| GamePlay.ActivePlayer.RollDie | com/chanceit/GamePlayWorker.java:112-115 | the roll is the next value of the player's die |
| GamePlay.ActivePlayer.GetNextCommand | com/chanceit/GamePlayWorker.java:137-200 | returns the corrected fetch of the current input along the route `RouteOf` reads off the mailbox and the registrar (the WAIT_TURN test at line 146, the WAIT_GOODBYE probe at line 157, neither otherwise) and leaves the input and route it specifies |
| GamePlay.ActivePlayer.TurnIteration | com/chanceit/GamePlayWorker.java:258-311 | one loop pass leaves the state and accumulator that `Turns.TurnPass` specifies |
| GamePlay.ActivePlayer.PlayOut | com/chanceit/GamePlayWorker.java:230-312 | the turn loop ends as `Turns.Continue` specifies, and a banked end equals the final accumulator |
| GamePlay.ActivePlayer.TakeTurn | com/chanceit/GamePlayWorker.java:202-330 | the turn's end, re-rolls, remaining input, route and dice are those `Turns.Turn` gives for the player's seat; a banked turn adds exactly its points to slot 0; a forfeit leaves both slots unchanged; the socket's open state is kept |
| GamePlay.GamePlayWorker.constructor | com/chanceit/GamePlayWorker.java:494-503 | a new worker has no game, no players and zero scores |
| GamePlay.GamePlayWorker.ResetData | com/chanceit/GamePlayWorker.java:509-517 | the worker returns to no game, no players and a fresh zeroed score object |
| GamePlay.GamePlayWorker.TryPair | com/chanceit/GamePlayWorker.java:520-553 | with more than one registration queued, the two oldest are removed in order and a game starts between them, each keeping its socket, name, wait state and message; only those two registrations may change; otherwise nothing changes; it reports whether another worker should be notified (more than one still queued) |
| GamePlay.GamePlayWorker.StartGame | com/chanceit/GamePlayWorker.java:529-549 | both registrations are claimed in the same step (canUnregister false, still registered, valid, each with its player's callback), keep their socket, name, wait state and message, become mutual opponents as fresh active players over exactly those registrations, and the game is on |
| GamePlay.GamePlayWorker.GetWhoGoesFirst | com/chanceit/GamePlayWorker.java:703-726 | both players roll the same number of times; the roll-off is decided at its last round; the first mover is the player with the strictly higher roll there |
| GamePlay.GamePlayWorker.PlayTurn | com/chanceit/GamePlayWorker.java:599-623 | the current player plays the turn its seat gives and moves to the next seat, the opponent's seat untouched; a banked turn advances the slots by its points and hands the move to the opponent; a forfeit changes neither |
| GamePlay.GamePlayWorker.LogGameOutcome | com/chanceit/GamePlayWorker.java:675-688 | when a log is configured, exactly the outcome line of the record is appended |
| GamePlay.GamePlayWorker.Move | com/chanceit/GamePlayWorker.java:599-623 | one turn of a game under way: the turn played is the next of the turns the seats give; a forfeit is where the game stops, with the mover still current; a banked turn joins the run, the slots are the replay of the banked points, and the opponent moves next from its seat |
| GamePlay.GamePlayWorker.PlayRound | com/chanceit/GamePlayWorker.java:597-649 | one round: two banked turns with the first mover current again and both at their next seats, or a stop at the first forfeit with its mover current; the slots are the replay of the turns played |
| GamePlay.GamePlayWorker.PlayRounds | com/chanceit/GamePlayWorker.java:597-649 | the turns played are exactly `Play` of the two opening seats over 2 × numberOfTurns turns; the slots are their replay, the forfeit is the last turn's, and the current player is the first mover, or the mover of the forfeited turn |
| GamePlay.GamePlayWorker.Contest | com/chanceit/GamePlayWorker.java:589-649 | the first mover is the player the roll-off's deciding round picks; both seats open after the roll-off dice; the turns played are `Play` of those seats, with the slots, the forfeit and the current player as PlayRounds leaves them |
| GamePlay.GamePlayWorker.Record | com/chanceit/GamePlayWorker.java:608-664 | the record logged after the turn loop is `GameRecord` of the turns played, with the first mover in slot 0 |
| GamePlay.GamePlayWorker.Conclude | com/chanceit/GamePlayWorker.java:652-671 | the outcome line is logged and both sockets are closed |
| GamePlay.GamePlayWorker.CloseBoth | com/chanceit/GamePlayWorker.java:666-671 | both players' sockets are closed |
| GamePlay.GamePlayWorker.PlayGame | com/chanceit/GamePlayWorker.java:562-673 | the first mover is the player the roll-off picks; the turns are `Play` of the seats after the roll-off; the one line logged is `GameRecord` of those turns, which `Outcomes.GameOutcome` shows is a forfeit iff some turn was forfeited and otherwise the higher total; both sockets are closed |
| Registration.CallBack.constructor | com/chanceit/GamePlayWorker.java:83-97 | a new mailbox holds no state and no message |
| Registration.CallBack.SetState | com/chanceit/PlayerRegistrar.java:170-178 | the state is set and the message is kept |
| Registration.CallBack.SetMessage | com/chanceit/PlayerRegistrar.java:171 | the message is set and the state is kept |
| Registration.Greet | com/chanceit/PlayerRegistrar.java:86-126 | the HELLO loop stops at the first line tagged HELLO: with a non-empty name, after skipping only other lines; end of stream or a broken socket stops it with no name |
| Registration.ReadHello | com/chanceit/PlayerRegistrar.java:86-120 | reads exactly through the line `Greet` stops at and returns its name, if any |
| Registration.ReactAsWritten | com/chanceit/PlayerRegistrar.java:134-200 | a GOODBYE line unregisters; another line is passed to the game iff the registration was claimed; a time-out hands off iff claimed; end of stream removes and exits; a broken socket exits |
| Registration.ResetLeavesEntryAsWritten | com/chanceit/PlayerRegistrar.java:173-200 | a broken socket while still queued ends the run without attempting the guarded removal |
| Registration.React | com/chanceit/PlayerRegistrar.java:181-197 | the corrected reaction treats a broken socket like end of stream and agrees with the source otherwise |
| Registration.ExitOnlyAfterRemoval | com/chanceit/PlayerRegistrar.java:181-197 | under the corrected reaction a run ends only through the guarded removal; once claimed, every line or time-out is handed to the game or unregisters |
| Registration.Without | com/chanceit/PlayerRegistrar.java:152 | removal drops the registration and keeps every other entry |
| Registration.WithoutAppended | com/chanceit/PlayerRegistrar.java:152 | removing a registration that was appended last gives back the queue it was appended to |
| Registration.WithoutDistinct | com/chanceit/PlayerRegistrar.java:152 | removal keeps the queue free of duplicates |
| Registration.Farewell | com/chanceit/PlayerRegistrar.java:133-199 | what the withdrawal loop reads while withdrawable: what is left is a suffix of the input; every read before the last is a line or a time-out; an open socket with input reads at least once; the socket ends closed iff it was closed or the registration was queued (a GOODBYE or the final removal closes it) |
| Registration.FarewellStep | com/chanceit/PlayerRegistrar.java:134-198 | one read under `React` either ends the loop with the guarded removal or continues it on the rest, a GOODBYE having withdrawn a queued registration |
| Registration.RegistrationQueue.constructor | com/chanceit/PlayerRegistrar.java:23 | the queue starts empty |
| Registration.RegistrationQueue.Add | com/chanceit/PlayerRegistrar.java:108-109 | the registration is appended at the tail |
| Registration.RegistrationQueue.Poll | com/chanceit/GamePlayWorker.java:529-530 | the head is removed and returned, or nothing when the queue is empty |
| Registration.RegistrationQueue.Remove | com/chanceit/PlayerRegistrar.java:152 | reports whether the registration was queued and removes it |
| Registration.Registrar.constructor | com/chanceit/PlayerRegistrar.java:35-45 | WAIT_HELLO, not registered, canUnregister true, no name, message or callback |
| Registration.Registrar.ResetData | com/chanceit/PlayerRegistrar.java:48-59 | the same initial state again |
| Registration.Registrar.AwaitHello | com/chanceit/PlayerRegistrar.java:80-126 | on a greeting the name is set, the registration is appended to the queue, a waiter is notified iff more than one is queued, and only then is the state WAIT_GOODBYE; without one nothing is queued and the state stays WAIT_HELLO |
| Registration.Registrar.Claim | com/chanceit/GamePlayWorker.java:531-544 | a claimed registration has canUnregister false and the game's callback, and nothing else changes |
| Registration.Registrar.Withdraw | com/chanceit/PlayerRegistrar.java:150-161 | removal succeeds iff canUnregister is still true and the registration is still queued; then it is unregistered and its socket closed; otherwise nothing changes |
| Registration.Registrar.AwaitGoodbyeStep | com/chanceit/PlayerRegistrar.java:136-198 | one read of the withdrawal loop reacts as `React` says: GOODBYE sets WAIT_QUEUE and tries the guarded removal; a line after the claim is stored and passed to the callback with WAIT_TURN; a time-out after the claim sets WAIT_TURN in both; end of stream tries the guarded removal and exits; a claimed registration is never withdrawn; the stored message and the callback's message change only on a line passed to the game, the callback's state only then or on the hand-off, and the socket is closed only by a removal |
| Registration.Registrar.AwaitGoodbye | com/chanceit/PlayerRegistrar.java:133-199 | the loop runs while canUnregister holds and ends with the registration out of the queue, either claimed or withdrawn, never both; a withdrawable registration reads exactly up to the first end of stream or broken read after skipping lines and time-outs (`Farewell` of its input), ends withdrawn and has its socket closed iff it was queued or already closed; a claimed one reads nothing and changes nothing |
| Registration.Registrar.Run | com/chanceit/PlayerRegistrar.java:62-200 | a registrar's run ends with its registration out of the queue and the queue as it found it; the name is the one `Greet` finds; without a HELLO the registrar stays unqueued with its socket open past the read `Greet` stopped at; with one it ends withdrawn, its socket closed, having read what `Farewell` says of the rest |
| Prototype.Greeting | com/chanceit/ChanceItServer.java:254-258 | a name is taken iff the first line starts with "HELLO:" and is longer; end of stream kills the thread |
| Prototype.GreetingNames | com/chanceit/ChanceItServer.java:254-258 | "HELLO:" plus a name gives that name, and a bare "HELLO:" gives none |
| Prototype.Player.Register | com/chanceit/ChanceItServer.java:254-263 | the name is set only by a proper HELLO line, and the player is counted down unless the stream ended |
| Prototype.Classify | com/chanceit/ChanceItServer.java:311-339 | only "chance-it…" re-rolls and only "stop…" ends the turn; anything else re-prompts |
| Prototype.ClassifyDiffersFromPooledServer | com/chanceit/ChanceItServer.java:311-339 | "", "Y" and "n" are ignored by the prototype but act in the pooled server; "chance-it" re-rolls in both |
| Prototype.StepOf | com/chanceit/ChanceItServer.java:304-347 | a pass that does not end the turn consumes a line and credits the running accumulator once; a pass that ends it credits nothing |
| Prototype.Player.TurnStep | com/chanceit/ChanceItServer.java:304-347 | one pass of the loop leaves the state `StepOf` specifies and adds its credit to slot 0 |
| Prototype.Loop | com/chanceit/ChanceItServer.java:304-347 | the loop consumes input and draws two dice per re-roll |
| Prototype.LoopByStep | com/chanceit/ChanceItServer.java:304-347 | the loop is its first pass followed by the loop on what remains |
| Prototype.Player.PlayOut | com/chanceit/ChanceItServer.java:304-347 | the loop ends as `Loop` specifies and slot 0 grows by the sum of its credits |
| Prototype.LoopCreditsRise | com/chanceit/ChanceItServer.java:324-346 | the credits added to slot 0 never fall below the accumulator the loop started with, and never fall from one pass to the next |
| Prototype.Turn | com/chanceit/ChanceItServer.java:283-353 | a turn draws two dice for the first roll and two per re-roll |
| Prototype.TurnCreditsAtLeastFirst | com/chanceit/ChanceItServer.java:291-346 | every credit of a turn is at least its first roll |
| Prototype.ReRollCredits | com/chanceit/ChanceItServer.java:311-346 | a non-busting "chance-it" adds the roll to the accumulator and credits the new total |
| Prototype.StopCreditsNothing | com/chanceit/ChanceItServer.java:336-338 | "stop" ends the turn at once and credits nothing |
| Prototype.IgnoredLineCreditsAgain | com/chanceit/ChanceItServer.java:339-346 | an unrecognised line credits the running accumulator once more and re-prompts |
| Prototype.SilenceExpires | com/chanceit/ChanceItServer.java:340-344 | a read time-out ends the turn with the time-out |
| Prototype.BustEndsTurn | com/chanceit/ChanceItServer.java:309-324 | a "chance-it" line whose re-roll repeats the first roll ends the turn completed at that pass, crediting nothing, for any accumulator and any remaining input |
| Prototype.BustKeepsCredits | com/chanceit/ChanceItServer.java:311-346 | in the case of one non-busting re-roll and then a bust, the turn ends completed and slot 0 keeps the first pass's credit, the first roll plus the re-roll |
| Prototype.ReRollThenStop | com/chanceit/ChanceItServer.java:311-346 | one re-roll followed by "stop" credits the new total exactly once |
| Prototype.TwoReRollsCredit | com/chanceit/ChanceItServer.java:311-346 | two re-rolls then "stop" credit both running totals |
| Prototype.PooledTurnBanks | com/chanceit/GamePlayWorker.java:286-305 | the same answers with "n" in the pooled server bank the three sums once |
| Prototype.RunningTotalsCountTwice | com/chanceit/ChanceItServer.java:324-346 | with two re-rolls the prototype adds 2f+2s1+s2 to the mover's score where the pooled server banks f+s1+s2 |
| Prototype.SameWinnerAsPooledServer | com/chanceit/ChanceItServer.java:152-162 | on the same slots both servers give the game to the same player: the mover on a strictly higher slot 0, the opponent otherwise, ties included; on a tie the winner's score is the opponent's slot, though only the pooled server marks it a tie |
| Prototype.Player.constructor | com/chanceit/ChanceItServer.java:223-226 | a new player has no name, no opponent, fresh dice and is not yet counted |
| Prototype.Player.SetOpponent | com/chanceit/ChanceItServer.java:268-270 | sets the opponent |
| Prototype.Player.RollDie | com/chanceit/ChanceItServer.java:275-279 | the roll is the next value of the player's die |
| Prototype.Game.constructor | com/chanceit/ChanceItServer.java:45-61 | the two players are mutual opponents, the first is current, and the scores are zero |
| Prototype.Game.GetWhoGoesFirst | com/chanceit/ChanceItServer.java:183-198 | the recursive roll-off rolls both dice equally often; it is decided at its last round; the first mover is the player with the strictly higher roll there |
| Prototype.Ends | com/chanceit/ChanceItServer.java:117-149 | the turns a game would run from two seats number exactly the turns left |
| Prototype.Cut | com/chanceit/ChanceItServer.java:117-149 | the turns a game plays are never more than the turns it would run |
| Prototype.Points | com/chanceit/ChanceItServer.java:120-126 | every turn played credits slot 0, so there is one score per turn |
| Prototype.PointsSnoc | com/chanceit/ChanceItServer.java:120-126 | one more turn adds its credit to the scores |
| Prototype.CutAfterCompleted | com/chanceit/ChanceItServer.java:117-149 | completed turns before the rest never stop the game |
| Prototype.CutShape | com/chanceit/ChanceItServer.java:117-149 | the turns played are a prefix of the turns the seats give: all of them, every one completed, when the last completes; else up to the first that throws, every turn before it completed |
| Prototype.CutAtTurn | com/chanceit/ChanceItServer.java:119-133 | after completed turns one that throws is where the game stops, and a completed one extends the run |
| Prototype.PlayStep | com/chanceit/ChanceItServer.java:119-133 | the next turn of a game under way is the mover's turn from its seat: one that throws ends the game there; a completed one joins the run, and the opponent moves next from its seat |
| Prototype.PlayWhole | com/chanceit/ChanceItServer.java:117-149 | a game whose turns all complete is played out in full |
| Prototype.ResultOfCut | com/chanceit/ChanceItServer.java:117-162 | over an even number of turns the game is won by time-out iff some turn timed out, the mover of that turn losing to the opponent; it is aborted iff some turn crashed; otherwise every turn completed and the first mover wins iff their slot is strictly higher |
| Prototype.GameResultOfPlay | com/chanceit/ChanceItServer.java:117-162 | for the turns the seats give, the result is a time-out iff some turn played timed out and aborted iff one crashed; a win after the rounds means all turns were played and completed |
| Prototype.Player.TakeTurn | com/chanceit/ChanceItServer.java:283-353 | the turn's end, credits, re-rolls, remaining input and dice are those `Turn` gives for the player's seat; slot 0 grows by the sum of the credits and slot 1 is untouched |
| Prototype.Game.PlayTurn | com/chanceit/ChanceItServer.java:119-133 | the current player plays the turn its seat gives, with its credits as points, and moves to the next seat, the opponent's untouched; a completed turn advances the slots and hands the move on; a throw keeps the current player and the credits already in slot 0 |
| Prototype.Game.Move | com/chanceit/ChanceItServer.java:119-133 | one turn of a game under way is the next of the turns the seats give; a throw is where the game stops, with the mover current; a completed turn joins the run, the slots are the replay of the credits, and the opponent moves next |
| Prototype.Game.PlayRound | com/chanceit/ChanceItServer.java:117-149 | a completed round adds two turns and returns the move to the same player; a throw stops it with its mover current |
| Prototype.Game.PlayRounds | com/chanceit/ChanceItServer.java:117-149 | the turns played are exactly `Play` of the two opening seats over 2 × NUMBER_OF_TURNS turns; after a full game the slots are their replay and the first mover is current; after a throw its mover is current |
| Prototype.Game.Contest | com/chanceit/ChanceItServer.java:109-149 | the first mover is the player the roll-off's deciding round picks; both seats open after the roll-off dice; the turns played are `Play` of those seats |
| Prototype.Game.Verdict | com/chanceit/ChanceItServer.java:128-162 | the result is `GameResult` of the turns played: a strictly higher slot 0 wins for the player to move, else the opponent wins; a time-out gives the game to the opponent; a crash gives no verdict |
| Prototype.Game.Run | com/chanceit/ChanceItServer.java:99-170 | the first mover is the player the roll-off picks; the turns are `Play` of the seats after the roll-off; the result is `GameResult` of those turns, which `ResultOfCut` explains; both sockets are closed |

## Left out

- Console output and player prompts are not modelled. These include
  `displayStats`, the roll-off messages, `notifyNameOfOpponent` and the
  HELLO/WELCOME acknowledgements. The outcome line is the only output modelled
  as text.
- Real time is not modelled: `setSoTimeout`, `Thread.sleep` and the
  250 ms / 1 s timing. A read time-out is a `TimedOut` event in the connection's
  input.
- `wait`/`notify` and thread interleavings are not modelled. Each
  `synchronized` block is one atomic method, and a `notify` is a returned
  boolean.
- `java.util.Random` is not modelled. Each player's dice are a supplied stream
  of values in 1..6.
- `GamePlay.GamePlayWorker.GetWhoGoesFirst` and `Prototype.Game.Run` require
  the two die streams to differ at some round. Both sources loop or recurse
  forever on streams that tie for ever.
- Configuration properties are not modelled. `numberOfTurns` is a constructor
  parameter of the pooled worker. The goodbye time-out is left out with real
  time.
- `ServerSocket.accept`, the thread pool, `TaskRepeatingThreadPoolExecutor` and
  `PoolMonitor` are not part of this model. Only the `resetData` methods they
  call are modelled.
- The bootstrap in `ChanceItServer2` is not part of this model.
- The prototype's `CountDownLatch` and accept loop are modelled only as the
  `counted` flag each player sets.
- Writing to `gameLog` is modelled as appending the line. An `IOException`
  from the writer is not modelled.
- The commented-out legacy `takeTurn` in GamePlayWorker.java (lines 332-487)
  is not modelled. It is dead code.
- Scores and turn accumulators are unbounded integers. In the source,
  `player0Score`, `player1Score` and `turnAccumulation` are 32-bit Java `int`s
  (ChanceItServer.java:88-91, GamePlayWorker.java:58-61), which wrap around
  past 2^31-1. Games long enough to overflow are not modelled. In the
  prototype, every unrecognised line credits the accumulator again
  (ChanceItServer.java:346), so input alone could reach that bound. Once a
  slot wraps, the `player0Score > player1Score` tests at ChanceItServer.java:152
  and GamePlayWorker.java:652 would pick the other winner.
- `Outcomes.ShareNonNegative`: holds for the unbounded totals of the model. A
  Java `int` total that wraps past 2^31-1 would turn negative.
- `Outcomes.RecordRoundTrip`: requires non-empty player names without commas,
  because the line format cannot be split back otherwise.
- `GamePlay.GamePlayWorker.TryPair`: `StartGame` gives each new active player
  a die stream passed in, instead of a fresh `Random`.
- `Prototype.Game.Run`: a crash of a player thread (a `NullPointerException`
  from a null line at end of stream) is the `Crashed` ending, which gives the
  `Aborted` result with no verdict. In the source the exception escapes `run`
  after the finally block closes both sockets; nothing else of that path is
  modelled.
- `GamePlay.ActivePlayer.GetNextCommand`: runs the corrected fetch
  `Turns.NextFetch`, which reads again where the source returns null (see
  Findings). In the source that null makes `command.length()` at
  GamePlayWorker.java:276 throw a `NullPointerException`.
- `GamePlay.GamePlayWorker.PlayGame`: plays turns with the corrected fetch of
  `GetNextCommand`, so every game logs one outcome line. In the source a null
  command throws out of `playGame`: no outcome line is logged, and only the
  finally block at GamePlayWorker.java:666-671 runs, closing both sockets.
- `Registration.Registrar.AwaitGoodbyeStep`: reacts with the corrected
  `Registration.React`, which treats a broken socket like end of stream (see
  Findings). In the source a broken socket leaves the loop through the outer
  `catch` at PlayerRegistrar.java:200, with no guarded removal.
- `Registration.Registrar.AwaitGoodbye`: ends with the registration out of the
  queue only under the corrected reaction. In the source a broken socket ends
  the loop with the registration still queued, where a game worker can later
  poll it.
- `Registration.Registrar.Run`: requires that the registrar is not already in
  the queue. In the source, after the broken-socket exit above, `resetData`
  (PlayerRegistrar.java:48-59) recycles the registrar for the next connection
  while its stale entry is still queued. That state is not modelled.
- `Registration.Registrar.Run`: runs the HELLO part and the withdrawal loop
  with no game worker acting in between, so its contract describes a run whose
  registration is never claimed. A claim between two reads is modelled one
  step at a time by `Registrar.Claim` and `Registrar.AwaitGoodbyeStep`.

## Findings

| source | as written | input that shows it | evidently intended | confidence | as-written member | corrected member |
|---|---|---|---|---|---|---|
| com/chanceit/GamePlayWorker.java:137-200 | `getNextCommand` returns null when the hand-off probe reads a time-out or end of stream and neither the registrar nor the callback holds a line, or when neither of its branches applies; `takeTurn` then calls `command.length()` at line 276 on null, which throws a `NullPointerException` | route `Probe(None, None)` with input `[TimedOut, Line("Y")]` | fall back to an ordinary read so a command is always returned | not executed | Turns.FetchAsWrittenCanBeNull | Turns.NextFetchAgrees |
| com/chanceit/PlayerRegistrar.java:134-200 | a `SocketException` (broken socket) in the withdrawal loop is caught only by the outer `catch (IOException e) {}` at line 200, so the run ends without the guarded removal that end of stream performs, and a still-queued registration stays in the queue | `ReactAsWritten(Broken, true)` | treat a broken socket like end of stream: remove the registration under the lock, then exit | not executed | Registration.ResetLeavesEntryAsWritten | Registration.ExitOnlyAfterRemoval |

=== FILE: chance_it_server.dfy ===
/**
 * The first, single-game server (ChanceItServer: the classes Game and
 * Game.Player). Its rules differ from the pooled server's: only a command
 * starting with "chance-it" rolls again, "stop" ends the turn, and slot 0 of
 * the scores is credited with the running accumulator after every pass of the
 * turn loop that does not break out of it. A game has a fixed two rounds and
 * a tie goes to the opponent of the player to move. Messages to the players
 * and the console are not modelled.
 */
module Prototype {
  import opened Wrappers
  import opened Text
  import opened Sockets
  import opened Dice
  import opened Scores
  import Turns
  import Outcomes

  /** NUMBER_OF_TURNS: the rounds of a game, each a turn for both players. */
  const NUMBER_OF_TURNS: nat := 2

  const HELLO: string := "HELLO:"

  // ---------------------------------------------------------------------
  // Registration: the first line of Player.run

  /** What Player.run makes of its first read. */
  datatype Hello =
    | Named(name: string)   // "HELLO:" and a non-empty name: the name is recorded
    | Anonymous             // any other line, or an IOException: no name, the game goes on
    | Died                  // a null line: command.startsWith throws, the latch is never counted down

  function Greeting(ev: ReadEvent): (h: Hello)
    ensures h.Named? <==> ev.Line? && StartsWith(ev.text, HELLO) && |ev.text| > |HELLO|
    ensures h.Named? ==> HELLO + h.name == ev.text
    ensures h == Died <==> ev == EndOfStream
  {
    match ev
    case Line(c) => (match Tagged(HELLO, c) case Some(n) => Named(n) case None => Anonymous)
    case EndOfStream => Died
    case TimedOut => Anonymous
    case Broken => Anonymous
  }

  /** A HELLO line names its sender exactly when the name is not empty. */
  lemma GreetingNames(name: string)
    ensures Greeting(Line(HELLO + name)) == if name == [] then Anonymous else Named(name)
  {
    TaggedRoundTrip(HELLO, name);
  }

  // ---------------------------------------------------------------------
  // The rules of a turn

  /** What a line typed at the "chance-it?" prompt does. */
  datatype Command = ReRoll | Halt | Ignore

  /** takeTurn tests two prefixes; anything else, the empty line included, re-prompts. */
  function Classify(c: string): (m: Command)
    ensures m == ReRoll <==> StartsWith(c, "chance-it")
    ensures m == Halt <==> !StartsWith(c, "chance-it") && StartsWith(c, "stop")
  {
    if StartsWith(c, "chance-it") then ReRoll
    else if StartsWith(c, "stop") then Halt
    else Ignore
  }

  /**
   * The commands the two servers read differently: the pooled server's
   * default (an empty line, "Y") and its "n" only re-prompt here.
   */
  lemma ClassifyDiffersFromPooledServer()
    ensures Classify("") == Ignore && Turns.Classify("") == Turns.ChanceIt
    ensures Classify("Y") == Ignore && Turns.Classify("Y") == Turns.ChanceIt
    ensures Classify("n") == Ignore && Turns.Classify("n") == Turns.EndTurn
    ensures Classify("chance-it") == ReRoll && Turns.Classify("chance-it") == Turns.ChanceIt
  {
    assert "Y"[..1] == "Y" && "Y"[..1][0] == 'Y';
    assert "n"[..1] == "n" && "n"[..1][0] == 'n';
    assert "chance-it"[..9] == "chance-it";
  }

  /** How takeTurn returns: normally, by the timeout exception, or by a NullPointerException. */
  datatype Ending =
    | Completed   // "stop", a bust, or an IOException that takeTurn catches
    | Expired     // PlayerTimeoutException: the opponent wins
    | Crashed     // a null line: the exception leaves Game.run through its finally block

  /**
   * One pass of the turn loop: `over` is how the turn ended, if it did; the
   * credit is what the bottom of the loop adds to slot 0 (nothing when the
   * pass breaks out); the re-roll taken, the reads left and the dice drawn.
   */
  datatype Step = Step(over: Option<Ending>, acc: int, credit: seq<int>, reroll: seq<int>,
                       rest: seq<ReadEvent>, draws: nat)

  function StepOf(first: int, acc: int, input: seq<ReadEvent>, closed: bool, die: DieStream, draws: nat): (p: Step)
    ensures p.over == None ==> |p.rest| < |input| && p.credit == [p.acc]
    ensures p.over.Some? ==> p.credit == []
    ensures |p.reroll| <= 1 && p.draws == draws + 2 * |p.reroll|
    ensures p.reroll != [] ==> p.reroll[0] == Turns.Roll(die, draws)
    ensures |p.rest| <= |input|
  {
    var rest := AfterRead(input, closed);
    match NextEvent(input, closed)
    case Line(c) =>
      (match Classify(c)
       case ReRoll =>
         var s := Turns.Roll(die, draws);
         if s == first then Step(Some(Completed), 0, [], [s], rest, draws + 2)
         else Step(None, acc + s, [acc + s], [s], rest, draws + 2)
       case Halt => Step(Some(Completed), acc, [], [], rest, draws)
       case Ignore => Step(None, acc, [acc], [], rest, draws))
    case TimedOut => Step(Some(Expired), acc, [], [], rest, draws)
    case EndOfStream => Step(Some(Crashed), acc, [], [], rest, draws)
    case Broken => Step(Some(Completed), acc, [], [], rest, draws)
  }

  /**
   * A finished turn: how it ended, the credits made to slot 0 in order, the
   * re-roll sums, the reads left and the dice drawn so far.
   */
  datatype TurnRun = TurnRun(end: Ending, credits: seq<int>, rerolls: seq<int>, rest: seq<ReadEvent>, draws: nat)

  /** The turn loop: passes until one breaks out or throws. */
  function Loop(first: int, acc: int, input: seq<ReadEvent>, closed: bool, die: DieStream, draws: nat): (r: TurnRun)
    ensures |r.rest| <= |input|
    ensures r.draws == draws + 2 * |r.rerolls|
    decreases |input|
  {
    var p := StepOf(first, acc, input, closed, die, draws);
    if p.over.Some? then TurnRun(p.over.value, [], p.reroll, p.rest, p.draws)
    else
      var r := Loop(first, p.acc, p.rest, closed, die, p.draws);
      r.(credits := p.credit + r.credits, rerolls := p.reroll + r.rerolls)
  }

  /** A run with `credits` and `rerolls` taken in front of its own. */
  function After(credits: seq<int>, rerolls: seq<int>, r: TurnRun): TurnRun {
    r.(credits := credits + r.credits, rerolls := rerolls + r.rerolls)
  }

  lemma AfterTwice(c1: seq<int>, r1: seq<int>, c2: seq<int>, r2: seq<int>, r: TurnRun)
    ensures After(c1, r1, After(c2, r2, r)) == After(c1 + c2, r1 + r2, r)
  {
    assert c1 + (c2 + r.credits) == (c1 + c2) + r.credits;
    assert r1 + (r2 + r.rerolls) == (r1 + r2) + r.rerolls;
  }

  /** The loop is its first pass followed by the loop from where that pass left off. */
  lemma LoopByStep(first: int, acc: int, input: seq<ReadEvent>, closed: bool, die: DieStream, draws: nat)
    ensures var p := StepOf(first, acc, input, closed, die, draws);
            && (p.over.Some? ==> Loop(first, acc, input, closed, die, draws)
                                   == TurnRun(p.over.value, [], p.reroll, p.rest, p.draws))
            && (p.over == None ==> Loop(first, acc, input, closed, die, draws)
                                   == After(p.credit, p.reroll, Loop(first, p.acc, p.rest, closed, die, p.draws)))
  {
  }

  /** A whole turn: the first roll's sum opens the accumulator, then the loop. */
  function Turn(input: seq<ReadEvent>, closed: bool, die: DieStream, draws: nat): (r: TurnRun)
    ensures |r.rest| <= |input|
    ensures r.draws == draws + 2 + 2 * |r.rerolls|
  {
    var first := Turns.Roll(die, draws);
    Loop(first, first, input, closed, die, draws + 2)
  }

  /** What the credits of a turn add up to: the points slot 0 gains. */
  function Total(s: seq<int>): int {
    if s == [] then 0 else Total(s[..|s| - 1]) + s[|s| - 1]
  }

  lemma TotalSnoc(s: seq<int>, x: int)
    ensures Total(s + [x]) == Total(s) + x
  {
    assert (s + [x])[..|s|] == s;
  }

  /** Each credit is at least the accumulator the loop started from, and the credits never decrease. */
  predicate RisingFrom(lo: int, s: seq<int>) {
    && (forall k :: 0 <= k < |s| ==> lo <= s[k])
    && (forall i, j :: 0 <= i < j < |s| ==> s[i] <= s[j])
  }

  /**
   * Slot 0 is credited the running accumulator, not the points of the pass:
   * the credits of a turn start at its first roll and never decrease, since
   * the accumulator only grows until the turn breaks.
   */
  lemma {:induction false} LoopCreditsRise(first: int, acc: int, input: seq<ReadEvent>, closed: bool,
                                           die: DieStream, draws: nat)
    ensures RisingFrom(acc, Loop(first, acc, input, closed, die, draws).credits)
    decreases |input|
  {
    var p := StepOf(first, acc, input, closed, die, draws);
    if p.over == None {
      LoopCreditsRise(first, p.acc, p.rest, closed, die, p.draws);
      var r := Loop(first, p.acc, p.rest, closed, die, p.draws);
      var cs := p.credit + r.credits;
      assert acc <= p.acc;
      forall i, j | 0 <= i < j < |cs|
        ensures cs[i] <= cs[j]
      {
        if i > 0 {
          assert cs[i] == r.credits[i - 1] && cs[j] == r.credits[j - 1];
        } else {
          assert cs[j] == r.credits[j - 1];
        }
      }
      forall k | 0 <= k < |cs|
        ensures acc <= cs[k]
      {
        if k > 0 {
          assert cs[k] == r.credits[k - 1];
        }
      }
    }
  }

  /** Every credit of a turn is at least its first roll, so at least 2. */
  lemma TurnCreditsAtLeastFirst(input: seq<ReadEvent>, closed: bool, die: DieStream, draws: nat)
    ensures RisingFrom(Turns.Roll(die, draws), Turn(input, closed, die, draws).credits)
  {
    LoopCreditsRise(Turns.Roll(die, draws), Turns.Roll(die, draws), input, closed, die, draws + 2);
  }

  /** "stop" breaks out before the bottom of the loop: it credits nothing. */
  lemma StopCreditsNothing(first: int, acc: int, rest: seq<ReadEvent>, die: DieStream, draws: nat)
    ensures Loop(first, acc, [Line("stop")] + rest, false, die, draws) == TurnRun(Completed, [], [], rest, draws)
  {
    assert ([Line("stop")] + rest)[1..] == rest;
    assert "stop"[..4] == "stop" && "stop"[..1][0] == 's';
  }

  /** A line that is no command credits the accumulator once more. */
  lemma IgnoredLineCreditsAgain(first: int, acc: int, c: string, rest: seq<ReadEvent>, die: DieStream, draws: nat)
    requires Classify(c) == Ignore
    ensures Loop(first, acc, [Line(c)] + rest, false, die, draws)
            == After([acc], [], Loop(first, acc, rest, false, die, draws))
  {
    assert ([Line(c)] + rest)[1..] == rest;
  }

  /** A timeout at the prompt loses the game. */
  lemma SilenceExpires(first: int, acc: int, rest: seq<ReadEvent>, die: DieStream, draws: nat)
    ensures Loop(first, acc, [TimedOut] + rest, false, die, draws).end == Expired
  {
  }

  /** A re-roll that is not a bust credits the accumulator with its sum added. */
  lemma ReRollCredits(first: int, acc: int, rest: seq<ReadEvent>, die: DieStream, draws: nat)
    requires Turns.Roll(die, draws) != first
    ensures var s := Turns.Roll(die, draws);
            Loop(first, acc, [Line("chance-it")] + rest, false, die, draws)
            == After([acc + s], [s], Loop(first, acc + s, rest, false, die, draws + 2))
  {
    assert ([Line("chance-it")] + rest)[1..] == rest;
    assert "chance-it"[..9] == "chance-it";
  }

  /** A re-roll that is no bust, then "stop": one credit, the accumulator with the re-roll added. */
  lemma ReRollThenStop(first: int, acc: int, input: seq<ReadEvent>, rest: seq<ReadEvent>, die: DieStream, draws: nat)
    requires Turns.Roll(die, draws) != first
    requires input == [Line("chance-it")] + ([Line("stop")] + rest)
    ensures Loop(first, acc, input, false, die, draws).credits == [acc + Turns.Roll(die, draws)]
  {
    ReRollCredits(first, acc, [Line("stop")] + rest, die, draws);
    StopCreditsNothing(first, acc + Turns.Roll(die, draws), rest, die, draws + 2);
  }

  /**
   * Two re-rolls and "stop", none of them a bust: slot 0 is credited the
   * first roll plus the first re-roll, then that plus the second re-roll.
   */
  lemma TwoReRollsCredit(die: DieStream, n: nat, in1: seq<ReadEvent>, in2: seq<ReadEvent>, in3: seq<ReadEvent>,
                         rest: seq<ReadEvent>)
    requires Turns.Roll(die, n + 2) != Turns.Roll(die, n) && Turns.Roll(die, n + 4) != Turns.Roll(die, n)
    requires in1 == [Line("chance-it")] + in2 && in2 == [Line("chance-it")] + in3 && in3 == [Line("stop")] + rest
    ensures var f, s1, s2 := Turns.Roll(die, n), Turns.Roll(die, n + 2), Turns.Roll(die, n + 4);
            Turn(in1, false, die, n).credits == [f + s1, f + s1 + s2]
  {
    var f, s1 := Turns.Roll(die, n), Turns.Roll(die, n + 2);
    ReRollCredits(f, f, in2, die, n + 2);
    ReRollThenStop(f, f + s1, in2, rest, die, n + 4);
  }

  /** The pooled server's turn on the same rolls, ended with "n", banks each roll once. */
  lemma PooledTurnBanks(die: DieStream, n: nat, in1: seq<ReadEvent>, in2: seq<ReadEvent>, in3: seq<ReadEvent>,
                        rest: seq<ReadEvent>)
    requires Turns.Roll(die, n + 2) != Turns.Roll(die, n) && Turns.Roll(die, n + 4) != Turns.Roll(die, n)
    requires in1 == [Line("chance-it")] + in2 && in2 == [Line("chance-it")] + in3 && in3 == [Line("n")] + rest
    ensures Turns.Turn(Turns.Direct, in1, false, die, n).end
            == Turns.Banked(Turns.Roll(die, n) + Turns.Roll(die, n + 2) + Turns.Roll(die, n + 4))
  {
    var f := Turns.Roll(die, n);
    Turns.TurnOpensWithRoll(Turns.Direct, in1, false, die, n);
    Turns.TwoChanceItsThenNo(f, f, in1, in2, rest, die, n + 2);
  }

  /**
   * Two re-rolls and "stop", none of them a bust: slot 0 gains the first
   * roll and the first re-roll twice over, where the pooled server's turn,
   * ended with "n", banks each roll once.
   */
  lemma RunningTotalsCountTwice(die: DieStream, n: nat, rest: seq<ReadEvent>)
    requires Turns.Roll(die, n + 2) != Turns.Roll(die, n) && Turns.Roll(die, n + 4) != Turns.Roll(die, n)
    ensures Total(Turn([Line("chance-it"), Line("chance-it"), Line("stop")] + rest, false, die, n).credits)
            == 2 * Turns.Roll(die, n) + 2 * Turns.Roll(die, n + 2) + Turns.Roll(die, n + 4)
    ensures Turns.Turn(Turns.Direct, [Line("chance-it"), Line("chance-it"), Line("n")] + rest, false, die, n).end
            == Turns.Banked(Turns.Roll(die, n) + Turns.Roll(die, n + 2) + Turns.Roll(die, n + 4))
  {
    var f, s1, s2 := Turns.Roll(die, n), Turns.Roll(die, n + 2), Turns.Roll(die, n + 4);
    var stop3 := [Line("stop")] + rest;
    var stop2 := [Line("chance-it")] + stop3;
    TwoReRollsCredit(die, n, [Line("chance-it")] + stop2, stop2, stop3, rest);
    assert [Line("chance-it")] + stop2 == [Line("chance-it"), Line("chance-it"), Line("stop")] + rest;
    assert [f + s1, f + s1 + s2] == [f + s1] + [f + s1 + s2];
    TotalSnoc([f + s1], f + s1 + s2);
    TotalSnoc([], f + s1);
    var n3 := [Line("n")] + rest;
    var n2 := [Line("chance-it")] + n3;
    PooledTurnBanks(die, n, [Line("chance-it")] + n2, n2, n3, rest);
    assert [Line("chance-it")] + n2 == [Line("chance-it"), Line("chance-it"), Line("n")] + rest;
  }

  /**
   * A re-roll whose sum repeats the first roll busts: the turn ends
   * completed at that pass, which credits nothing, whatever the accumulator
   * and whatever input remains.
   */
  lemma BustEndsTurn(first: int, acc: int, c: string, rest: seq<ReadEvent>, die: DieStream, draws: nat)
    requires StartsWith(c, "chance-it") && Turns.Roll(die, draws) == first
    ensures Loop(first, acc, [Line(c)] + rest, false, die, draws) == TurnRun(Completed, [], [first], rest, draws + 2)
  {
    assert ([Line(c)] + rest)[1..] == rest;
  }

  /**
   * A bust after a non-busting re-roll ends the turn but takes back none of
   * what the earlier pass credited.
   */
  lemma BustKeepsCredits(die: DieStream, n: nat, rest: seq<ReadEvent>)
    requires Turns.Roll(die, n + 2) != Turns.Roll(die, n) && Turns.Roll(die, n + 4) == Turns.Roll(die, n)
    ensures var r := Turn([Line("chance-it"), Line("chance-it")] + rest, false, die, n);
            r.end == Completed && Total(r.credits) == Turns.Roll(die, n) + Turns.Roll(die, n + 2)
  {
    var f, s1 := Turns.Roll(die, n), Turns.Roll(die, n + 2);
    var tail := [Line("chance-it")] + rest;
    assert [Line("chance-it"), Line("chance-it")] + rest == [Line("chance-it")] + tail;
    ReRollCredits(f, f, tail, die, n + 2);
    assert "chance-it"[..9] == "chance-it";
    BustEndsTurn(f, f + s1, "chance-it", rest, die, n + 4);
    assert Turn([Line("chance-it")] + tail, false, die, n).credits == [f + s1] + [];
    TotalSnoc([], f + s1);
  }

  // ---------------------------------------------------------------------
  // The end of a game

  /** The verdict of Game.run after the last round: slot 0 belongs to the player to move. */
  predicate MoverWins(s: Slots) {
    s.mine > s.theirs
  }

  /**
   * Both servers give the game to the same player: the mover on a strictly
   * higher total, the opponent otherwise, ties included; only the pooled
   * server marks the tie.
   */
  lemma SameWinnerAsPooledServer(s: Slots, mover: string, other: string)
    ensures Outcomes.Decide(s, mover, other).winner == (if MoverWins(s) then mover else other)
    ensures !MoverWins(s) ==> Outcomes.Decide(s, mover, other).winnerScore == s.theirs
  {
  }

  // ---------------------------------------------------------------------
  // A game, turn by turn
  //
  // The pooled server's Outcomes module has the same shape of seats and
  // alternating turns, but it is kept apart from this one on purpose: there a
  // turn ends Banked or Forfeited and a forfeit ends the game, while here a
  // turn ends Completed, Expired or Crashed and credits every pass it played
  // to the running total (a Played ending with its points), which is a
  // different rule over a different ending type.

  /** Where a player stands between turns: the unread input, whether the socket is closed, the dice drawn so far. */
  datatype Seat = Seat(input: seq<ReadEvent>, closed: bool, die: DieStream, draws: nat)

  /** The turn the player in seat `s` takes next. */
  function TurnAt(s: Seat): TurnRun {
    Turn(s.input, s.closed, s.die, s.draws)
  }

  /**
   * A game is stated for any rule `turn` giving the turn a player takes from
   * a seat; the rule of this server is TurnAt.
   */
  ghost predicate Genuine(turn: Seat -> TurnRun) {
    forall s {:trigger TurnAt(s)} :: turn(s) == TurnAt(s)
  }

  /** Where the player in seat `s` stands after the turn. */
  function Next(turn: Seat -> TurnRun, s: Seat): Seat {
    var r := turn(s);
    Seat(r.rest, s.closed, s.die, r.draws)
  }

  /** A turn as the game sees it: how takeTurn returned and what it added to slot 0. */
  datatype Played = Played(end: Ending, points: int)

  function Outcome(turn: Seat -> TurnRun, s: Seat): Played {
    var r := turn(s);
    Played(r.end, Total(r.credits))
  }

  /**
   * The next `left` turns, were every one of them played: the player in seat
   * `mover` moves first and the two alternate.
   */
  function Ends(turn: Seat -> TurnRun, mover: Seat, other: Seat, left: nat): (ends: seq<Played>)
    ensures |ends| == left
    decreases left
  {
    if left == 0 then [] else [Outcome(turn, mover)] + Ends(turn, other, Next(turn, mover), left - 1)
  }

  /** The turns up to and including the first that throws. */
  function Cut(ends: seq<Played>): (c: seq<Played>)
    ensures |c| <= |ends|
  {
    if ends == [] then []
    else if ends[0].end != Completed then [ends[0]]
    else [ends[0]] + Cut(ends[1..])
  }

  /**
   * The turns of Game.run from the point where the player in seat `mover` is
   * to move, the one in seat `other` moves next and `left` turns remain: the
   * players alternate, and the first turn that throws ends the game.
   */
  function Play(turn: Seat -> TurnRun, mover: Seat, other: Seat, left: nat): seq<Played> {
    Cut(Ends(turn, mover, other, left))
  }

  /** Every turn in `ends` returned normally. */
  predicate Completing(ends: seq<Played>) {
    forall k :: 0 <= k < |ends| ==> ends[k].end == Completed
  }

  /** The points of the turns, in order. */
  function Points(ends: seq<Played>): (ps: seq<int>)
    ensures |ps| == |ends|
  {
    if ends == [] then [] else Points(ends[..|ends| - 1]) + [ends[|ends| - 1].points]
  }

  lemma PointsSnoc(ends: seq<Played>, e: Played)
    ensures Points(ends + [e]) == Points(ends) + [e.points]
  {
    assert (ends + [e])[..|ends|] == ends;
  }

  /**
   * How Game.run ends after the turns `ends` of a game that `first` opened
   * against `second`: a time-out makes the mover of the last turn lose, a
   * crash ends the game with no verdict, and otherwise slot 0, which is the
   * first mover's after an even number of turns, wins only when strictly
   * higher.
   */
  function GameResult(ends: seq<Played>, first: Player, second: Player): Result {
    var last := if ends == [] then Completed else ends[|ends| - 1].end;
    match last
    case Expired => if (|ends| - 1) % 2 == 0 then WonByTimeout(second, first) else WonByTimeout(first, second)
    case Crashed => Aborted
    case Completed => if MoverWins(Outcomes.Replay(Points(ends))) then Won(first, second) else Won(second, first)
  }

  /** Completed turns before the rest change nothing of where the game stops. */
  lemma {:induction false} CutAfterCompleted(init: seq<Played>, rest: seq<Played>)
    requires Completing(init)
    ensures Cut(init + rest) == init + Cut(rest)
  {
    if init != [] {
      assert (init + rest)[0] == init[0];
      assert (init + rest)[1..] == init[1..] + rest;
      var tail := init[1..];
      forall k | 0 <= k < |tail|
        ensures tail[k].end == Completed
      {
        assert tail[k] == init[k + 1];
      }
      CutAfterCompleted(tail, rest);
      assert init[0].end == Completed;
      assert Cut(init + rest) == [init[0]] + Cut(tail + rest);
      assert init == [init[0]] + tail;
    } else {
      assert init + rest == rest;
    }
  }

  /**
   * Cutting keeps a prefix: all of the turns when every one completes, else
   * the turns up to the first that throws, every one before it completed.
   */
  lemma {:induction false} CutShape(ends: seq<Played>)
    ensures var c := Cut(ends);
            && c == ends[..|c|]
            && (c == [] || c[|c| - 1].end == Completed ==> c == ends && Completing(ends))
            && (c != [] ==> Completing(c[..|c| - 1]))
  {
    if ends == [] || ends[0].end != Completed {
      return;
    }
    var tail := ends[1..];
    CutShape(tail);
    var c, ct := Cut(ends), Cut(tail);
    assert c == [ends[0]] + ct;
    assert ends == [ends[0]] + tail;
    if ct == [] || ct[|ct| - 1].end == Completed {
      forall k | 0 <= k < |ends|
        ensures ends[k].end == Completed
      {
        if k > 0 {
          assert ends[k] == tail[k - 1];
        }
      }
    }
    if ct != [] {
      assert c[|c| - 1] == ct[|ct| - 1];
      forall k | 0 <= k < |c| - 1
        ensures c[k].end == Completed
      {
        if k > 0 {
          assert c[k] == ct[..|ct| - 1][k - 1];
        }
      }
    }
  }

  /** A turn after completed ones: one that throws is where the game stops, a completed one extends the run. */
  lemma CutAtTurn(ends: seq<Played>, e: Played, rest: seq<Played>)
    requires Completing(ends)
    ensures e.end != Completed ==> Cut(ends + ([e] + rest)) == ends + [e]
    ensures e.end == Completed ==> Completing(ends + [e]) && ends + ([e] + rest) == (ends + [e]) + rest
  {
    assert ends + ([e] + rest) == (ends + [e]) + rest;
    if e.end != Completed {
      CutAfterCompleted(ends, [e] + rest);
    } else {
      assert forall k :: 0 <= k < |ends| + 1 ==> (ends + [e])[k] == if k < |ends| then ends[k] else e;
    }
  }

  /**
   * The next turn of a game under way, all of whose turns would be `game`:
   * after the completed turns `ends`, with the player in seat `mover` to move
   * and `left` turns to go, a turn that throws ends the game there; a
   * completed one joins `ends`, and the opponent moves next.
   */
  lemma PlayStep(turn: Seat -> TurnRun, game: seq<Played>, ends: seq<Played>, mover: Seat, other: Seat, left: nat)
    requires Completing(ends) && left > 0
    requires game == ends + Ends(turn, mover, other, left)
    ensures var e := Outcome(turn, mover);
            && (e.end != Completed ==> Cut(game) == ends + [e])
            && (e.end == Completed ==> Completing(ends + [e])
                                       && game == (ends + [e]) + Ends(turn, other, Next(turn, mover), left - 1))
  {
    CutAtTurn(ends, Outcome(turn, mover), Ends(turn, other, Next(turn, mover), left - 1));
  }

  /** A game whose turns all completed is played out in full. */
  lemma PlayWhole(game: seq<Played>)
    requires Completing(game)
    ensures Cut(game) == game
  {
    CutAfterCompleted(game, []);
    assert game + [] == game;
  }

  /**
   * The result of a game whose turns, were every one of them played, would be
   * `game`, an even number: a time-out exactly when some turn timed out, its
   * mover then losing to the opponent; no verdict exactly when some turn
   * crashed; otherwise every turn completed and the first mover wins only on
   * a strictly higher total.
   */
  lemma ResultOfCut(game: seq<Played>, first: Player, second: Player)
    requires |game| % 2 == 0
    ensures var ends := Cut(game);
            var result := GameResult(ends, first, second);
            && (result.WonByTimeout? <==> exists k :: 0 <= k < |ends| && ends[k].end == Expired)
            && (result.Aborted? <==> exists k :: 0 <= k < |ends| && ends[k].end == Crashed)
            && (result.WonByTimeout? ==> result.loser == (if (|ends| - 1) % 2 == 0 then first else second)
                                         && result.winner == (if (|ends| - 1) % 2 == 0 then second else first))
            && (result.Won? ==> && ends == game && Completing(ends)
                                && var slots := Outcomes.Replay(Points(ends));
                                   result == (if slots.mine > slots.theirs then Won(first, second) else Won(second, first)))
  {
    var ends := Cut(game);
    CutShape(game);
    if ends != [] && ends[|ends| - 1].end != Completed {
      var init := ends[..|ends| - 1];
      forall k | 0 <= k < |ends| - 1
        ensures ends[k].end == Completed
      {
        assert ends[k] == init[k];
      }
    }
  }

  /**
   * The result of a game of an even number of turns, as the source promises
   * it: its turns are those the players' seats give, up to the first that
   * throws, and ResultOfCut says what each way of ending means.
   */
  lemma GameResultOfPlay(turn: Seat -> TurnRun, mover: Seat, other: Seat, left: nat, first: Player, second: Player)
    requires left % 2 == 0
    ensures var ends := Play(turn, mover, other, left);
            var result := GameResult(ends, first, second);
            && ends == Ends(turn, mover, other, left)[..|ends|]
            && (result.WonByTimeout? <==> exists k :: 0 <= k < |ends| && ends[k].end == Expired)
            && (result.Aborted? <==> exists k :: 0 <= k < |ends| && ends[k].end == Crashed)
            && (result.Won? ==> |ends| == left && Completing(ends))
  {
    CutShape(Ends(turn, mover, other, left));
    ResultOfCut(Ends(turn, mover, other, left), first, second);
  }

  // ---------------------------------------------------------------------
  // The objects

  class Player {
    const conn: Connection
    var name: Option<string>
    var opponent: Player?
    const die: DieStream
    /** How many values of `die` have been used. */
    var draws: nat
    /** continueSignal.countDown() was called for this player. */
    var counted: bool

    constructor (conn: Connection, die: DieStream)
      ensures this.conn == conn && this.die == die
      ensures name == None && opponent == null && draws == 0 && !counted
    {
      this.conn := conn;
      this.die := die;
      name := None;
      opponent := null;
      draws := 0;
      counted := false;
    }

    /**
     * Player.run after the accept: one read; a HELLO line with a name sets
     * the name, and the latch is counted down unless the line was null.
     */
    method Register()
      modifies this`name, this`counted, conn
      ensures var h := Greeting(NextEvent(old(conn.input), old(conn.closed)));
              && (h.Named? ==> name == Some(h.name))
              && (!h.Named? ==> name == old(name))
              && counted == (h != Died || old(counted))
      ensures conn.input == AfterRead(old(conn.input), old(conn.closed)) && conn.closed == old(conn.closed)
    {
      var ev := conn.ReadLine();
      var h := Greeting(ev);
      if h.Died? {
        return;
      }
      if h.Named? {
        name := Some(h.name);
      }
      counted := true;
    }

    method SetOpponent(opponent: Player)
      modifies this`opponent
      ensures this.opponent == opponent
    {
      this.opponent := opponent;
    }

    /** Where this player stands between turns. */
    ghost function SeatNow(): Seat
      reads this`draws, conn`input, conn`closed
    {
      Seat(conn.input, conn.closed, die, draws)
    }

    /** die.nextInt(6) + 1. */
    method RollDie() returns (d: Die)
      modifies this`draws
      ensures d == die(old(draws)) && draws == old(draws) + 1
    {
      d := die(draws);
      draws := draws + 1;
    }

    /** One pass of takeTurn's loop, the credit to slot 0 at its bottom included. */
    method TurnStep(first: int, acc: int, data: Data) returns (over: Option<Ending>, acc': int, ghost p: Step)
      modifies this`draws, conn, data
      ensures p == StepOf(first, acc, old(conn.input), old(conn.closed), die, old(draws))
      ensures over == p.over && acc' == p.acc && conn.input == p.rest && draws == p.draws
      ensures conn.closed == old(conn.closed)
      ensures data.player0Score == old(data.player0Score) + Total(p.credit) && data.player1Score == old(data.player1Score)
    {
      p := StepOf(first, acc, conn.input, conn.closed, die, draws);
      acc' := acc;
      var ev := conn.ReadLine();
      match ev {
        case Line(c) =>
          var m := Classify(c);
          if m == ReRoll {
            var r1 := RollDie();
            var r2 := RollDie();
            var s := PairSum(r1, r2);
            if s == first {
              acc' := 0;
              return Some(Completed), acc', p;
            }
            acc' := acc + s;
          } else if m == Halt {
            return Some(Completed), acc', p;
          }
        case TimedOut =>
          return Some(Expired), acc', p;
        case EndOfStream =>
          return Some(Crashed), acc', p;
        case Broken =>
          return Some(Completed), acc', p;
      }
      assert Total([acc']) == acc';
      data.player0Score := data.player0Score + acc';
      over := None;
    }

    /**
     * The loop of takeTurn after the first roll (sum `first`), from `acc`
     * accumulated: passes until one breaks out or throws, as Loop describes,
     * slot 0 gaining every credit.
     */
    method PlayOut(first: int, acc: int, data: Data) returns (end: Ending, ghost credits: seq<int>, ghost rerolls: seq<int>)
      modifies this`draws, conn, data
      ensures TurnRun(end, credits, rerolls, conn.input, draws)
              == Loop(first, acc, old(conn.input), old(conn.closed), die, old(draws))
      ensures conn.closed == old(conn.closed)
      ensures data.player0Score == old(data.player0Score) + Total(credits) && data.player1Score == old(data.player1Score)
    {
      ghost var run := Loop(first, acc, conn.input, conn.closed, die, draws);
      ghost var closed := conn.closed;
      ghost var score0 := data.player0Score;
      var acc' := acc;
      credits, rerolls := [], [];
      var over: Option<Ending> := None;
      while over == None
        invariant conn.closed == closed && data.player1Score == old(data.player1Score)
        invariant data.player0Score == score0 + Total(credits)
        invariant over == None ==> run == After(credits, rerolls, Loop(first, acc', conn.input, closed, die, draws))
        invariant over.Some? ==> run == TurnRun(over.value, credits, rerolls, conn.input, draws)
        decreases over == None, |conn.input|
      {
        ghost var input, before, accBefore, c0, r0 := conn.input, draws, acc', credits, rerolls;
        ghost var p;
        over, acc', p := TurnStep(first, acc', data);
        LoopByStep(first, accBefore, input, closed, die, before);
        if p.credit != [] {
          TotalSnoc(credits, p.credit[0]);
          assert p.credit == [p.credit[0]];
        } else {
          assert credits + p.credit == credits;
        }
        credits, rerolls := credits + p.credit, rerolls + p.reroll;
        if over == None {
          AfterTwice(c0, r0, p.credit, p.reroll, Loop(first, acc', conn.input, closed, die, draws));
        }
      }
      end := over.value;
    }

    /**
     * takeTurn: the first roll opens the accumulator, then prompt, read and
     * act until the loop breaks or throws, crediting slot 0 at the bottom of
     * every pass that goes on. The turn is the one Turn describes, which
     * `turn` gives for the player's seat.
     */
    method TakeTurn(data: Data, ghost turn: Seat -> TurnRun) returns (end: Ending, ghost credits: seq<int>, ghost rerolls: seq<int>)
      requires Genuine(turn)
      modifies this`draws, conn, data
      ensures TurnRun(end, credits, rerolls, conn.input, draws) == turn(old(SeatNow()))
      ensures conn.closed == old(conn.closed)
      ensures data.player0Score == old(data.player0Score) + Total(credits) && data.player1Score == old(data.player1Score)
    {
      ghost var seat := SeatNow();
      assert turn(seat) == TurnAt(seat);
      ghost var drawn := draws;
      var d1 := RollDie();
      var d2 := RollDie();
      var first := PairSum(d1, d2);
      assert first == Turns.Roll(die, drawn);
      end, credits, rerolls := PlayOut(first, first, data);
    }
  }

  /** How Game.run ends. */
  datatype Result =
    | Won(winner: Player, loser: Player)             // after the last round
    | WonByTimeout(winner: Player, loser: Player)    // a PlayerTimeoutException
    | Aborted                                        // a NullPointerException from a null line

  class Game {
    var currentPlayer: Player
    const playerData: Data
    /** The two players of main's loop, in the order they connected. */
    ghost const one: Player
    ghost const two: Player

    /** The two players face each other and one of them is to move. */
    ghost predicate Paired()
      reads this, one, two
    {
      && one != two && one.opponent == two && two.opponent == one
      && (currentPlayer == one || currentPlayer == two)
    }

    /** main: a game between two players made opponents, the first to connect to move. */
    constructor (playerOne: Player, playerTwo: Player)
      requires playerOne != playerTwo && playerOne.opponent == playerTwo && playerTwo.opponent == playerOne
      ensures one == playerOne && two == playerTwo && currentPlayer == playerOne && Paired()
      ensures fresh(playerData) && playerData.View() == Slots(0, 0)
    {
      one, two := playerOne, playerTwo;
      currentPlayer := playerOne;
      playerData := new Data();
    }

    /**
     * getWhoGoesFirst: the current player and the opponent roll one die
     * each; the higher roll moves first, and a tie starts over by recursion.
     * `k` is a round of the roll-off that is not a tie.
     */
    method GetWhoGoesFirst(ghost k: nat) returns (who: Player, ghost rounds: nat)
      requires Paired()
      requires !Tied(currentPlayer.die, currentPlayer.draws, currentPlayer.opponent.die, currentPlayer.opponent.draws, k)
      modifies currentPlayer`draws, currentPlayer.opponent`draws
      ensures who == currentPlayer || who == currentPlayer.opponent
      ensures 1 <= rounds <= k + 1
      ensures currentPlayer.draws == old(currentPlayer.draws) + rounds
      ensures currentPlayer.opponent.draws == old(currentPlayer.opponent.draws) + rounds
      ensures DecidedAt(currentPlayer.die, old(currentPlayer.draws), currentPlayer.opponent.die,
                        old(currentPlayer.opponent.draws), rounds)
      ensures who == currentPlayer <==> Beats(currentPlayer.die, old(currentPlayer.draws), currentPlayer.opponent.die,
                                              old(currentPlayer.opponent.draws), rounds - 1)
      decreases k
    {
      ghost var me, you := currentPlayer, currentPlayer.opponent;
      ghost var n1, n2 := me.draws, you.draws;
      var firstRoll := currentPlayer.RollDie();
      var secondRoll := currentPlayer.opponent.RollDie();
      assert firstRoll == me.die(n1 + 0) && secondRoll == you.die(n2 + 0);
      if firstRoll != secondRoll {
        assert DecidedAt(me.die, n1, you.die, n2, 1) && (firstRoll > secondRoll <==> Beats(me.die, n1, you.die, n2, 0));
        who, rounds := if firstRoll > secondRoll then currentPlayer else currentPlayer.opponent, 1;
      } else {
        assert Tied(me.die, n1, you.die, n2, 0);
        assert !Tied(me.die, n1 + 1, you.die, n2 + 1, k - 1);
        ghost var later;
        who, later := GetWhoGoesFirst(k - 1);
        DecidedAfterTie(me.die, n1, you.die, n2, later);
        rounds := later + 1;
      }
    }

    /**
     * One of the two try blocks of the turn loop: the current player takes
     * the turn `turn` gives for its seat; unless it throws, the move passes to
     * the opponent and the score slots swap. Slot 0 keeps what the turn
     * credited even when it throws. The opponent's seat is untouched.
     */
    method PlayTurn(ghost turn: Seat -> TurnRun) returns (end: Ending, ghost points: int)
      requires Genuine(turn) && Paired() && one.conn != two.conn
      modifies this`currentPlayer, one`draws, two`draws, one.conn, two.conn, playerData
      ensures Paired()
      ensures Played(end, points) == Outcome(turn, old(currentPlayer.SeatNow()))
      ensures old(currentPlayer).SeatNow() == Next(turn, old(currentPlayer.SeatNow()))
      ensures old(currentPlayer).opponent.SeatNow() == old(currentPlayer.opponent.SeatNow())
      ensures end == Completed ==> currentPlayer == old(currentPlayer).opponent
                                   && playerData.View() == Outcomes.Advance(old(playerData.View()), points)
      ensures end != Completed ==> currentPlayer == old(currentPlayer)
                                   && playerData.View() == old(playerData.View()).(mine := old(playerData.View()).mine + points)
    {
      ghost var other := currentPlayer.opponent;
      ghost var otherSeat := other.SeatNow();
      ghost var credits, rerolls;
      end, credits, rerolls := currentPlayer.TakeTurn(playerData, turn);
      points := Total(credits);
      assert other.SeatNow() == otherSeat;
      if end == Completed {
        currentPlayer := currentPlayer.opponent;
        playerData.SwapSlots();
      }
    }

    /**
     * One turn of a game under way, all of whose turns would be `game`,
     * after the completed turns `ends`: PlayTurn, and where the game stands
     * after it. A turn that throws ends the game there; a completed one joins
     * the run.
     */
    method Move(ghost turn: Seat -> TurnRun, ghost game: seq<Played>, ghost ends: seq<Played>)
      returns (end: Ending, ghost ends': seq<Played>)
      requires Genuine(turn) && Paired() && one.conn != two.conn
      requires Completing(ends) && |ends| < |game|
      requires game == ends + Ends(turn, currentPlayer.SeatNow(), currentPlayer.opponent.SeatNow(), |game| - |ends|)
      requires playerData.View() == Outcomes.Replay(Points(ends))
      modifies this`currentPlayer, one`draws, two`draws, one.conn, two.conn, playerData
      ensures Paired() && |ends'| == |ends| + 1 && ends'[|ends|].end == end
      ensures end != Completed ==> Cut(game) == ends' && currentPlayer == old(currentPlayer)
      ensures end == Completed ==>
                && Completing(ends') && currentPlayer == old(currentPlayer).opponent
                && playerData.View() == Outcomes.Replay(Points(ends'))
                && game == ends' + Ends(turn, currentPlayer.SeatNow(), currentPlayer.opponent.SeatNow(), |game| - |ends'|)
    {
      ghost var mover := currentPlayer;
      ghost var s1, s2 := mover.SeatNow(), mover.opponent.SeatNow();
      PlayStep(turn, game, ends, s1, s2, |game| - |ends|);
      ghost var points;
      end, points := PlayTurn(turn);
      ends' := ends + [Played(end, points)];
      if end == Completed {
        PointsSnoc(ends, Played(end, points));
        Outcomes.ReplaySnoc(Points(ends), points);
      }
    }

    /**
     * One round of the turn loop of a game all of whose turns would be
     * `game`, the turns `ends` played so far: the player who went first takes
     * a turn, then the other. The round stops at the first turn that throws,
     * whose mover is then still the current player, and the game with it.
     */
    method PlayRound(ghost turn: Seat -> TurnRun, ghost first: Player, ghost game: seq<Played>, ghost ends: seq<Played>)
      returns (end: Ending, ghost ends': seq<Played>)
      requires Genuine(turn) && Paired() && one.conn != two.conn && currentPlayer == first
      requires Completing(ends) && |ends| + 2 <= |game|
      requires game == ends + Ends(turn, first.SeatNow(), first.opponent.SeatNow(), |game| - |ends|)
      requires playerData.View() == Outcomes.Replay(Points(ends))
      modifies this`currentPlayer, one`draws, two`draws, one.conn, two.conn, playerData
      ensures Paired() && ends' != [] && ends'[|ends'| - 1].end == end
      ensures end == Completed ==>
                && |ends'| == |ends| + 2 && Completing(ends') && currentPlayer == first
                && playerData.View() == Outcomes.Replay(Points(ends'))
                && game == ends' + Ends(turn, first.SeatNow(), first.opponent.SeatNow(), |game| - |ends'|)
      ensures end != Completed ==>
                && Cut(game) == ends'
                && ((|ends'| == |ends| + 1 && currentPlayer == first) || (|ends'| == |ends| + 2 && currentPlayer == first.opponent))
    {
      end, ends' := Move(turn, game, ends);
      if end != Completed {
        return;
      }
      end, ends' := Move(turn, game, ends');
    }

    /**
     * Game.run's turn loop: the game Play describes for the seats of the
     * player who went first and of the opponent, NUMBER_OF_TURNS rounds or
     * fewer when a turn throws, the mover of that turn then being the
     * current player.
     */
    method PlayRounds(ghost turn: Seat -> TurnRun, ghost first: Player, ghost opening: Seat, ghost answering: Seat)
      returns (end: Ending, ghost ends: seq<Played>)
      requires Genuine(turn) && Paired() && one.conn != two.conn && currentPlayer == first
      requires first.SeatNow() == opening && first.opponent.SeatNow() == answering
      requires playerData.View() == Slots(0, 0)
      modifies this`currentPlayer, one`draws, two`draws, one.conn, two.conn, playerData
      ensures Paired()
      ensures ends == Play(turn, opening, answering, 2 * NUMBER_OF_TURNS)
      ensures ends != [] && ends[|ends| - 1].end == end
      ensures end == Completed ==> currentPlayer == first && playerData.View() == Outcomes.Replay(Points(ends))
      ensures end != Completed ==> currentPlayer == if (|ends| - 1) % 2 == 0 then first else first.opponent
    {
      ghost var game := Ends(turn, opening, answering, 2 * NUMBER_OF_TURNS);
      ends := [];
      assert game == ends + game;
      end := Completed;
      var i := 0;
      while i < NUMBER_OF_TURNS && end == Completed
        invariant Paired() && i <= NUMBER_OF_TURNS
        invariant end == Completed ==>
                    && |ends| == 2 * i && Completing(ends) && currentPlayer == first
                    && playerData.View() == Outcomes.Replay(Points(ends))
                    && game == ends + Ends(turn, first.SeatNow(), first.opponent.SeatNow(), |game| - |ends|)
        invariant end != Completed ==>
                    && Cut(game) == ends && 0 < i && ends[|ends| - 1].end == end
                    && ((|ends| == 2 * i - 1 && currentPlayer == first) || (|ends| == 2 * i && currentPlayer == first.opponent))
      {
        end, ends := PlayRound(turn, first, game, ends);
        i := i + 1;
      }
      if end == Completed {
        assert ends + [] == ends;
        PlayWhole(ends);
      } else {
        Outcomes.RoundParity(i);
      }
    }

    /**
     * The roll-off and the turn loop of Game.run: the players' seats after the
     * roll-off open the game Play describes.
     */
    method Contest(ghost turn: Seat -> TurnRun)
      returns (end: Ending, ghost first: Player, ghost rolloff: nat, ghost opening: Seat, ghost answering: Seat,
               ghost ends: seq<Played>)
      requires Genuine(turn) && Paired() && one.conn != two.conn && playerData.View() == Slots(0, 0)
      requires exists k: nat :: !Tied(currentPlayer.die, currentPlayer.draws, currentPlayer.opponent.die,
                                        currentPlayer.opponent.draws, k)
      modifies this`currentPlayer, one`draws, two`draws, one.conn, two.conn, playerData
      ensures Paired() && (first == old(currentPlayer) || first == old(currentPlayer).opponent)
      ensures rolloff >= 1 && DecidedAt(old(currentPlayer).die, old(currentPlayer.draws), old(currentPlayer).opponent.die,
                                        old(currentPlayer.opponent.draws), rolloff)
      ensures first == old(currentPlayer) <==> Beats(old(currentPlayer).die, old(currentPlayer.draws), old(currentPlayer).opponent.die,
                                                     old(currentPlayer.opponent.draws), rolloff - 1)
      ensures opening == old(first.SeatNow()).(draws := old(first.draws) + rolloff)
      ensures answering == old(first.opponent.SeatNow()).(draws := old(first.opponent.draws) + rolloff)
      ensures ends == Play(turn, opening, answering, 2 * NUMBER_OF_TURNS)
      ensures ends != [] && ends[|ends| - 1].end == end
      ensures end == Completed ==> currentPlayer == first && playerData.View() == Outcomes.Replay(Points(ends))
      ensures end != Completed ==> currentPlayer == if (|ends| - 1) % 2 == 0 then first else first.opponent
    {
      ghost var k: nat :| !Tied(currentPlayer.die, currentPlayer.draws, currentPlayer.opponent.die,
                                currentPlayer.opponent.draws, k);
      var starter;
      starter, rolloff := GetWhoGoesFirst(k);
      first := starter;
      opening, answering := first.SeatNow(), first.opponent.SeatNow();
      currentPlayer := starter;
      end, ends := PlayRounds(turn, first, opening, answering);
    }

    /**
     * The verdict of Game.run once the turn loop is over: the player to move
     * wins on a strictly higher slot 0, the opponent otherwise; a time-out
     * gives the game to the opponent of the player who let it run out; a
     * crash leaves no verdict.
     */
    method Verdict(end: Ending, ghost first: Player, ghost ends: seq<Played>) returns (result: Result)
      requires Paired() && (first == one || first == two)
      requires ends != [] && ends[|ends| - 1].end == end
      requires end == Completed ==> currentPlayer == first && playerData.View() == Outcomes.Replay(Points(ends))
      requires end != Completed ==> currentPlayer == if (|ends| - 1) % 2 == 0 then first else first.opponent
      ensures result == GameResult(ends, first, first.opponent)
    {
      if end == Completed {
        if playerData.player0Score > playerData.player1Score {
          result := Won(currentPlayer, currentPlayer.opponent);
        } else {
          result := Won(currentPlayer.opponent, currentPlayer);
        }
      } else if end == Expired {
        result := WonByTimeout(currentPlayer.opponent, currentPlayer);
      } else {
        result := Aborted;
      }
    }

    /**
     * Game.run: the roll-off, the rounds of the game Play describes for the
     * seats after it, then the verdict GameResult gives for those turns. The
     * finally block closes both sockets however the game ends.
     */
    method Run(ghost turn: Seat -> TurnRun)
      returns (result: Result, ghost first: Player, ghost rolloff: nat, ghost opening: Seat, ghost answering: Seat,
               ghost ends: seq<Played>)
      requires Genuine(turn) && Paired() && one.conn != two.conn && playerData.View() == Slots(0, 0)
      requires exists k: nat :: !Tied(currentPlayer.die, currentPlayer.draws, currentPlayer.opponent.die,
                                        currentPlayer.opponent.draws, k)
      modifies this`currentPlayer, one`draws, two`draws, one.conn, two.conn, playerData
      ensures Paired() && (first == one || first == two)
      ensures one.conn.closed && two.conn.closed
      ensures rolloff >= 1 && DecidedAt(old(currentPlayer).die, old(currentPlayer.draws), old(currentPlayer).opponent.die,
                                        old(currentPlayer.opponent.draws), rolloff)
      ensures first == old(currentPlayer) <==> Beats(old(currentPlayer).die, old(currentPlayer.draws), old(currentPlayer).opponent.die,
                                                     old(currentPlayer.opponent.draws), rolloff - 1)
      ensures opening == old(first.SeatNow()).(draws := old(first.draws) + rolloff)
      ensures answering == old(first.opponent.SeatNow()).(draws := old(first.opponent.draws) + rolloff)
      ensures ends == Play(turn, opening, answering, 2 * NUMBER_OF_TURNS)
      ensures result == GameResult(ends, first, first.opponent)
    {
      var end;
      end, first, rolloff, opening, answering, ends := Contest(turn);
      result := Verdict(end, first, ends);
      currentPlayer.conn.Close();
      currentPlayer.opponent.conn.Close();
    }
  }
}

=== FILE: dice_and_scores.dfy ===
/** The six-sided dice both servers roll. */
module Dice {

  /** The value of `die.nextInt(6) + 1`. */
  type Die = d: int | 1 <= d <= 6 witness 1

  /**
   * A player's java.util.Random, as the successive values its
   * `nextInt(6) + 1` calls return: the k-th roll of the die is `stream(k)`.
   */
  type DieStream = nat -> Die

  /** The sum of two dice: what a roll of the pair scores. */
  function PairSum(d1: Die, d2: Die): (s: int)
    ensures 2 <= s <= 12
  {
    d1 + d2
  }

  /**
   * A roll-off between two dice, whose next values are at positions n1 and
   * n2 of their streams, ties at its j-th round.
   */
  predicate Tied(d1: DieStream, n1: nat, d2: DieStream, n2: nat, j: nat) {
    d1(n1 + j) == d2(n2 + j)
  }

  /** The first die wins the j-th round of the roll-off. */
  predicate Beats(d1: DieStream, n1: nat, d2: DieStream, n2: nat, j: nat) {
    d1(n1 + j) > d2(n2 + j)
  }

  /** The roll-off is decided at its n-th roll: every round before ties, that one does not. */
  predicate DecidedAt(d1: DieStream, n1: nat, d2: DieStream, n2: nat, n: nat) {
    && n >= 1
    && (forall j: nat :: j < n - 1 ==> Tied(d1, n1, d2, n2, j))
    && !Tied(d1, n1, d2, n2, n - 1)
  }

  /** A tie followed by a roll-off decided at its n-th roll is a roll-off decided at its (n+1)-th. */
  lemma DecidedAfterTie(d1: DieStream, n1: nat, d2: DieStream, n2: nat, n: nat)
    requires Tied(d1, n1, d2, n2, 0) && DecidedAt(d1, n1 + 1, d2, n2 + 1, n)
    ensures DecidedAt(d1, n1, d2, n2, n + 1)
    ensures Beats(d1, n1 + 1, d2, n2 + 1, n - 1) == Beats(d1, n1, d2, n2, n)
  {
    assert n1 + 1 + (n - 1) == n1 + n;
    forall j: nat | j < n
      ensures Tied(d1, n1, d2, n2, j)
    {
      if j > 0 {
        assert Tied(d1, n1 + 1, d2, n2 + 1, j - 1);
      }
    }
    assert !Tied(d1, n1 + 1, d2, n2 + 1, n - 1);
  }

  /** A roll-off is decided at one round only: the first that does not tie. */
  lemma DecidedOnce(d1: DieStream, n1: nat, d2: DieStream, n2: nat, n: nat, m: nat)
    requires DecidedAt(d1, n1, d2, n2, n) && DecidedAt(d1, n1, d2, n2, m)
    ensures n == m
  {
  }
}

/** The two score slots a game keeps (the inner class Data of both servers). */
module Scores {

  /**
   * The slots as values, from the point of view of the player about to move:
   * `mine` is player0Score, `theirs` is player1Score.
   */
  datatype Slots = Slots(mine: int, theirs: int)

  class Data {
    var player0Score: int
    var player1Score: int

    constructor ()
      ensures player0Score == 0 && player1Score == 0
    {
      player0Score, player1Score := 0, 0;
    }

    function View(): Slots
      reads this
    {
      Slots(player0Score, player1Score)
    }

    /** The swap playGame performs after every completed turn. */
    method SwapSlots()
      modifies this
      ensures player0Score == old(player1Score) && player1Score == old(player0Score)
    {
      player0Score, player1Score := player1Score, player0Score;
    }
  }
}

=== FILE: game_play_worker.dfy ===
/**
 * The game half of the server (GamePlayWorker): pairing the two oldest
 * registrations, the roll-off for who moves first, the turns, the outcome
 * record and the closing of both connections. Messages written to the
 * players are not modelled; the log file is a list of lines.
 */
module GamePlay {
  import opened Wrappers
  import opened Sockets
  import opened Dice
  import opened Scores
  import opened WaitStates
  import opened Registration
  import opened Turns
  import opened Outcomes

  /** The game log: logGameOutcome appends one line per finished game. */
  class OutcomeLog {
    var lines: seq<string>

    constructor ()
      ensures lines == []
    {
      lines := [];
    }

    method Append(line: string)
      modifies this
      ensures lines == old(lines) + [line]
    {
      lines := lines + [line];
    }
  }

  /** A player in a game: the registration's connection and name, and a die of its own. */
  class ActivePlayer {
    const conn: Connection
    /** The registration this player came from, until the first command is fetched. */
    var pr: Registrar?
    const name: string
    var opponent: ActivePlayer?
    const die: DieStream
    /** How many values of `die` have been used. */
    var draws: nat
    /**
     * The player's `state` and `registrarMessage`, which the registrar thread
     * writes through the callback installed on the registration.
     */
    const mailbox: CallBack

    constructor (pr: Registrar, die: DieStream)
      requires pr.conn != null && pr.name.Some?
      ensures this.pr == pr && conn == pr.conn && name == pr.name.value
      ensures this.die == die && draws == 0 && opponent == null
      ensures fresh(mailbox) && mailbox.state == None && mailbox.message == None
    {
      conn := pr.conn;
      this.pr := pr;
      name := pr.name.value;
      opponent := null;
      this.die := die;
      draws := 0;
      mailbox := new CallBack();
    }

    method SetOpponent(opponent: ActivePlayer)
      modifies this`opponent
      ensures this.opponent == opponent
    {
      this.opponent := opponent;
    }

    /** The branch the next getNextCommand takes. */
    function RouteOf(): Route
      reads this`pr, mailbox`state, mailbox`message, pr
    {
      if mailbox.state == Some(WaitTurn) then Direct
      else if pr != null && pr.state == WaitGoodbye then Probe(pr.message, mailbox.message)
      else Neither
    }

    /** Where this player stands between turns, as a game sees it. */
    ghost function SeatNow(): Seat
      reads this`pr, this`draws, conn`input, conn`closed, mailbox`state, mailbox`message, pr
    {
      Seat(RouteOf(), conn.input, conn.closed, die, draws)
    }

    /** die.nextInt(6) + 1: the next value of this player's die. */
    method RollDie() returns (d: Die)
      modifies this`draws
      ensures d == die(old(draws)) && draws == old(draws) + 1
    {
      d := die(draws);
      draws := draws + 1;
    }

    /**
     * getNextCommand, with the fall-back of NextFetch: a direct read once the
     * registrar handed over; otherwise a probe, the registrar's line taking
     * priority over the callback's and over the probe's own, and a direct read
     * when none of them has one.
     */
    method GetNextCommand() returns (f: Fetch)
      modifies this`pr, conn
      ensures var r := NextFetch(old(RouteOf()), old(conn.input), old(conn.closed));
              f == r.fetch && conn.input == r.rest && RouteOf() == r.route
      ensures conn.closed == old(conn.closed)
    {
      if mailbox.state == Some(WaitTurn) {
        var ev := conn.ReadLine();
        f := DirectFetch(ev);
      } else if pr != null && pr.state == WaitGoodbye {
        var ev := conn.ReadLine();
        if ev == Broken {
          f := Disconnected;
          return;
        }
        var pick := ProbePick(ev, pr.message, mailbox.message);
        pr := null;
        if pick.Some? {
          f := Got(pick.value);
        } else {
          var again := conn.ReadLine();
          f := DirectFetch(again);
        }
      } else {
        var ev := conn.ReadLine();
        f := DirectFetch(ev);
      }
    }

    /**
     * One pass of takeTurn's loop, after the first roll (sum `first`) with
     * `acc` accumulated: as TurnPass describes it for this player's route,
     * pending reads and die.
     */
    method TurnIteration(first: int, acc: nat) returns (over: Option<TurnEnd>, acc': nat, ghost p: Pass)
      modifies this`pr, this`draws, conn
      ensures p == TurnPass(first, acc, old(RouteOf()), old(conn.input), old(conn.closed), die, old(draws))
      ensures over == p.over && acc' == p.acc && conn.input == p.rest && RouteOf() == p.route && draws == p.draws
      ensures conn.closed == old(conn.closed)
    {
      p := TurnPass(first, acc, RouteOf(), conn.input, conn.closed, die, draws);
      acc' := acc;
      var f := GetNextCommand();
      if f.Got? {
        var m := Classify(f.text);
        if m == ChanceIt {
          var r1 := RollDie();
          var r2 := RollDie();
          var s := PairSum(r1, r2);
          if s == first {
            // the same sum as the first roll: the turn scores nothing
            acc' := 0;
            over := Some(Banked(0));
          } else {
            acc' := acc + s;
            over := None;
          }
        } else if m == EndTurn {
          over := Some(Banked(acc));
        } else if m == Quit {
          over := Some(Forfeited(Stop));
        } else {
          over := None;
        }
      } else if f == ReadTimedOut {
        over := Some(Forfeited(Timeout));
      } else {
        over := Some(Forfeited(Disconnect));
      }
    }

    /**
     * The loop of takeTurn after the first roll (sum `first`), from `acc`
     * accumulated: passes until one ends the turn, as Continue describes.
     * `acc'` is what the turn banks when it banks.
     */
    method PlayOut(first: int, acc: nat) returns (end: TurnEnd, acc': nat, ghost rerolls: seq<int>)
      modifies this`pr, this`draws, conn
      ensures TurnRun(end, rerolls, conn.input, RouteOf(), draws)
              == Continue(first, acc, old(RouteOf()), old(conn.input), old(conn.closed), die, old(draws))
      ensures end.Banked? ==> acc' == end.points
      ensures conn.closed == old(conn.closed)
    {
      ghost var run := Continue(first, acc, RouteOf(), conn.input, conn.closed, die, draws);
      ghost var route := RouteOf();
      ghost var closed := conn.closed;
      acc' := acc;
      rerolls := [];
      var over: Option<TurnEnd> := None;
      while over == None
        invariant conn.closed == closed && route == RouteOf()
        invariant over == None ==> run == Extended(rerolls, Continue(first, acc', route, conn.input, closed, die, draws))
        invariant over.Some? ==> run == TurnRun(over.value, rerolls, conn.input, route, draws)
        invariant over.Some? && over.value.Banked? ==> acc' == over.value.points
        decreases over == None, |conn.input|, RouteRank(route)
      {
        ghost var input, before, accBefore, taken := conn.input, draws, acc', rerolls;
        ghost var p;
        over, acc', p := TurnIteration(first, acc');
        ContinueByPass(first, accBefore, route, input, closed, die, before);
        TurnPassScores(first, accBefore, route, input, closed, die, before);
        rerolls := rerolls + p.reroll;
        route := p.route;
        if over == None {
          ExtendedTwice(taken, p.reroll, Continue(first, acc', route, conn.input, closed, die, draws));
        }
      }
      end := over.value;
    }

    /**
     * takeTurn: the first roll counts, then prompt, fetch and act until the
     * turn ends. A banked turn adds its points to slot 0 of the scores; a
     * forfeit leaves them alone. The turn is the one Turn describes for this
     * player's route, pending reads and die.
     */
    method TakeTurn(data: Data, ghost turn: Seat -> TurnRun) returns (end: TurnEnd, ghost rerolls: seq<int>)
      requires Genuine(turn)
      modifies this`pr, this`draws, conn, data
      ensures TurnRun(end, rerolls, conn.input, RouteOf(), draws) == turn(old(SeatNow()))
      ensures conn.closed == old(conn.closed)
      ensures end.Banked? ==> data.player0Score == old(data.player0Score) + end.points
      ensures end.Forfeited? ==> data.player0Score == old(data.player0Score)
      ensures data.player1Score == old(data.player1Score)
    {
      ghost var seat := SeatNow();
      ghost var route, input, drawn := RouteOf(), conn.input, draws;
      var d1 := RollDie();
      var d2 := RollDie();
      var first := PairSum(d1, d2);
      assert first == Roll(die, drawn);
      var acc;
      end, acc, rerolls := PlayOut(first, first);
      TurnOpensWithRoll(route, input, conn.closed, die, drawn);
      assert turn(seat) == TurnAt(seat);
      if end.Banked? {
        data.player0Score := data.player0Score + acc;
      }
    }
  }

  /** A game worker of the pool. */
  class GamePlayWorker {
    /** number_of_turns: the rounds of a game, each a turn for both players. */
    const numberOfTurns: nat
    const gameLog: OutcomeLog?
    var gameOn: bool
    var currentPlayer: ActivePlayer?
    var ap1: ActivePlayer?
    var ap2: ActivePlayer?
    var playerData: Data

    /** Two players face each other and one of them is to move. */
    ghost predicate Paired()
      reads this, ap1, ap2
    {
      && ap1 != null && ap2 != null && ap1 != ap2
      && ap1.opponent == ap2 && ap2.opponent == ap1
      && (currentPlayer == ap1 || currentPlayer == ap2)
      && gameOn
    }

    constructor (numberOfTurns: nat, gameLog: OutcomeLog?)
      ensures this.numberOfTurns == numberOfTurns && this.gameLog == gameLog
      ensures !gameOn && currentPlayer == null && ap1 == null && ap2 == null
      ensures fresh(playerData) && playerData.View() == Slots(0, 0)
    {
      this.numberOfTurns := numberOfTurns;
      this.gameLog := gameLog;
      gameOn := false;
      currentPlayer, ap1, ap2 := null, null, null;
      playerData := new Data();
    }

    /** resetData: a recycled worker starts over with no game and fresh scores. */
    method ResetData()
      modifies this
      ensures !gameOn && currentPlayer == null && ap1 == null && ap2 == null
      ensures fresh(playerData) && playerData.View() == Slots(0, 0)
    {
      gameOn := false;
      currentPlayer, ap1, ap2 := null, null, null;
      playerData := new Data();
    }

    /**
     * The synchronized block of run, after a wake-up: with more than one
     * registration queued, claim the two oldest, make them opponents with
     * the first one to move, and start the game; then pass the wake-up on if
     * enough registrations remain for another game.
     */
    method TryPair(q: RegistrationQueue, die1: DieStream, die2: DieStream) returns (notifyAnother: bool)
      requires q.Valid() && !gameOn
      modifies this, q, if |q.items| > 1 then {q.items[0], q.items[1]} else {}
      ensures q.Valid()
      ensures old(|q.items|) > 1 ==>
                && q.items == old(q.items)[2..]
                && StartedBetween(old(q.items)[0], old(q.items)[1], die1, die2)
                && Kept(old(q.items)[0], old(q.items[0].conn), old(q.items[0].name), old(q.items[0].state), old(q.items[0].message))
                && Kept(old(q.items)[1], old(q.items[1].conn), old(q.items[1].name), old(q.items[1].state), old(q.items[1].message))
      ensures old(|q.items|) <= 1 ==>
                q.items == old(q.items) && !gameOn && ap1 == old(ap1) && ap2 == old(ap2)
                && currentPlayer == old(currentPlayer)
      ensures playerData == old(playerData)
      ensures notifyAnother == (|q.items| > 1)
    {
      if |q.items| > 1 {
        ghost var waiting := q.items;
        var pr1 := q.Poll();
        var pr2 := q.Poll();
        assert pr1 == waiting[0] && pr2 == waiting[1] && q.items == waiting[2..];
        assert pr1 !in q.items && pr2 !in q.items by {
          forall i | 0 <= i < |q.items|
            ensures q.items[i] != pr1 && q.items[i] != pr2
          {
            assert q.items[i] == waiting[i + 2];
          }
        }
        StartGame(pr1, pr2, die1, die2);
      }
      notifyAnother := |q.items| > 1;
    }

    /**
     * The game this worker started between the registrations pr1 and pr2:
     * both are claimed, each with its own player, the two face each other,
     * and pr1's player moves first.
     */
    ghost predicate StartedBetween(pr1: Registrar, pr2: Registrar, die1: DieStream, die2: DieStream)
      reads this, ap1, ap2, pr1, pr2
    {
      && Paired() && currentPlayer == ap1
      && ap1.pr == pr1 && ap2.pr == pr2
      && pr1.fate == Claimed && pr2.fate == Claimed
      && !pr1.canUnregister && !pr2.canUnregister && pr1.Valid() && pr2.Valid()
      && pr1.registerred && pr2.registerred
      && pr1.callback == ap1.mailbox && pr2.callback == ap2.mailbox
      && ap1.conn == pr1.conn && ap2.conn == pr2.conn
      && Some(ap1.name) == pr1.name && Some(ap2.name) == pr2.name
      && ap1.die == die1 && ap2.die == die2 && ap1.draws == 0 && ap2.draws == 0
      && ap1.mailbox != ap2.mailbox
    }

    /** A claimed registration keeps the socket, name, wait state and message it had while queued. */
    ghost predicate Kept(pr: Registrar, conn: Connection?, name: Option<string>, state: RegistrationWaitState,
                         message: Option<string>)
      reads pr
    {
      pr.conn == conn && pr.name == name && pr.state == state && pr.message == message
    }

    /** The pairing itself: a player for each registration, which is claimed for the game. */
    method StartGame(pr1: Registrar, pr2: Registrar, die1: DieStream, die2: DieStream)
      requires Claimable(pr1) && Claimable(pr2) && pr1 != pr2
      modifies this, pr1, pr2
      ensures StartedBetween(pr1, pr2, die1, die2) && fresh(ap1) && fresh(ap2)
      ensures Kept(pr1, old(pr1.conn), old(pr1.name), old(pr1.state), old(pr1.message))
      ensures Kept(pr2, old(pr2.conn), old(pr2.name), old(pr2.state), old(pr2.message))
      ensures playerData == old(playerData)
    {
      var a1 := new ActivePlayer(pr1, die1);
      pr1.Claim(a1.mailbox);
      var a2 := new ActivePlayer(pr2, die2);
      pr2.Claim(a2.mailbox);
      a1.SetOpponent(a2);
      a2.SetOpponent(a1);
      ap1, ap2 := a1, a2;
      currentPlayer := ap1;
      gameOn := true;
    }

    /**
     * getWhoGoesFirst: both players roll one die, again and again, until the
     * rolls differ; the higher roll moves first.
     */
    method GetWhoGoesFirst() returns (first: ActivePlayer, ghost rolloff: nat)
      requires Paired()
      requires exists j: nat :: !Tied(ap1.die, ap1.draws, ap2.die, ap2.draws, j)
      modifies ap1`draws, ap2`draws
      ensures first == ap1 || first == ap2
      ensures ap1.draws == old(ap1.draws) + rolloff && ap2.draws == old(ap2.draws) + rolloff
      ensures DecidedAt(ap1.die, old(ap1.draws), ap2.die, old(ap2.draws), rolloff)
      ensures first == ap1 <==> Beats(ap1.die, old(ap1.draws), ap2.die, old(ap2.draws), rolloff - 1)
    {
      ghost var d1, n1, d2, n2 := ap1.die, ap1.draws, ap2.die, ap2.draws;
      ghost var bound: nat :| !Tied(d1, n1, d2, n2, bound);
      rolloff := 0;
      while true
        invariant ap1.draws == n1 + rolloff && ap2.draws == n2 + rolloff
        invariant rolloff <= bound
        invariant forall j: nat :: j < rolloff ==> Tied(d1, n1, d2, n2, j)
        decreases bound - rolloff
      {
        var roll1 := ap1.RollDie();
        var roll2 := ap2.RollDie();
        assert roll1 == d1(n1 + rolloff) && roll2 == d2(n2 + rolloff);
        rolloff := rolloff + 1;
        assert roll1 != roll2 ==> DecidedAt(d1, n1, d2, n2, rolloff);
        if roll1 > roll2 {
          return ap1, rolloff;
        } else if roll1 < roll2 {
          return ap2, rolloff;
        }
      }
    }

    /**
     * One of the two try blocks of the turn loop: the current player takes
     * the turn Turn describes for its seat; if it banks, the move passes to
     * the opponent and the score slots swap, so slot 0 stays with the player
     * to move. The opponent's seat is untouched.
     */
    method PlayTurn(ghost turn: Seat -> TurnRun) returns (end: TurnEnd)
      requires Genuine(turn) && Paired() && ap1.conn != ap2.conn
      modifies this`currentPlayer, ap1`pr, ap1`draws, ap2`pr, ap2`draws, ap1.conn, ap2.conn, playerData
      ensures Paired()
      ensures end == turn(old(currentPlayer.SeatNow())).end
      ensures old(currentPlayer).SeatNow() == Next(turn, old(currentPlayer.SeatNow()))
      ensures old(currentPlayer).opponent.SeatNow() == old(currentPlayer.opponent.SeatNow())
      ensures end.Banked? ==> && currentPlayer == old(currentPlayer).opponent
                              && playerData.View() == Advance(old(playerData.View()), end.points)
      ensures end.Forfeited? ==> currentPlayer == old(currentPlayer) && playerData.View() == old(playerData.View())
    {
      ghost var mover, other := currentPlayer, currentPlayer.opponent;
      ghost var otherSeat := other.SeatNow();
      ghost var rerolls;
      end, rerolls := currentPlayer.TakeTurn(playerData, turn);
      assert other.SeatNow() == otherSeat;
      if end.Banked? {
        currentPlayer := currentPlayer.opponent;
        playerData.SwapSlots();
      }
    }

    /** logGameOutcome: one line in the game log, if there is one. */
    method LogGameOutcome(rec: OutcomeRecord)
      modifies gameLog
      ensures gameLog != null ==> gameLog.lines == old(gameLog.lines) + [FormatRecord(rec)]
    {
      if gameLog != null {
        gameLog.Append(FormatRecord(rec));
      }
    }

    /**
     * One turn of a game under way, all of whose turns would be `game`,
     * after the banked turns `ends`: PlayTurn, and where the game stands
     * after it. A forfeit ends the game there; a banked turn joins the run.
     */
    method Move(ghost turn: Seat -> TurnRun, ghost game: seq<TurnEnd>, ghost ends: seq<TurnEnd>, ghost mover: Seat, ghost other: Seat)
      returns (end: TurnEnd, ghost ends': seq<TurnEnd>)
      requires Genuine(turn) && Paired() && ap1.conn != ap2.conn
      requires Banking(ends) && |ends| < |game|
      requires currentPlayer.SeatNow() == mover && currentPlayer.opponent.SeatNow() == other
      requires game == ends + Ends(turn, mover, other, |game| - |ends|)
      requires playerData.View() == Replay(Points(ends))
      modifies this`currentPlayer, ap1`pr, ap1`draws, ap2`pr, ap2`draws, ap1.conn, ap2.conn, playerData
      ensures Paired() && ends' == ends + [end]
      ensures playerData.View() == Replay(Points(ends'))
      ensures ForfeitOf(ends') == if end.Forfeited? then Some(end.reason) else None
      ensures end.Forfeited? ==> Cut(game) == ends' && currentPlayer == old(currentPlayer)
      ensures end.Banked? ==>
                && Banking(ends') && currentPlayer == old(currentPlayer).opponent
                && currentPlayer.SeatNow() == other && currentPlayer.opponent.SeatNow() == Next(turn, mover)
                && game == ends' + Ends(turn, other, Next(turn, mover), |game| - |ends'|)
    {
      PlayStep(turn, game, ends, mover, other, |game| - |ends|);
      end := PlayTurn(turn);
      ends' := ends + [end];
      TallyStep(ends, end);
    }

    /**
     * One round of the turn loop of a game all of whose turns would be
     * `game`, the turns `ends` played so far, the players in seats `s1` and
     * `s2`: the player who went first takes a turn, then the other. The round
     * stops at the first forfeit, whose mover is then still the current
     * player, and the game with it.
     */
    method PlayRound(ghost turn: Seat -> TurnRun, ghost first: ActivePlayer, ghost game: seq<TurnEnd>, ghost ends: seq<TurnEnd>,
                     ghost s1: Seat, ghost s2: Seat)
      returns (forfeit: Option<Forfeit>, ghost ends': seq<TurnEnd>)
      requires Genuine(turn) && Paired() && ap1.conn != ap2.conn && currentPlayer == first
      requires Banking(ends) && |ends| + 2 <= |game|
      requires first.SeatNow() == s1 && first.opponent.SeatNow() == s2
      requires game == ends + Ends(turn, s1, s2, |game| - |ends|)
      requires playerData.View() == Replay(Points(ends))
      modifies this`currentPlayer, ap1`pr, ap1`draws, ap2`pr, ap2`draws, ap1.conn, ap2.conn, playerData
      ensures Paired()
      ensures playerData.View() == Replay(Points(ends')) && forfeit == ForfeitOf(ends')
      ensures forfeit == None ==>
                && |ends'| == |ends| + 2 && Banking(ends') && currentPlayer == first
                && first.SeatNow() == Next(turn, s1) && first.opponent.SeatNow() == Next(turn, s2)
                && game == ends' + Ends(turn, Next(turn, s1), Next(turn, s2), |game| - |ends'|)
      ensures forfeit.Some? ==>
                && Cut(game) == ends'
                && ((|ends'| == |ends| + 1 && currentPlayer == first) || (|ends'| == |ends| + 2 && currentPlayer == first.opponent))
    {
      var end;
      end, ends' := Move(turn, game, ends, s1, s2);
      if end.Forfeited? {
        return Some(end.reason), ends';
      }
      end, ends' := Move(turn, game, ends', s2, Next(turn, s1));
      if end.Forfeited? {
        return Some(end.reason), ends';
      }
      forfeit := None;
    }

    /** The end of playGame: log the outcome, then close both connections. */
    method Conclude(rec: OutcomeRecord)
      requires ap1 != null && ap2 != null
      modifies gameLog, ap1.conn, ap2.conn
      ensures gameLog != null ==> gameLog.lines == old(gameLog.lines) + [FormatRecord(rec)]
      ensures ap1.conn.closed && ap2.conn.closed
    {
      LogGameOutcome(rec);
      CloseBoth();
    }

    /**
     * playGame: the roll-off, then numberOfTurns rounds of two turns, the
     * game Play describes for the two seats after the roll-off. A forfeit
     * ends the game at once with the mover as loser; otherwise the totals
     * decide. Either way exactly one outcome line is logged and both
     * connections are closed.
     */
    method PlayGame(ghost turn: Seat -> TurnRun) returns (rec: OutcomeRecord, ghost first: ActivePlayer, ghost rolloff: nat,
                                                         ghost opening: Seat, ghost answering: Seat, ghost ends: seq<TurnEnd>)
      requires Genuine(turn) && Paired() && ap1.conn != ap2.conn && playerData.View() == Slots(0, 0)
      requires exists j: nat :: !Tied(ap1.die, ap1.draws, ap2.die, ap2.draws, j)
      modifies this`currentPlayer, ap1`pr, ap1`draws, ap2`pr, ap2`draws, ap1.conn, ap2.conn, playerData, gameLog
      ensures Paired()
      ensures ap1.conn.closed && ap2.conn.closed
      ensures gameLog != null ==> gameLog.lines == old(gameLog.lines) + [FormatRecord(rec)]
      ensures rolloff >= 1 && DecidedAt(ap1.die, old(ap1.draws), ap2.die, old(ap2.draws), rolloff)
      ensures first == ap1 || first == ap2
      ensures first == ap1 <==> Beats(ap1.die, old(ap1.draws), ap2.die, old(ap2.draws), rolloff - 1)
      ensures opening == old(first.SeatNow()).(draws := old(first.draws) + rolloff)
      ensures answering == old(first.opponent.SeatNow()).(draws := old(first.opponent.draws) + rolloff)
      ensures ends == Play(turn, opening, answering, 2 * numberOfTurns)
      ensures rec == GameRecord(ends, first.name, first.opponent.name)
    {
      var forfeit;
      forfeit, first, rolloff, opening, answering, ends := Contest(turn);
      rec := Record(forfeit, first, ends);
      Conclude(rec);
    }

    /** The try block of playGame up to its outcome: the roll-off and the turn loop. */
    method Contest(ghost turn: Seat -> TurnRun) returns (forfeit: Option<Forfeit>, ghost first: ActivePlayer, ghost rolloff: nat,
                                                         ghost opening: Seat, ghost answering: Seat, ghost ends: seq<TurnEnd>)
      requires Genuine(turn) && Paired() && ap1.conn != ap2.conn && playerData.View() == Slots(0, 0)
      requires exists j: nat :: !Tied(ap1.die, ap1.draws, ap2.die, ap2.draws, j)
      modifies this`currentPlayer, ap1`pr, ap1`draws, ap2`pr, ap2`draws, ap1.conn, ap2.conn, playerData
      ensures Paired()
      ensures rolloff >= 1 && DecidedAt(ap1.die, old(ap1.draws), ap2.die, old(ap2.draws), rolloff)
      ensures first == ap1 || first == ap2
      ensures first == ap1 <==> Beats(ap1.die, old(ap1.draws), ap2.die, old(ap2.draws), rolloff - 1)
      ensures opening == old(first.SeatNow()).(draws := old(first.draws) + rolloff)
      ensures answering == old(first.opponent.SeatNow()).(draws := old(first.opponent.draws) + rolloff)
      ensures ends == Play(turn, opening, answering, 2 * numberOfTurns)
      ensures playerData.View() == Replay(Points(ends)) && forfeit == ForfeitOf(ends)
      ensures forfeit == None ==> currentPlayer == first
      ensures forfeit.Some? ==> currentPlayer == if (|ends| - 1) % 2 == 0 then first else first.opponent
    {
      var starter;
      starter, rolloff := GetWhoGoesFirst();
      first := starter;
      opening, answering := first.SeatNow(), first.opponent.SeatNow();
      currentPlayer := starter;
      forfeit, ends := PlayRounds(turn, first, opening, answering);
    }

    /** The outcome playGame records once the turn loop is over. */
    method Record(forfeit: Option<Forfeit>, ghost first: ActivePlayer, ghost ends: seq<TurnEnd>) returns (rec: OutcomeRecord)
      requires Paired() && (first == ap1 || first == ap2) && forfeit == ForfeitOf(ends)
      requires forfeit == None ==> currentPlayer == first
      requires forfeit.Some? ==> currentPlayer == if (|ends| - 1) % 2 == 0 then first else first.opponent
      requires playerData.View() == Replay(Points(ends))
      ensures rec == GameRecord(ends, first.name, first.opponent.name)
    {
      if forfeit.Some? {
        rec := ForfeitRecord(playerData.View(), currentPlayer.name, currentPlayer.opponent.name, forfeit.value);
      } else {
        rec := Decide(playerData.View(), currentPlayer.name, currentPlayer.opponent.name);
      }
    }

    /**
     * The turn loop of playGame: the game Play describes for the seats of the
     * player who went first and of the opponent, numberOfTurns rounds or
     * fewer when a turn is forfeited, the mover of that turn then being the
     * current player. The score slots are those the banked turns add up to.
     */
    method PlayRounds(ghost turn: Seat -> TurnRun, ghost first: ActivePlayer, ghost opening: Seat, ghost answering: Seat)
      returns (forfeit: Option<Forfeit>, ghost ends: seq<TurnEnd>)
      requires Genuine(turn) && Paired() && ap1.conn != ap2.conn && currentPlayer == first
      requires first.SeatNow() == opening && first.opponent.SeatNow() == answering
      requires playerData.View() == Slots(0, 0)
      modifies this`currentPlayer, ap1`pr, ap1`draws, ap2`pr, ap2`draws, ap1.conn, ap2.conn, playerData
      ensures Paired()
      ensures ends == Play(turn, opening, answering, 2 * numberOfTurns)
      ensures playerData.View() == Replay(Points(ends)) && forfeit == ForfeitOf(ends)
      ensures forfeit == None ==> currentPlayer == first
      ensures forfeit.Some? ==> currentPlayer == if (|ends| - 1) % 2 == 0 then first else first.opponent
    {
      ghost var game := Ends(turn, opening, answering, 2 * numberOfTurns);
      ghost var s1, s2 := opening, answering;
      ends := [];
      forfeit := None;
      var i := 0;
      while i < numberOfTurns && forfeit == None
        invariant Paired() && i <= numberOfTurns
        invariant playerData.View() == Replay(Points(ends)) && forfeit == ForfeitOf(ends)
        invariant forfeit == None ==>
                    && |ends| == 2 * i && Banking(ends) && currentPlayer == first
                    && first.SeatNow() == s1 && first.opponent.SeatNow() == s2
                    && game == ends + Ends(turn, s1, s2, |game| - |ends|)
        invariant forfeit.Some? ==>
                    && Cut(game) == ends && 0 < i
                    && ((|ends| == 2 * i - 1 && currentPlayer == first) || (|ends| == 2 * i && currentPlayer == first.opponent))
      {
        forfeit, ends := PlayRound(turn, first, game, ends, s1, s2);
        s1, s2 := Next(turn, s1), Next(turn, s2);
        i := i + 1;
      }
      if forfeit == None {
        assert ends + [] == ends;
        PlayWhole(ends);
      } else {
        RoundParity(i);
      }
    }

    /** The finally block of playGame. */
    method CloseBoth()
      requires ap1 != null && ap2 != null
      modifies ap1.conn, ap2.conn
      ensures ap1.conn.closed && ap2.conn.closed
      ensures ap1.conn.input == old(ap1.conn.input) && ap2.conn.input == old(ap2.conn.input)
    {
      ap1.conn.Close();
      ap2.conn.Close();
    }
  }
}

=== FILE: outcomes.dfy ===
/**
 * What a finished game produces on the game server: the two score slots as
 * turns pass (GamePlayWorker.playGame), who won and how, and the line
 * logGameOutcome writes for it.
 */
module Outcomes {
  import opened Wrappers
  import opened Text
  import opened Scores
  import opened Turns
  import opened Sockets
  import opened Dice

  // ---------------------------------------------------------------------
  // Score slots

  /**
   * After a turn that banked `points`, playGame adds them to the mover's slot
   * (takeTurn's player0Score += turnAccumulation) and swaps the slots, so that
   * slot 0 always belongs to the next player to move.
   */
  function Advance(s: Slots, points: int): (t: Slots)
    ensures t.theirs == s.mine + points && t.mine == s.theirs
  {
    Slots(s.theirs, s.mine + points)
  }

  /** The slots after the turns that banked `ps`, in order, from a fresh game. */
  function Replay(ps: seq<int>): Slots {
    if ps == [] then Slots(0, 0) else Advance(Replay(ps[..|ps| - 1]), ps[|ps| - 1])
  }

  lemma ReplaySnoc(ps: seq<int>, points: int)
    ensures Replay(ps + [points]) == Advance(Replay(ps), points)
  {
    assert (ps + [points])[..|ps|] == ps;
  }

  /** The points banked in the turns of ps whose index has parity p: one player's total. */
  function Share(ps: seq<int>, p: nat): int
    requires p < 2
  {
    if ps == [] then 0
    else Share(ps[..|ps| - 1], p) + (if (|ps| - 1) % 2 == p then ps[|ps| - 1] else 0)
  }

  /**
   * Slot 0 holds the total of the player whose turn is next (the player who
   * moved at the turns with the same parity as the number of turns played),
   * slot 1 that of the other player.
   */
  lemma {:induction false} ReplayIsShares(ps: seq<int>)
    ensures Replay(ps) == Slots(Share(ps, |ps| % 2), Share(ps, (|ps| + 1) % 2))
  {
    if ps != [] {
      var init := ps[..|ps| - 1];
      ReplayIsShares(init);
      assert ps[..|ps| - 1] == init;
    }
  }

  /** Totals of non-negative turn scores are non-negative. */
  lemma {:induction false} ShareNonNegative(ps: seq<nat>, p: nat)
    requires p < 2
    ensures Share(ps, p) >= 0
  {
    if ps != [] {
      ShareNonNegative(ps[..|ps| - 1], p);
    }
  }

  // ---------------------------------------------------------------------
  // Outcomes

  /** The HOW field of an outcome record. */
  datatype How = FairPlay | Tie | Lost(reason: Forfeit)

  function HowText(h: How): (s: string)
    ensures s != [] && ',' !in s
  {
    match h
    case FairPlay => "FAIR_PLAY"
    case Tie => "FAIR_PLAY||TIE"
    case Lost(Timeout) => "TIMEOUT"
    case Lost(Disconnect) => "DISCONNECT"
    case Lost(Stop) => "STOP"
  }

  function ParseHow(s: string): (h: Option<How>)
  {
    if s == "FAIR_PLAY" then Some(FairPlay)
    else if s == "FAIR_PLAY||TIE" then Some(Tie)
    else if s == "TIMEOUT" then Some(Lost(Timeout))
    else if s == "DISCONNECT" then Some(Lost(Disconnect))
    else if s == "STOP" then Some(Lost(Stop))
    else None
  }

  lemma HowRoundTrip(h: How)
    ensures ParseHow(HowText(h)) == Some(h)
  {
  }

  /** The five fields logGameOutcome writes. */
  datatype OutcomeRecord = OutcomeRecord(winner: string, winnerScore: int, loser: string, loserScore: int, how: How)

  /**
   * The outcome of a game played to the end, with slot 0 belonging to
   * `mover` (the player who went first, as 2N turns have passed): a strictly
   * higher total wins; on equal totals the record names the other player as
   * winner, with HOW marking the tie.
   */
  function Decide(s: Slots, mover: string, other: string): (r: OutcomeRecord)
    ensures r.how == FairPlay <==> s.mine != s.theirs
    ensures r.how == Tie <==> s.mine == s.theirs
    ensures r.how == FairPlay ==> r.winnerScore > r.loserScore
    ensures r.how == Tie ==> r.winnerScore == r.loserScore && (r.winner, r.loser) == (other, mover)
    ensures (r.winner, r.winnerScore, r.loser, r.loserScore) == (mover, s.mine, other, s.theirs)
         || (r.winner, r.winnerScore, r.loser, r.loserScore) == (other, s.theirs, mover, s.mine)
  {
    if s.mine > s.theirs then OutcomeRecord(mover, s.mine, other, s.theirs, FairPlay)
    else if s.mine < s.theirs then OutcomeRecord(other, s.theirs, mover, s.mine, FairPlay)
    else OutcomeRecord(other, s.theirs, mover, s.mine, Tie)
  }

  /** A forfeit: the mover loses whatever the scores, with their current slot as their score. */
  function ForfeitRecord(s: Slots, mover: string, other: string, reason: Forfeit): (r: OutcomeRecord)
    ensures r.loser == mover && r.winner == other && r.how == Lost(reason)
    ensures r.loserScore == s.mine && r.winnerScore == s.theirs
  {
    OutcomeRecord(other, s.theirs, mover, s.mine, Lost(reason))
  }

  /** A game played to the end is won by the player with the higher total, whatever the order of play. */
  lemma HigherTotalWins(ps: seq<int>, first: string, second: string)
    requires |ps| % 2 == 0
    ensures var r := Decide(Replay(ps), first, second);
            && (Share(ps, 0) > Share(ps, 1) ==> r.winner == first && r.how == FairPlay)
            && (Share(ps, 0) < Share(ps, 1) ==> r.winner == second && r.how == FairPlay)
            && (Share(ps, 0) == Share(ps, 1) ==> r.how == Tie)
            && r.winnerScore >= r.loserScore
  {
    ReplayIsShares(ps);
  }

  // ---------------------------------------------------------------------
  // The log line

  const WINNER: string := "WINNER:"
  const SCORE: string := "score:"
  const LOSER: string := "LOSER:"
  const HOW: string := "HOW:"

  function Fields(r: OutcomeRecord): (fs: seq<string>)
    ensures |fs| == 5
  {
    [WINNER + r.winner, SCORE + IntText(r.winnerScore), LOSER + r.loser, SCORE + IntText(r.loserScore),
     HOW + HowText(r.how)]
  }

  /** The line "WINNER:%s,score:%s,LOSER:%s,score:%s,HOW:%s\n". */
  function FormatRecord(r: OutcomeRecord): (line: string)
    ensures |line| >= 1 && line[|line| - 1] == '\n'
    ensures StartsWith(line, WINNER + r.winner)
  {
    var body := Join(Fields(r), ',');
    assert body == (WINNER + r.winner) + ([','] + Join(Fields(r)[1..], ','));
    assert (body + "\n")[..|WINNER + r.winner|] == WINNER + r.winner;
    body + "\n"
  }

  /** Reads an outcome line back: five comma-separated tagged fields and a newline. */
  function ParseRecord(line: string): (r: Option<OutcomeRecord>)
  {
    if line == [] || line[|line| - 1] != '\n' then None
    else
      var fs := Split(line[..|line| - 1], ',');
      if |fs| != 5 then None
      else
        match (Tagged(WINNER, fs[0]), Tagged(SCORE, fs[1]), Tagged(LOSER, fs[2]), Tagged(SCORE, fs[3]), Tagged(HOW, fs[4]))
        case (Some(w), Some(ws), Some(l), Some(ls), Some(h)) =>
          (match (ParseInt(ws), ParseInt(ls), ParseHow(h))
           case (Some(wv), Some(lv), Some(hv)) => Some(OutcomeRecord(w, wv, l, lv, hv))
           case _ => None)
        case _ => None
  }

  /**
   * An outcome line reads back as the record it was written from, provided
   * neither player name is empty or holds a comma (the line protocol lets a
   * name hold one, and such a line no longer splits into five fields).
   */
  lemma RecordRoundTrip(r: OutcomeRecord)
    requires r.winner != [] && r.loser != []
    requires ',' !in r.winner && ',' !in r.loser
    ensures ParseRecord(FormatRecord(r)) == Some(r)
  {
    var fs := Fields(r);
    var line := FormatRecord(r);
    assert line[..|line| - 1] == Join(fs, ',');
    forall k | 0 <= k < |fs|
      ensures ',' !in fs[k]
    {
      if k == 0 { NoCommaIn(WINNER, r.winner); }
      else if k == 1 { NoCommaIn(SCORE, IntText(r.winnerScore)); }
      else if k == 2 { NoCommaIn(LOSER, r.loser); }
      else if k == 3 { NoCommaIn(SCORE, IntText(r.loserScore)); }
      else { NoCommaIn(HOW, HowText(r.how)); }
    }
    SplitJoin(fs, ',');
    TaggedRoundTrip(WINNER, r.winner);
    TaggedRoundTrip(SCORE, IntText(r.winnerScore));
    TaggedRoundTrip(LOSER, r.loser);
    TaggedRoundTrip(SCORE, IntText(r.loserScore));
    TaggedRoundTrip(HOW, HowText(r.how));
    IntTextRoundTrip(r.winnerScore);
    IntTextRoundTrip(r.loserScore);
    HowRoundTrip(r.how);
  }

  lemma NoCommaIn(tag: string, value: string)
    requires ',' !in tag && ',' !in value
    ensures ',' !in tag + value
  {
  }

  // ---------------------------------------------------------------------
  // A game, turn by turn

  /**
   * Where a player stands between turns: the route of the next fetch, the
   * unread input, whether the socket is closed, and the dice drawn so far.
   */
  datatype Seat = Seat(route: Route, input: seq<ReadEvent>, closed: bool, die: DieStream, draws: nat)

  /** The turn the player in seat `s` takes next. */
  function TurnAt(s: Seat): TurnRun {
    Turn(s.route, s.input, s.closed, s.die, s.draws)
  }

  /**
   * A game is stated for any rule `turn` giving the turn a player takes from
   * a seat; the rule of this server is TurnAt. (Keeping the rule a parameter
   * lets the game be reasoned about without unfolding every turn.)
   */
  ghost predicate Genuine(turn: Seat -> TurnRun) {
    forall s {:trigger TurnAt(s)} :: turn(s) == TurnAt(s)
  }

  /** Where the player in seat `s` stands after the turn. */
  function Next(turn: Seat -> TurnRun, s: Seat): Seat {
    var r := turn(s);
    Seat(r.route, r.rest, s.closed, s.die, r.draws)
  }

  /**
   * The ends of the next `left` turns, were every one of them played: the
   * player in seat `mover` moves first and the two alternate.
   */
  function Ends(turn: Seat -> TurnRun, mover: Seat, other: Seat, left: nat): (ends: seq<TurnEnd>)
    ensures |ends| == left
    decreases left
  {
    if left == 0 then [] else [turn(mover).end] + Ends(turn, other, Next(turn, mover), left - 1)
  }

  /** The turns up to and including the first forfeit. */
  function Cut(ends: seq<TurnEnd>): seq<TurnEnd> {
    if ends == [] then []
    else if ends[0].Forfeited? then [ends[0]]
    else [ends[0]] + Cut(ends[1..])
  }

  /**
   * The turns of playGame from the point where the player in seat `mover` is
   * to move, the one in seat `other` moves next and `left` turns remain: the
   * players alternate, and the first forfeit ends the game.
   */
  function Play(turn: Seat -> TurnRun, mover: Seat, other: Seat, left: nat): (ends: seq<TurnEnd>) {
    Cut(Ends(turn, mover, other, left))
  }

  /** Every turn in `ends` banked. */
  predicate Banking(ends: seq<TurnEnd>) {
    forall k :: 0 <= k < |ends| ==> ends[k].Banked?
  }

  /** The points of the banked turns, in order. */
  function Points(ends: seq<TurnEnd>): seq<nat> {
    if ends == [] then []
    else
      var e := ends[|ends| - 1];
      Points(ends[..|ends| - 1]) + (if e.Banked? then [e.points] else [])
  }

  lemma PointsSnoc(ends: seq<TurnEnd>, e: TurnEnd)
    ensures Points(ends + [e]) == Points(ends) + (if e.Banked? then [e.points] else [])
  {
    assert (ends + [e])[..|ends|] == ends;
  }

  /** The forfeit that ended the game, if the last turn was one. */
  function ForfeitOf(ends: seq<TurnEnd>): Option<Forfeit> {
    if ends != [] && ends[|ends| - 1].Forfeited? then Some(ends[|ends| - 1].reason) else None
  }

  /** A turn played after `ends`: a banked one advances the replayed slots, a forfeit leaves them and ends the game. */
  lemma TallyStep(ends: seq<TurnEnd>, e: TurnEnd)
    ensures ForfeitOf(ends + [e]) == if e.Forfeited? then Some(e.reason) else None
    ensures Replay(Points(ends + [e])) == if e.Banked? then Advance(Replay(Points(ends)), e.points) else Replay(Points(ends))
  {
    PointsSnoc(ends, e);
    assert (ends + [e])[|ends|] == e;
    if e.Forfeited? {
      assert Points(ends) + [] == Points(ends);
    } else {
      ReplaySnoc(Points(ends), e.points);
    }
  }

  /**
   * The record playGame logs for the turns `ends` of a game that the player
   * named `first` opened against `second`: a forfeit makes the mover of the
   * last turn the loser; otherwise the replayed totals decide, slot 0 being
   * the first mover's.
   */
  function GameRecord(ends: seq<TurnEnd>, first: string, second: string): OutcomeRecord {
    var slots := Replay(Points(ends));
    match ForfeitOf(ends)
    case Some(reason) =>
      if (|ends| - 1) % 2 == 0 then ForfeitRecord(slots, first, second, reason)
      else ForfeitRecord(slots, second, first, reason)
    case None => Decide(slots, first, second)
  }

  /**
   * In the i-th round of two turns, the first turn, number 2i - 2 counting
   * from 0, is the first mover's and the second, number 2i - 1, the other's.
   */
  lemma RoundParity(i: nat)
    requires i > 0
    ensures (2 * i - 2) % 2 == 0 && (2 * i - 1) % 2 == 1
  {
  }

  /** Banked turns before the rest change nothing of where the game stops. */
  lemma {:induction false} CutAfterBanked(init: seq<TurnEnd>, rest: seq<TurnEnd>)
    requires Banking(init)
    ensures Cut(init + rest) == init + Cut(rest)
  {
    if init != [] {
      assert (init + rest)[0] == init[0];
      assert (init + rest)[1..] == init[1..] + rest;
      var tail := init[1..];
      forall k | 0 <= k < |tail|
        ensures tail[k].Banked?
      {
        assert tail[k] == init[k + 1];
      }
      CutAfterBanked(tail, rest);
      assert init[0].Banked?;
      assert Cut(init + rest) == [init[0]] + Cut(tail + rest);
      assert init == [init[0]] + tail;
    } else {
      assert init + rest == rest;
    }
  }

  /**
   * Cutting keeps a prefix: all of the turns when none is forfeited, else the
   * turns up to the first forfeit, every one before it banked.
   */
  lemma {:induction false} CutShape(ends: seq<TurnEnd>)
    ensures var c := Cut(ends);
            && |c| <= |ends| && c == ends[..|c|]
            && (ForfeitOf(c) == None ==> c == ends && Banking(ends))
            && (ForfeitOf(c).Some? ==> |c| >= 1 && Banking(c[..|c| - 1]))
  {
    if ends != [] && ends[0].Banked? {
      var tail := ends[1..];
      CutShape(tail);
      var c := Cut(ends);
      assert c == [ends[0]] + Cut(tail);
      if Cut(tail) != [] {
        assert c[|c| - 1] == Cut(tail)[|Cut(tail)| - 1];
      }
      if ForfeitOf(c) == None {
        assert ends == [ends[0]] + tail;
      } else {
        assert c[..|c| - 1] == [ends[0]] + Cut(tail)[..|Cut(tail)| - 1];
      }
    }
  }

  /** A turn after banked ones: a forfeit is where the game stops, a banked turn extends the run. */
  lemma CutAtTurn(ends: seq<TurnEnd>, e: TurnEnd, rest: seq<TurnEnd>)
    requires Banking(ends)
    ensures e.Forfeited? ==> Cut(ends + ([e] + rest)) == ends + [e]
    ensures e.Banked? ==> Banking(ends + [e]) && ends + ([e] + rest) == (ends + [e]) + rest
  {
    assert ends + ([e] + rest) == (ends + [e]) + rest;
    if e.Forfeited? {
      CutAfterBanked(ends, [e] + rest);
    } else {
      assert forall k :: 0 <= k < |ends| + 1 ==> (ends + [e])[k] == if k < |ends| then ends[k] else e;
    }
  }

  /**
   * The next turn of a game under way, all of whose turns would be `game`:
   * after the banked turns `ends`, with the player in seat `mover` to move
   * and `left` turns to go, a forfeit ends the game there; a banked turn
   * joins `ends`, and the opponent moves next.
   */
  lemma PlayStep(turn: Seat -> TurnRun, game: seq<TurnEnd>, ends: seq<TurnEnd>, mover: Seat, other: Seat, left: nat)
    requires Banking(ends) && left > 0
    requires game == ends + Ends(turn, mover, other, left)
    ensures var e := turn(mover).end;
            && (e.Forfeited? ==> Cut(game) == ends + [e])
            && (e.Banked? ==> Banking(ends + [e]) && game == (ends + [e]) + Ends(turn, other, Next(turn, mover), left - 1))
  {
    CutAtTurn(ends, turn(mover).end, Ends(turn, other, Next(turn, mover), left - 1));
  }

  /** A game whose turns all banked is played out in full. */
  lemma PlayWhole(game: seq<TurnEnd>)
    requires Banking(game)
    ensures Cut(game) == game && ForfeitOf(game) == None
  {
    CutAfterBanked(game, []);
    assert game + [] == game;
    if game != [] {
      assert game[|game| - 1].Banked?;
    }
  }

  /**
   * A game runs all its turns, every one banked, unless a turn is forfeited;
   * that turn is then the last, and all before it banked.
   */
  lemma PlayShape(turn: Seat -> TurnRun, mover: Seat, other: Seat, left: nat)
    ensures var ends := Play(turn, mover, other, left);
            && |ends| <= left && ends == Ends(turn, mover, other, left)[..|ends|]
            && (ForfeitOf(ends) == None ==> |ends| == left && Banking(ends))
            && (ForfeitOf(ends).Some? ==> |ends| >= 1 && Banking(ends[..|ends| - 1]))
  {
    CutShape(Ends(turn, mover, other, left));
  }

  /** The points of a run of banked turns are one per turn. */
  lemma {:induction false} PointsOfBanking(ends: seq<TurnEnd>)
    requires Banking(ends)
    ensures |Points(ends)| == |ends|
  {
    if ends != [] {
      var init := ends[..|ends| - 1];
      forall k | 0 <= k < |init|
        ensures init[k].Banked?
      {
        assert init[k] == ends[k];
      }
      PointsOfBanking(init);
    }
  }

  /**
   * The outcome of a game of an even number of turns: it is a forfeit exactly
   * when some turn was forfeited, with that turn's reason and its mover as
   * loser; otherwise every turn banked and the higher total wins.
   */
  lemma GameOutcome(turn: Seat -> TurnRun, mover: Seat, other: Seat, left: nat, first: string, second: string)
    requires left % 2 == 0
    ensures var ends := Play(turn, mover, other, left);
            var rec := GameRecord(ends, first, second);
            var ps := Points(ends);
            && (rec.how.Lost? <==> exists k :: 0 <= k < |ends| && ends[k].Forfeited?)
            && (rec.how.Lost? ==> ends[|ends| - 1] == Forfeited(rec.how.reason)
                                  && rec.loser == (if (|ends| - 1) % 2 == 0 then first else second))
            && (!rec.how.Lost? ==> && |ps| == left
                                   && (Share(ps, 0) > Share(ps, 1) ==> rec.winner == first && rec.how == FairPlay)
                                   && (Share(ps, 0) < Share(ps, 1) ==> rec.winner == second && rec.how == FairPlay)
                                   && (Share(ps, 0) == Share(ps, 1) ==> rec.winner == second && rec.how == Tie))
  {
    var ends := Play(turn, mover, other, left);
    PlayShape(turn, mover, other, left);
    if ForfeitOf(ends) == None {
      PointsOfBanking(ends);
      HigherTotalWins(Points(ends), first, second);
    } else {
      assert ends[|ends| - 1].Forfeited?;
    }
  }

  /** Under this server's rule, every turn that banks scores 0 (a bust) or at least 2. */
  lemma {:induction false} EndsBankZeroOrAtLeastTwo(turn: Seat -> TurnRun, mover: Seat, other: Seat, left: nat)
    requires Genuine(turn)
    ensures forall k :: 0 <= k < left && Ends(turn, mover, other, left)[k].Banked? ==>
              Ends(turn, mover, other, left)[k].points == 0 || Ends(turn, mover, other, left)[k].points >= 2
    decreases left
  {
    if left > 0 {
      assert turn(mover) == TurnAt(mover);
      TurnBanksZeroOrAtLeastFirst(mover.route, mover.input, mover.closed, mover.die, mover.draws);
      EndsBankZeroOrAtLeastTwo(turn, other, Next(turn, mover), left - 1);
      var tail := Ends(turn, other, Next(turn, mover), left - 1);
      var ends := Ends(turn, mover, other, left);
      forall k | 1 <= k < |ends|
        ensures ends[k] == tail[k - 1]
      {
      }
    }
  }

  /** Every turn a game banks scores 0 (a bust) or at least 2. */
  lemma PlayBanksZeroOrAtLeastTwo(turn: Seat -> TurnRun, mover: Seat, other: Seat, left: nat)
    requires Genuine(turn)
    ensures var ends := Play(turn, mover, other, left);
            forall k :: 0 <= k < |ends| && ends[k].Banked? ==> ends[k].points == 0 || ends[k].points >= 2
  {
    PlayShape(turn, mover, other, left);
    EndsBankZeroOrAtLeastTwo(turn, mover, other, left);
    var ends := Play(turn, mover, other, left);
    var all := Ends(turn, mover, other, left);
    forall k | 0 <= k < |ends|
      ensures ends[k] == all[k]
    {
    }
  }
}

=== FILE: player_registrar.dfy ===
/**
 * The registration half of a client's life (PlayerRegistrar) and the shared
 * FIFO of waiting registrations. Every `synchronized (registrationQueue)`
 * block of the server is one method here and runs as one atomic step; the
 * threads' interleaving itself is not modelled. A registration may be claimed
 * by a game between two steps of its registrar, which is why each iteration of
 * the withdrawal loop is a method of its own.
 */
module Registration {
  import opened Wrappers
  import opened Text
  import opened Sockets
  import opened WaitStates

  const HELLO: string := "HELLO:"
  const GOODBYE: string := "GOODBYE:"

  predicate IsGoodbye(line: string) {
    Tagged(GOODBYE, line).Some?
  }

  /**
   * What happened to a registration (proof bookkeeping): not queued yet,
   * waiting in the queue, claimed by a game, or withdrawn by its own client.
   */
  datatype Fate = Unqueued | Queued | Claimed | Withdrawn

  /**
   * The callback a game worker installs on a registration it claims
   * (GamePlayWorker.CallBack). Its two setters write the claimed player's
   * `state` and `registrarMessage`; this object is where those two values live.
   */
  class CallBack {
    var state: Option<RegistrationWaitState>
    var message: Option<string>

    constructor ()
      ensures state == None && message == None
    {
      state, message := None, None;
    }

    method SetState(s: RegistrationWaitState)
      modifies this
      ensures state == Some(s) && message == old(message)
    {
      state := Some(s);
    }

    method SetMessage(m: string)
      modifies this
      ensures message == Some(m) && state == old(state)
    {
      message := Some(m);
    }
  }

  // ---------------------------------------------------------------------
  // The HELLO loop

  datatype Greeting =
    | Greeted(name: string, at: nat)   // the line at index `at` is HELLO:<name>
    | NotGreeted(at: nat)              // the run ended at index `at` (or at the end of the input)

  /**
   * What the registrar's first loop makes of the reads input[from..]: lines
   * that are not a HELLO with a name are skipped; the first that is one
   * registers `name`; end of stream (a NullPointerException on the null line)
   * or any IOException ends the run unregistered.
   */
  function Greet(input: seq<ReadEvent>, from: nat): (r: Greeting)
    requires from <= |input|
    ensures from <= r.at <= |input|
    ensures r.Greeted? ==> r.at < |input| && input[r.at] == Line(HELLO + r.name) && r.name != []
    ensures r.NotGreeted? ==> r.at == |input| || !input[r.at].Line?
    ensures forall j :: from <= j < r.at ==> input[j].Line? && Tagged(HELLO, input[j].text).None?
    decreases |input| - from
  {
    if from == |input| then NotGreeted(from)
    else match input[from]
      case Line(s) =>
        (match Tagged(HELLO, s)
         case Some(name) => Greeted(name, from)
         case None => Greet(input, from + 1))
      case _ => NotGreeted(from)
  }

  // ---------------------------------------------------------------------
  // The withdrawal loop

  /** What one iteration of the registrar's second loop does with a read. */
  datatype Reaction =
    | Unregister          // GOODBYE:<name>: WAIT_QUEUE, then the guarded removal; the loop goes on
    | PassToGame(line: string)  // a line read after the claim: kept and handed to the game's callback
    | HandOff             // a timeout after the claim: callback and own state become WAIT_TURN
    | KeepWaiting         // another line, or a timeout, while still withdrawable
    | UnregisterAndExit   // end of stream: the guarded removal, then the run ends
    | Exit                // an IOException that is not a timeout: the run ends at once

  predicate EndsRun(r: Reaction) {
    r == UnregisterAndExit || r == Exit
  }

  predicate AttemptsRemoval(r: Reaction) {
    r == Unregister || r == UnregisterAndExit
  }

  /**
   * The reaction of the Java code (PlayerRegistrar.run): a Broken read
   * (SocketException) escapes both inner catch blocks and ends the run without
   * the guarded removal.
   */
  function ReactAsWritten(ev: ReadEvent, canUnregister: bool): (r: Reaction)
    ensures r == Unregister <==> ev.Line? && IsGoodbye(ev.text)
    ensures r.PassToGame? <==> ev.Line? && !IsGoodbye(ev.text) && !canUnregister
    ensures r.PassToGame? ==> r.line == ev.text
    ensures r == HandOff <==> ev == TimedOut && !canUnregister
    ensures r == KeepWaiting <==> canUnregister && (ev == TimedOut || (ev.Line? && !IsGoodbye(ev.text)))
    ensures r == UnregisterAndExit <==> ev == EndOfStream
    ensures r == Exit <==> ev == Broken
  {
    match ev
    case Line(s) =>
      if IsGoodbye(s) then Unregister
      else if !canUnregister then PassToGame(s)
      else KeepWaiting
    case TimedOut => if canUnregister then KeepWaiting else HandOff
    case EndOfStream => UnregisterAndExit
    case Broken => Exit
  }

  /** A connection reset while queued: the Java registrar ends its run and leaves its entry in the queue. */
  lemma ResetLeavesEntryAsWritten()
    ensures EndsRun(ReactAsWritten(Broken, true))
    ensures !AttemptsRemoval(ReactAsWritten(Broken, true))
  {
  }

  /** The reaction this model runs: a Broken read is handled like end of stream. */
  function React(ev: ReadEvent, canUnregister: bool): (r: Reaction)
    ensures ev != Broken ==> r == ReactAsWritten(ev, canUnregister)
    ensures ev == Broken ==> r == UnregisterAndExit
  {
    if ev == Broken then UnregisterAndExit else ReactAsWritten(ev, canUnregister)
  }

  /**
   * Every way out of the withdrawal loop leaves the queue alone only if the
   * registration is already claimed: a run that ends while it is still
   * withdrawable first tries the guarded removal.
   */
  lemma ExitOnlyAfterRemoval(ev: ReadEvent, canUnregister: bool)
    ensures EndsRun(React(ev, canUnregister)) ==> AttemptsRemoval(React(ev, canUnregister))
    ensures !canUnregister && !EndsRun(React(ev, canUnregister)) ==>
              React(ev, canUnregister) in {Unregister, HandOff} || React(ev, canUnregister).PassToGame?
  {
  }

  // ---------------------------------------------------------------------
  // The shared queue

  /** A queue entry a game may claim. */
  ghost predicate Claimable(r: Registrar)
    reads r
  {
    r.fate == Queued && r.canUnregister && r.registerred && r.name.Some? && r.conn != null && r.callback == null
  }

  /** s without the registration r, order kept (ConcurrentLinkedQueue.remove on a queue without duplicates). */
  function Without(s: seq<Registrar>, r: Registrar): (t: seq<Registrar>)
    ensures r !in t
    ensures forall i :: 0 <= i < |t| ==> t[i] in s && t[i] != r
    ensures forall i :: 0 <= i < |s| && s[i] != r ==> s[i] in t
    ensures r !in s ==> t == s
    ensures |t| <= |s|
  {
    if s == [] then []
    else if s[0] == r then Without(s[1..], r)
    else [s[0]] + Without(s[1..], r)
  }

  /** Appending r and then taking it out again gives back the queue it was appended to. */
  lemma {:induction false} WithoutAppended(s: seq<Registrar>, r: Registrar)
    requires r !in s
    ensures Without(s + [r], r) == s
  {
    if s != [] {
      assert (s + [r])[1..] == s[1..] + [r];
      WithoutAppended(s[1..], r);
    }
  }

  /** The registrationQueue: registrations waiting for a game, oldest first. */
  class RegistrationQueue {
    var items: seq<Registrar>

    ghost predicate Valid()
      reads this, items
    {
      && (forall i :: 0 <= i < |items| ==> Claimable(items[i]))
      && Distinct(items)
    }

    constructor ()
      ensures items == [] && Valid()
    {
      items := [];
    }

    /** ConcurrentLinkedQueue.add: append at the tail. */
    method Add(r: Registrar)
      requires Valid() && Claimable(r) && r !in items
      modifies this
      ensures items == old(items) + [r] && Valid()
    {
      items := items + [r];
    }

    /** ConcurrentLinkedQueue.poll: take the head, or null when empty. */
    method Poll() returns (r: Registrar?)
      requires Valid()
      modifies this
      ensures old(items) == [] ==> r == null && items == []
      ensures old(items) != [] ==> r == old(items)[0] && items == old(items)[1..]
      ensures Valid()
    {
      if items == [] {
        r := null;
      } else {
        r := items[0];
        items := items[1..];
      }
    }

    /** ConcurrentLinkedQueue.remove(r): true iff r was queued; it no longer is. */
    method Remove(r: Registrar) returns (removed: bool)
      requires Valid()
      modifies this
      ensures removed == (r in old(items))
      ensures items == Without(old(items), r) && r !in items
      ensures Valid()
    {
      removed := r in items;
      WithoutDistinct(items, r);
      var t := Without(items, r);
      forall i | 0 <= i < |t|
        ensures Claimable(t[i])
      {
        var k :| 0 <= k < |items| && items[k] == t[i];
      }
      items := t;
    }
  }

  /** No registration occurs twice in s. */
  predicate Distinct(s: seq<Registrar>) {
    forall i, j :: 0 <= i < j < |s| ==> s[i] != s[j]
  }

  /** Removing a registration from a queue without duplicates leaves one without duplicates. */
  lemma {:induction false} WithoutDistinct(s: seq<Registrar>, r: Registrar)
    requires Distinct(s)
    ensures Distinct(Without(s, r))
  {
    if s != [] {
      assert Distinct(s[1..]);
      WithoutDistinct(s[1..], r);
      if s[0] != r {
        var u := Without(s[1..], r);
        assert s[0] !in u by {
          forall k | 0 <= k < |u|
            ensures u[k] != s[0]
          {
            var m :| 0 <= m < |s[1..]| && s[1..][m] == u[k];
            assert s[m + 1] == u[k];
          }
        }
        assert Without(s, r) == [s[0]] + u;
      }
    }
  }

  /** The reads left after the one at index `at` (end of stream consumes nothing). */
  function ReadsPast(input: seq<ReadEvent>, at: nat): (rest: seq<ReadEvent>)
    requires at <= |input|
    ensures |rest| == if at < |input| then |input| - at - 1 else 0
  {
    if at < |input| then input[at + 1..] else []
  }

  /** The HELLO loop of PlayerRegistrar.run on its own: the name of the first HELLO line, if any. */
  method ReadHello(c: Connection) returns (name: Option<string>)
    requires !c.closed
    modifies c
    ensures !c.closed
    ensures var g := Greet(old(c.input), 0);
            && name == (if g.Greeted? then Some(g.name) else None)
            && c.input == ReadsPast(old(c.input), g.at)
  {
    ghost var input := c.input;
    var i := 0;
    while true
      invariant 0 <= i <= |input| && c.input == input[i..] && !c.closed
      invariant Greet(input, 0) == Greet(input, i)
      decreases |input| - i
    {
      var ev := c.ReadLine();
      if ev.Line? && Tagged(HELLO, ev.text).Some? {
        return Tagged(HELLO, ev.text);
      } else if ev.Line? {
        i := i + 1;
      } else {
        return None;
      }
    }
  }

  /** Where the withdrawal loop leaves the socket: the reads still pending and whether it is closed. */
  datatype Parting = Parting(rest: seq<ReadEvent>, closed: bool)

  /**
   * The withdrawal loop of a registration nobody has claimed, on a socket
   * with pending reads `input`; `queued` says whether it is still in the
   * queue. Other lines and time-outs are skipped. A GOODBYE line unregisters:
   * the guarded removal takes a queued registration out and closes the
   * socket, and the loop goes on. End of stream, or a broken socket (a closed
   * one included), ends the run after the same guarded removal.
   */
  function Farewell(input: seq<ReadEvent>, closed: bool, queued: bool): (p: Parting)
    ensures |p.rest| <= |input| && p.rest == input[|input| - |p.rest|..]
    ensures p.closed == (closed || queued)
    ensures !closed && input != [] ==> |p.rest| < |input|
    ensures forall j :: 0 <= j < |input| - |p.rest| - 1 ==> input[j].Line? || input[j] == TimedOut
    decreases |input|
  {
    var rest := AfterRead(input, closed);
    match NextEvent(input, closed)
    case Line(s) =>
      if IsGoodbye(s) then Farewell(rest, closed || queued, false) else Farewell(rest, closed, queued)
    case TimedOut => Farewell(rest, closed, queued)
    case _ => Parting(rest, closed || queued)
  }

  /** One read of the loop Farewell describes, stated through React: the run ends, or the loop goes on from the next read. */
  lemma FarewellStep(input: seq<ReadEvent>, closed: bool, queued: bool)
    ensures var r := React(NextEvent(input, closed), true);
            var rest := AfterRead(input, closed);
            && (EndsRun(r) ==> Farewell(input, closed, queued) == Parting(rest, closed || queued))
            && (!EndsRun(r) ==> Farewell(input, closed, queued)
                                == Farewell(rest, closed || (queued && r == Unregister), queued && r != Unregister))
  {
  }

  // ---------------------------------------------------------------------
  // The registrar

  class Registrar {
    /** The accepted socket; null before accept. */
    var conn: Connection?
    var name: Option<string>
    var state: RegistrationWaitState
    var registerred: bool
    var canUnregister: bool
    /** A line this registrar read after its registration was claimed. */
    var message: Option<string>
    var callback: CallBack?
    ghost var fate: Fate

    ghost predicate Valid()
      reads this
    {
      && (fate == Unqueued ==>
            state == WaitHello && !registerred && canUnregister && callback == null && message == None)
      && (fate == Queued ==>
            (state == WaitGoodbye || state == WaitQueue) && registerred && canUnregister && callback == null
            && conn != null && name.Some? && message == None)
      && (fate == Claimed ==>
            !canUnregister && callback != null && conn != null && name.Some?)
      && (fate == Withdrawn ==>
            !registerred && canUnregister && conn != null)
    }

    /** The state of a fresh or recycled registrar. */
    ghost predicate Initial()
      reads this
    {
      && conn == null && name == None && state == WaitHello && !registerred && canUnregister
      && message == None && callback == null && fate == Unqueued
    }

    /** The withdrawal loop is still running: queued, or unregistered and still withdrawable. */
    ghost predicate Waiting()
      reads this
    {
      conn != null && (state == WaitGoodbye || (state == WaitQueue && canUnregister))
    }

    constructor ()
      ensures Initial() && Valid()
    {
      conn, name, state := null, None, WaitHello;
      registerred, canUnregister := false, true;
      message, callback := None, null;
      fate := Unqueued;
    }

    /** resetData: the registrar is recycled for a new connection. */
    method ResetData()
      modifies this
      ensures Initial() && Valid()
    {
      conn, name, state := null, None, WaitHello;
      registerred, canUnregister := false, true;
      message, callback := None, null;
      fate := Unqueued;
    }

    /**
     * The first part of run on the accepted connection c: read lines until a
     * HELLO:<name>, then record the name, append this registration to the
     * queue (notifying one waiting game worker if more than one is queued) and
     * only then move to WAIT_GOODBYE.
     */
    method AwaitHello(c: Connection, q: RegistrationQueue) returns (enqueued: bool, notify: bool)
      requires Initial() && !c.closed
      requires q.Valid() && this !in q.items
      modifies this, c, q
      ensures Valid() && q.Valid() && conn == c && !c.closed
      ensures var g := Greet(old(c.input), 0);
              && enqueued == g.Greeted?
              && c.input == ReadsPast(old(c.input), g.at)
              && (enqueued ==> name == Some(g.name) && registerred && state == WaitGoodbye && fate == Queued
                               && q.items == old(q.items) + [this] && notify == (|q.items| > 1))
              && (!enqueued ==> state == WaitHello && fate == Unqueued && name == None && !registerred && q.items == old(q.items) && !notify)
    {
      conn := c;
      var hello := ReadHello(c);
      if hello.Some? {
        name := hello;
        registerred := true;
        fate := Queued;
        q.Add(this);
        notify := |q.items| > 1;
        state := WaitGoodbye;
        enqueued := true;
      } else {
        // end of stream (a NullPointerException on the null line) or an IOException
        enqueued, notify := false, false;
      }
    }

    /**
     * A game worker takes this registration off the queue (the pairing block
     * of GamePlayWorker.run): it can no longer be withdrawn, and the worker's
     * callback is installed.
     */
    method Claim(cb: CallBack)
      requires Claimable(this)
      modifies this
      ensures Valid() && fate == Claimed && !canUnregister && callback == cb
      ensures conn == old(conn) && name == old(name) && state == old(state) && registerred == old(registerred)
      ensures message == old(message)
    {
      canUnregister := false;
      callback := cb;
      fate := Claimed;
    }

    /**
     * The guarded removal, under the queue's lock: only a registration that is
     * still withdrawable and still queued is removed; it is then unregistered
     * and its socket closed. Otherwise nothing changes.
     */
    method Withdraw(q: RegistrationQueue) returns (removed: bool)
      requires Valid() && q.Valid() && conn != null && fate != Unqueued
      modifies this, conn, q
      ensures Valid() && q.Valid()
      ensures removed == (old(canUnregister) && this in old(q.items))
      ensures conn == old(conn) && conn != null && conn.input == old(conn.input)
      ensures removed ==> q.items == Without(old(q.items), this) && !registerred && conn.closed
                          && old(fate) == Queued && fate == Withdrawn
      ensures !removed ==> q.items == old(q.items) && registerred == old(registerred)
                           && conn.closed == old(conn.closed) && fate == old(fate)
      ensures this !in q.items
      ensures state == old(state) && canUnregister == old(canUnregister) && name == old(name)
      ensures message == old(message) && callback == old(callback)
    {
      removed := false;
      if canUnregister {
        removed := q.Remove(this);
        if removed {
          registerred := false;
          fate := Withdrawn;
          conn.Close();
        }
      }
    }

    /**
     * One iteration of the withdrawal loop of run: one read, then what
     * Reaction says. `running` is whether the loop goes on: the run did not
     * end and `canUnregister` (the loop guard) still holds.
     */
    method AwaitGoodbyeStep(q: RegistrationQueue) returns (running: bool)
      requires Valid() && q.Valid() && Waiting() && fate != Unqueued
      requires fate == Queued ==> this in q.items
      modifies this, conn, q, callback
      ensures Valid() && q.Valid() && conn == old(conn) && callback == old(callback)
      ensures var ev := NextEvent(old(conn.input), old(conn.closed));
              var r := React(ev, old(canUnregister));
              && conn.input == AfterRead(old(conn.input), old(conn.closed))
              && running == (!EndsRun(r) && canUnregister)
              && canUnregister == old(canUnregister) && name == old(name)
              && Transition(old(state), state)
              && (state == WaitTurn && old(state) != WaitTurn ==> ev == TimedOut && !old(canUnregister))
              && (state == WaitQueue && old(state) != WaitQueue ==> ev.Line? && IsGoodbye(ev.text))
              && (r == KeepWaiting ==> state == old(state) && q.items == old(q.items) && message == old(message))
              && (r.PassToGame? ==> message == Some(r.line) && callback.state == Some(WaitTurn)
                                    && callback.message == Some(r.line) && q.items == old(q.items))
              && (r == HandOff ==> state == WaitTurn && callback.state == Some(WaitTurn) && q.items == old(q.items))
              && (r == Unregister ==> state == WaitQueue)
              && (AttemptsRemoval(r) && old(canUnregister) && this in old(q.items) ==>
                    q.items == Without(old(q.items), this) && fate == Withdrawn && !registerred && conn.closed)
              && (!(AttemptsRemoval(r) && old(canUnregister) && this in old(q.items)) ==>
                    q.items == old(q.items) && fate == old(fate) && conn.closed == old(conn.closed))
              && (!r.PassToGame? ==> message == old(message)
                                     && (callback != null ==> callback.message == old(callback.message)))
              && (!r.PassToGame? && r != HandOff ==> callback != null ==> callback.state == old(callback.state))
      ensures old(fate) == Claimed ==> fate == Claimed
      ensures fate == Withdrawn && old(fate) != Withdrawn ==> old(fate) == Queued && this !in q.items
      ensures fate == Queued ==> this in q.items
      ensures !running ==> this !in q.items && fate != Queued
      ensures running ==> |conn.input| < old(|conn.input|)
    {
      var ev := conn.ReadLine();
      var r := React(ev, canUnregister);
      match r {
        case Unregister =>
          state := WaitQueue;
          var _ := Withdraw(q);
        case PassToGame(line) =>
          message := Some(line);
          callback.SetState(WaitTurn);
          callback.SetMessage(line);
        case HandOff =>
          callback.SetState(WaitTurn);
          state := WaitTurn;
        case KeepWaiting =>
        case UnregisterAndExit =>
          var _ := Withdraw(q);
        case Exit =>
      }
      running := !EndsRun(r) && canUnregister;
    }

    /**
     * The withdrawal loop of run: `while (canUnregister)` one iteration after
     * the other. When it ends, this registration is no longer queued: it was
     * claimed by a game, or it removed itself. A registration that is still
     * withdrawable reads exactly what Farewell says, up to the first end of
     * stream or broken read, and ends withdrawn; one already claimed reads
     * nothing.
     */
    method AwaitGoodbye(q: RegistrationQueue)
      requires Valid() && q.Valid() && Waiting() && fate != Unqueued
      requires fate == Queued ==> this in q.items
      modifies this, conn, q, callback
      ensures Valid() && q.Valid() && this !in q.items && fate != Queued
      ensures conn == old(conn) && name == old(name)
      ensures old(fate) == Claimed ==> fate == Claimed
      ensures fate == Withdrawn && old(fate) != Withdrawn ==> old(fate) == Queued
      ensures old(canUnregister) ==>
                var p := Farewell(old(conn.input), old(conn.closed), old(fate) == Queued);
                && conn.input == p.rest && conn.closed == p.closed
                && fate == Withdrawn && q.items == Without(old(q.items), this)
      ensures !old(canUnregister) ==>
                && conn.input == old(conn.input) && conn.closed == old(conn.closed) && q.items == old(q.items)
                && state == old(state) && message == old(message)
    {
      if !canUnregister {
        assert fate == Claimed;
        return;
      }
      ghost var input0, closed0, queued0, items0 := conn.input, conn.closed, fate == Queued, q.items;
      var running := true;
      while running
        invariant Valid() && q.Valid() && conn == old(conn) && callback == old(callback) && fate != Unqueued
        invariant name == old(name) && canUnregister
        invariant running ==> Waiting()
        invariant fate == Queued ==> this in q.items
        invariant !running ==> this !in q.items && fate != Queued
        invariant old(fate) == Claimed ==> fate == Claimed
        invariant fate == Withdrawn && old(fate) != Withdrawn ==> old(fate) == Queued
        invariant q.items == if fate == Queued then items0 else Without(items0, this)
        invariant running ==> Farewell(input0, closed0, queued0) == Farewell(conn.input, conn.closed, fate == Queued)
        invariant !running ==> Farewell(input0, closed0, queued0) == Parting(conn.input, conn.closed)
        decreases |conn.input|, running
      {
        FarewellStep(conn.input, conn.closed, fate == Queued);
        ExitOnlyAfterRemoval(NextEvent(conn.input, conn.closed), true);
        assert fate == Queued <==> this in q.items;
        running := AwaitGoodbyeStep(q);
      }
    }

    /**
     * run, on the connection the server socket accepted: register, then wait
     * for an unregister line or for a game to claim the registration. However
     * the run ends, the registration is no longer in the queue.
     */
    method Run(c: Connection, q: RegistrationQueue)
      requires Initial() && !c.closed
      requires q.Valid() && this !in q.items
      modifies this, c, q
      ensures Valid() && q.Valid() && this !in q.items
      ensures fate != Queued
      ensures var g := Greet(old(c.input), 0);
              && conn == c && q.items == old(q.items)
              && name == (if g.Greeted? then Some(g.name) else None)
              && (g.NotGreeted? ==> fate == Unqueued && c.input == ReadsPast(old(c.input), g.at) && !c.closed)
              && (g.Greeted? ==> var p := Farewell(ReadsPast(old(c.input), g.at), false, true);
                                 fate == Withdrawn && c.input == p.rest && c.closed)
    {
      var enqueued, _ := AwaitHello(c, q);
      if enqueued {
        WithoutAppended(old(q.items), this);
        AwaitGoodbye(q);
      }
    }
  }
}

=== FILE: registration_wait_state.dfy ===
/**
 * The registration wait states (the Java enum RegistrationWaitState) and the
 * order in which one registration run may pass through them.
 */
module WaitStates {

  datatype RegistrationWaitState =
    | WaitHello     // not queued yet: blocked on the socket until a HELLO:<name> line
    | WaitGoodbye   // queued: blocked on the socket (with a short timeout) for an unregister line
    | WaitQueue     // a GOODBYE:<name> line arrived: removing itself from the queue, if still there
    | WaitTurn      // a read timed out after a game claimed the registration

  /** RegistrationWaitState.values(), in declaration order. */
  function Values(): (vs: seq<RegistrationWaitState>)
    ensures |vs| == 4
  {
    [WaitHello, WaitGoodbye, WaitQueue, WaitTurn]
  }

  /** The enum constant's ordinal(). */
  function Ordinal(s: RegistrationWaitState): (k: nat)
    ensures k < |Values()| && Values()[k] == s
  {
    match s
    case WaitHello => 0
    case WaitGoodbye => 1
    case WaitQueue => 2
    case WaitTurn => 3
  }

  /** The enum has exactly four constants: values() lists each once, at its ordinal. */
  lemma ExactlyFourStates()
    ensures forall i, j :: 0 <= i < j < |Values()| ==> Values()[i] != Values()[j]
    ensures forall s :: s in Values() && Values()[Ordinal(s)] == s
  {
    forall s ensures s in Values() && Values()[Ordinal(s)] == s {
      var k := Ordinal(s);
      assert Values()[k] == s;
    }
  }

  /**
   * One step of a registration run: the state stays, or HELLO moves it from
   * WaitHello to WaitGoodbye, or from WaitGoodbye an unregister line moves it
   * to WaitQueue or a timeout after the claim moves it to WaitTurn.
   */
  predicate Transition(from: RegistrationWaitState, to: RegistrationWaitState) {
    || from == to
    || (from == WaitHello && to == WaitGoodbye)
    || (from == WaitGoodbye && to == WaitQueue)
    || (from == WaitGoodbye && to == WaitTurn)
  }

  /** A sequence of states that a run can pass through, from the initial state. */
  predicate IsRun(trace: seq<RegistrationWaitState>) {
    && |trace| >= 1
    && trace[0] == WaitHello
    && forall i :: 0 <= i < |trace| - 1 ==> Transition(trace[i], trace[i + 1])
  }

  /**
   * A run never both unregisters and joins a game: once it is in WaitQueue or
   * WaitTurn it stays there, so no run visits both.
   */
  lemma {:induction false} QueueAndTurnExclusive(trace: seq<RegistrationWaitState>)
    requires IsRun(trace)
    ensures !(WaitQueue in trace && WaitTurn in trace)
    ensures forall i, j :: 0 <= i <= j < |trace| && trace[i] in {WaitQueue, WaitTurn} ==> trace[j] == trace[i]
  {
    if |trace| > 1 {
      var front := trace[..|trace| - 1];
      assert IsRun(front) by {
        forall i | 0 <= i < |front| - 1 ensures Transition(front[i], front[i + 1]) {
          assert front[i] == trace[i] && front[i + 1] == trace[i + 1];
        }
      }
      QueueAndTurnExclusive(front);
      var last := |trace| - 1;
      forall i, j | 0 <= i <= j < |trace| && trace[i] in {WaitQueue, WaitTurn}
        ensures trace[j] == trace[i]
      {
        if j < last {
          assert front[i] == trace[i] && front[j] == trace[j];
        } else if i < last {
          assert front[i] == trace[i] && front[last - 1] == trace[last - 1];
          assert Transition(trace[last - 1], trace[last]);
        }
      }
    }
  }
}

=== FILE: sockets.dfy ===
/**
 * A client connection as the servers see it: the results of successive
 * BufferedReader.readLine calls on the socket. Real time, socket options and
 * output are not modelled; a read that ran into the socket's read timeout is
 * the event TimedOut.
 */
module Sockets {

  /** What one readLine call produces. */
  datatype ReadEvent =
    | Line(text: string)   // a line of text
    | TimedOut             // SocketTimeoutException, an InterruptedIOException
    | EndOfStream          // readLine returned null: the client closed the connection
    | Broken               // SocketException: connection reset, or the socket was closed locally

  /** The result of the next read, for a socket whose remaining input is `input`. */
  function NextEvent(input: seq<ReadEvent>, closed: bool): (ev: ReadEvent)
    ensures closed ==> ev == Broken
    ensures !closed && input == [] ==> ev == EndOfStream
    ensures !closed && input != [] ==> ev == input[0]
  {
    if closed then Broken else if input == [] then EndOfStream else input[0]
  }

  /** The input left after the next read: a read consumes one event of an open socket's pending input. */
  function AfterRead(input: seq<ReadEvent>, closed: bool): (rest: seq<ReadEvent>)
    ensures !closed && input != [] ==> rest == input[1..]
    ensures closed || input == [] ==> rest == input
  {
    if closed || input == [] then input else input[1..]
  }

  class Connection {
    /** What the remaining reads return, in order; after it, the stream has ended. */
    var input: seq<ReadEvent>
    /** Socket.close() was called on this side. */
    var closed: bool

    constructor (input: seq<ReadEvent>)
      ensures this.input == input && !closed
    {
      this.input := input;
      closed := false;
    }

    /** BufferedReader.readLine on the socket's input stream. */
    method ReadLine() returns (ev: ReadEvent)
      modifies this
      ensures ev == NextEvent(old(input), old(closed))
      ensures input == AfterRead(old(input), old(closed))
      ensures closed == old(closed)
    {
      if closed {
        ev := Broken;
      } else if input == [] {
        ev := EndOfStream;
      } else {
        ev := input[0];
        input := input[1..];
      }
    }

    /** Socket.close(). */
    method Close()
      modifies this
      ensures closed && input == old(input)
    {
      closed := true;
    }
  }
}

=== FILE: text.dfy ===
/** Optional values: Java's nullable references. */
module Wrappers {
  datatype Option<+T> = None | Some(value: T)
}

/**
 * The string operations the server relies on: Java's String.startsWith, the
 * "PREFIX:<rest>" commands of the line protocol, decimal rendering of an int
 * (what String.format's %s does with an Integer), and comma-joined records.
 */
module Text {
  import opened Wrappers

  /** Java's s.startsWith(prefix). */
  predicate StartsWith(s: string, prefix: string) {
    |prefix| <= |s| && s[..|prefix|] == prefix
  }

  /**
   * A tagged protocol line `prefix + rest` with a non-empty rest, as both
   * servers test it: `line.startsWith(prefix) && line.length() > prefix.length()`,
   * the value being `line.substring(prefix.length())`.
   */
  function Tagged(prefix: string, line: string): (r: Option<string>)
    ensures r.Some? <==> StartsWith(line, prefix) && |line| > |prefix|
    ensures r.Some? ==> r.value != [] && prefix + r.value == line
  {
    if StartsWith(line, prefix) && |line| > |prefix| then
      assert line == prefix + line[|prefix|..];
      Some(line[|prefix|..])
    else None
  }

  /** A tagged line carries exactly the value it was built from, if that value is non-empty. */
  lemma TaggedRoundTrip(prefix: string, value: string)
    ensures Tagged(prefix, prefix + value) == if value == [] then None else Some(value)
  {
    var line := prefix + value;
    assert line[..|prefix|] == prefix;
    if value != [] {
      assert line[|prefix|..] == value;
    }
  }

  // ---------------------------------------------------------------------
  // Decimal rendering of integers

  function DigitChar(d: nat): (c: char)
    requires d < 10
    ensures '0' <= c <= '9'
  {
    ('0' as int + d) as char
  }

  function DigitValue(c: char): (d: nat)
    ensures d < 10
  {
    if '0' <= c <= '9' then (c as int - '0' as int) else 0
  }

  predicate IsDigit(c: char) {
    '0' <= c <= '9'
  }

  predicate AllDigits(s: string) {
    forall i :: 0 <= i < |s| ==> IsDigit(s[i])
  }

  /** The decimal digits of n, most significant first, without leading zeros. */
  function NatText(n: nat): (s: string)
    ensures |s| >= 1 && AllDigits(s)
  {
    if n < 10 then [DigitChar(n)] else NatText(n / 10) + [DigitChar(n % 10)]
  }

  /** The value of a string of decimal digits. */
  function DigitsValue(s: string): nat {
    if s == [] then 0 else DigitsValue(s[..|s| - 1]) * 10 + DigitValue(s[|s| - 1])
  }

  lemma {:induction false} NatTextRoundTrip(n: nat)
    ensures DigitsValue(NatText(n)) == n
  {
    var s := NatText(n);
    if n < 10 {
      assert s[..|s| - 1] == [];
    } else {
      NatTextRoundTrip(n / 10);
      assert s[..|s| - 1] == NatText(n / 10);
    }
  }

  /** Java's Integer.toString: a minus sign in front of the digits of a negative value. */
  function IntText(i: int): (s: string)
    ensures |s| >= 1
    ensures ',' !in s
  {
    if i < 0 then "-" + NatText(-i) else NatText(i)
  }

  /** Reads back what IntText writes. */
  function ParseInt(s: string): (r: Option<int>)
  {
    if |s| >= 2 && s[0] == '-' && AllDigits(s[1..]) then
      var v := DigitsValue(s[1..]);
      if v == 0 then None else Some(-(v as int))
    else if |s| >= 1 && AllDigits(s) then
      Some(DigitsValue(s))
    else None
  }

  lemma IntTextRoundTrip(i: int)
    ensures ParseInt(IntText(i)) == Some(i)
  {
    var s := IntText(i);
    if i < 0 {
      assert s[1..] == NatText(-i);
      NatTextRoundTrip(-i);
    } else {
      assert IsDigit(s[0]);
      NatTextRoundTrip(i);
    }
  }

  // ---------------------------------------------------------------------
  // Comma-separated fields

  /** Fields joined by a separator character. */
  function Join(parts: seq<string>, sep: char): string {
    if |parts| == 0 then ""
    else if |parts| == 1 then parts[0]
    else parts[0] + [sep] + Join(parts[1..], sep)
  }

  /** Index of the first occurrence of c in s. */
  function IndexOf(s: string, c: char): (i: nat)
    requires c in s
    ensures i < |s| && s[i] == c && c !in s[..i]
  {
    if s[0] == c then 0 else 1 + IndexOf(s[1..], c)
  }

  /** The fields of s between occurrences of sep; the inverse of Join. */
  function Split(s: string, sep: char): (parts: seq<string>)
    ensures |parts| >= 1
    ensures forall k :: 0 <= k < |parts| ==> sep !in parts[k]
    decreases |s|
  {
    if sep !in s then [s]
    else
      var i := IndexOf(s, sep);
      [s[..i]] + Split(s[i + 1..], sep)
  }

  lemma SplitFront(a: string, sep: char, b: string)
    requires sep !in a
    ensures Split(a + [sep] + b, sep) == [a] + Split(b, sep)
  {
    var s := a + [sep] + b;
    assert s[|a|] == sep;
    assert s[..|a|] == a;
    var i := IndexOf(s, sep);
    assert i == |a|;
    assert s[..i] == a;
    assert s[i + 1..] == b;
  }

  /** Splitting a joined list of separator-free fields gives the fields back. */
  lemma {:induction false} SplitJoin(parts: seq<string>, sep: char)
    requires |parts| >= 1
    requires forall k :: 0 <= k < |parts| ==> sep !in parts[k]
    ensures Split(Join(parts, sep), sep) == parts
  {
    if |parts| > 1 {
      SplitJoin(parts[1..], sep);
      SplitFront(parts[0], sep, Join(parts[1..], sep));
    }
  }
}

=== FILE: turns.dfy ===
/**
 * The rules of one turn on the game server (GamePlayWorker.ActivePlayer):
 * which command a player's line is, where the next command comes from while
 * the registrar thread may still be reading the same socket, and what a turn
 * scores. All of it is pure; ActivePlayer.TakeTurn executes it.
 */
module Turns {
  import opened Wrappers
  import opened Text
  import opened Sockets
  import opened Dice

  // ---------------------------------------------------------------------
  // Commands

  /** What a line typed at the "chance-it? [Y/n]" prompt asks for. */
  datatype Move = ChanceIt | EndTurn | Quit | Unknown

  /** Rolling again is the default: an empty line, or one starting with "Y" or "chance-it". */
  predicate RollsAgain(c: string) {
    c == [] || StartsWith(c, "Y") || StartsWith(c, "chance-it")
  }

  /** takeTurn tests the three prefixes in this order; anything else re-prompts. */
  function Classify(c: string): (m: Move)
    ensures m == ChanceIt <==> RollsAgain(c)
    ensures m == EndTurn <==> !RollsAgain(c) && StartsWith(c, "n")
    ensures m == Quit <==> !RollsAgain(c) && !StartsWith(c, "n") && StartsWith(c, "stop")
  {
    if RollsAgain(c) then ChanceIt
    else if StartsWith(c, "n") then EndTurn
    else if StartsWith(c, "stop") then Quit
    else Unknown
  }

  /** The protocol's own words, and that matching is case-sensitive and by prefix. */
  lemma ClassifyProtocolWords()
    ensures Classify("") == ChanceIt && Classify("Y") == ChanceIt && Classify("chance-it") == ChanceIt
    ensures Classify("Yes") == ChanceIt && Classify("chance-it?") == ChanceIt
    ensures Classify("n") == EndTurn && Classify("no") == EndTurn
    ensures Classify("stop") == Quit
    ensures Classify("y") == Unknown && Classify("N") == Unknown && Classify("Stop") == Unknown
  {
    assert "Y"[..1] == "Y" && "Yes"[..1] == "Y";
    assert "chance-it"[..9] == "chance-it";
    assert "n"[..1] == "n" && "n"[..1][0] == 'n';
    assert "stop"[..1][0] == 's' && "stop"[..4] == "stop";
    assert "chance-it?"[..9] == "chance-it";
    assert "no"[..1] == "n" && "no"[..1][0] == 'n';
    assert "y"[..1][0] == 'y';
    assert "N"[..1][0] == 'N';
    assert "Stop"[..1][0] == 'S' && "Stop"[..4][0] == 'S';
  }

  // ---------------------------------------------------------------------
  // Fetching the next command

  /** What getNextCommand yields: a line, null, or the exception it lets through. */
  datatype Fetch =
    | Got(text: string)
    | NoCommand       // null
    | ReadTimedOut    // an InterruptedIOException from the read
    | Disconnected    // end of stream on a direct read, or a SocketException

  /**
   * Which branch getNextCommand takes: a direct read once the registrar has
   * handed over (the player's state is WAIT_TURN); a short probe read while
   * the registrar still waits for GOODBYE (it may hold the line, in
   * `prMessage`, or have passed it on through the callback, in
   * `registrarMessage`); otherwise neither.
   */
  datatype Route =
    | Direct
    | Probe(prMessage: Option<string>, registrarMessage: Option<string>)
    | Neither

  /** A direct read: a null line is a disconnect, a SocketException too. */
  function DirectFetch(ev: ReadEvent): (f: Fetch)
    ensures f != NoCommand
    ensures f.Got? <==> ev.Line?
    ensures f.Got? ==> f.text == ev.text
    ensures f == ReadTimedOut <==> ev == TimedOut
  {
    match ev
    case Line(s) => Got(s)
    case TimedOut => ReadTimedOut
    case EndOfStream => Disconnected
    case Broken => Disconnected
  }

  /**
   * The line the probe branch settles on: the registrar's own copy first,
   * then the copy passed through the callback, then what the probe read.
   */
  function ProbePick(ev: ReadEvent, prMessage: Option<string>, registrarMessage: Option<string>): (p: Option<string>)
    ensures p == None <==> prMessage == None && registrarMessage == None && !ev.Line?
    ensures prMessage.Some? ==> p == prMessage
    ensures prMessage == None && registrarMessage.Some? ==> p == registrarMessage
    ensures prMessage == None && registrarMessage == None && ev.Line? ==> p == Some(ev.text)
  {
    if prMessage.Some? then prMessage
    else if registrarMessage.Some? then registrarMessage
    else if ev.Line? then Some(ev.text)
    else None
  }

  /**
   * getNextCommand as the Java code has it. The probe swallows a timeout and
   * a null line, so it returns null when nobody has a line yet; the third
   * branch returns null without reading.
   */
  function FetchAsWritten(route: Route, input: seq<ReadEvent>, closed: bool): (f: Fetch)
    ensures route == Direct ==> f == DirectFetch(NextEvent(input, closed))
    ensures route == Neither ==> f == NoCommand
    ensures route.Probe? && NextEvent(input, closed) == Broken ==> f == Disconnected
    ensures route.Probe? && NextEvent(input, closed) != Broken ==>
              (f == NoCommand <==> ProbePick(NextEvent(input, closed), route.prMessage, route.registrarMessage) == None)
  {
    var ev := NextEvent(input, closed);
    match route
    case Direct => DirectFetch(ev)
    case Probe(pm, rm) =>
      if ev == Broken then Disconnected
      else
        (match ProbePick(ev, pm, rm)
         case Some(c) => Got(c)
         case None => NoCommand)
    case Neither => NoCommand
  }

  /** The null that takeTurn then dereferences: a player slower than the probe, or a route with no branch. */
  lemma FetchAsWrittenCanBeNull()
    ensures FetchAsWritten(Probe(None, None), [TimedOut, Line("Y")], false) == NoCommand
    ensures FetchAsWritten(Probe(None, None), [], false) == NoCommand
    ensures FetchAsWritten(Neither, [Line("Y")], false) == NoCommand
  {
  }

  /** The result of a fetch, the reads left and the branch the next fetch takes. */
  datatype Fetched = Fetched(fetch: Fetch, rest: seq<ReadEvent>, route: Route)

  function RouteRank(route: Route): nat {
    if route.Probe? then 1 else 0
  }

  /**
   * The fetch this model runs: where the Java code would return null it reads
   * the socket directly instead. After a probe that did not fail the
   * registrar link is dropped (pr = null) and the next fetch takes no probe.
   */
  function NextFetch(route: Route, input: seq<ReadEvent>, closed: bool): (r: Fetched)
    ensures r.fetch != NoCommand
    ensures r.fetch.Got? ==> |r.rest| < |input| || (r.rest == input && RouteRank(r.route) < RouteRank(route))
  {
    var ev := NextEvent(input, closed);
    var rest := AfterRead(input, closed);
    match route
    case Direct => Fetched(DirectFetch(ev), rest, Direct)
    case Neither => Fetched(DirectFetch(ev), rest, Neither)
    case Probe(pm, rm) =>
      if ev == Broken then Fetched(Disconnected, rest, route)
      else
        (match ProbePick(ev, pm, rm)
         case Some(c) => Fetched(Got(c), rest, Neither)
         case None => Fetched(DirectFetch(NextEvent(rest, closed)), AfterRead(rest, closed), Neither))
  }

  /**
   * The corrected fetch yields what getNextCommand yields whenever that is
   * not null, and reads once more only where getNextCommand would give up.
   */
  lemma NextFetchAgrees(route: Route, input: seq<ReadEvent>, closed: bool)
    ensures var r := NextFetch(route, input, closed);
            && (FetchAsWritten(route, input, closed) != NoCommand ==> r.fetch == FetchAsWritten(route, input, closed))
            && (FetchAsWritten(route, input, closed) == NoCommand && route.Probe? ==>
                  r.fetch == DirectFetch(NextEvent(AfterRead(input, closed), closed)))
            && (route == Neither ==> r.fetch == DirectFetch(NextEvent(input, closed)))
  {
  }

  /**
   * A fetch consumes one read, or two when a probe came back empty; the route
   * stays unless a probe that did not fail ends the registrar link.
   */
  lemma NextFetchReads(route: Route, input: seq<ReadEvent>, closed: bool)
    ensures var r := NextFetch(route, input, closed);
            && (route != Probe(None, None) ==> r.rest == AfterRead(input, closed))
            && (r.rest == AfterRead(input, closed) || r.rest == AfterRead(AfterRead(input, closed), closed))
            && (!route.Probe? ==> r.route == route)
            && (route.Probe? ==> r.route == (if r.fetch == Disconnected && NextEvent(input, closed) == Broken then route else Neither))
  {
  }

  // ---------------------------------------------------------------------
  // A turn

  /** Why a player forfeits the game during their turn. */
  datatype Forfeit = Timeout | Disconnect | Stop

  /** How a turn ends: the points it adds to the mover's score, or a forfeit of the game. */
  datatype TurnEnd = Banked(points: nat) | Forfeited(reason: Forfeit)

  /**
   * A finished turn: its end, the re-roll sums it took (in order), the reads
   * left, the route for the next fetch, and the count of dice drawn so far.
   */
  datatype TurnRun = TurnRun(end: TurnEnd, rerolls: seq<int>, rest: seq<ReadEvent>, route: Route, draws: nat)

  /** The pair of dice drawn at positions k and k + 1 of the player's die. */
  function Roll(die: DieStream, k: nat): (s: int)
    ensures 2 <= s <= 12
  {
    PairSum(die(k), die(k + 1))
  }

  /** Every value of s is the sum of a pair of dice. */
  predicate RollSums(s: seq<int>) {
    forall k :: 0 <= k < |s| ==> 2 <= s[k] <= 12
  }

  function Sum(s: seq<int>): int {
    if s == [] then 0 else s[0] + Sum(s[1..])
  }

  /**
   * One pass of the turn loop: `over` is how the turn ended, if it did; the
   * accumulator, the re-roll taken (none or one), the reads left, the next
   * route and the dice drawn are as the pass leaves them.
   */
  datatype Pass = Pass(over: Option<TurnEnd>, acc: nat, reroll: seq<int>, rest: seq<ReadEvent>, route: Route, draws: nat)

  /**
   * One pass of the loop after the first roll (whose sum is `first`), with
   * `acc` points accumulated: fetch a command, then roll again (busting when
   * the sum equals the first roll), bank, forfeit, or re-prompt.
   */
  function TurnPass(first: int, acc: nat, route: Route, input: seq<ReadEvent>, closed: bool,
                    die: DieStream, draws: nat): (p: Pass)
    ensures |p.reroll| <= 1 && p.draws == draws + 2 * |p.reroll|
    ensures p.reroll != [] ==> p.reroll[0] == Roll(die, draws)
    ensures p.over == None ==> |p.rest| < |input| || (p.rest == input && RouteRank(p.route) < RouteRank(route))
    ensures |p.rest| <= |input|
  {
    var f := NextFetch(route, input, closed);
    match f.fetch
    case Got(text) =>
      (match Classify(text)
       case ChanceIt =>
         var s := Roll(die, draws);
         if s == first then Pass(Some(Banked(0)), 0, [s], f.rest, f.route, draws + 2)
         else Pass(None, acc + s, [s], f.rest, f.route, draws + 2)
       case EndTurn => Pass(Some(Banked(acc)), acc, [], f.rest, f.route, draws)
       case Quit => Pass(Some(Forfeited(Stop)), acc, [], f.rest, f.route, draws)
       case Unknown => Pass(None, acc, [], f.rest, f.route, draws))
    case ReadTimedOut => Pass(Some(Forfeited(Timeout)), acc, [], f.rest, f.route, draws)
    case Disconnected => Pass(Some(Forfeited(Disconnect)), acc, [], f.rest, f.route, draws)
    case NoCommand => assert false; Pass(Some(Forfeited(Disconnect)), acc, [], f.rest, f.route, draws)
  }

  /**
   * The scoring of one pass: a pass that goes on adds its re-roll, which is
   * not the first roll; a re-roll equal to the first roll banks zero; ending
   * the turn banks what was accumulated; a forfeit takes no re-roll.
   */
  lemma TurnPassScores(first: int, acc: nat, route: Route, input: seq<ReadEvent>, closed: bool,
                       die: DieStream, draws: nat)
    ensures var p := TurnPass(first, acc, route, input, closed, die, draws);
            && (p.over == None ==> p.acc == acc + Sum(p.reroll) && (p.reroll == [] || p.reroll[0] != first))
            && (p.over.Some? && p.over.value.Banked? && p.reroll != [] ==> p.reroll[0] == first && p.over.value.points == 0)
            && (p.over.Some? && p.over.value.Banked? && p.reroll == [] ==> p.over.value.points == acc)
            && (p.over.Some? && p.over.value.Forfeited? ==> p.reroll == [])
            && (p.over.Some? && p.over.value.Banked? ==> p.acc == p.over.value.points)
  {
    var p := TurnPass(first, acc, route, input, closed, die, draws);
    if p.reroll != [] {
      assert p.reroll[1..] == [];
    }
  }

  /** The turn loop: passes until one ends the turn. */
  function Continue(first: int, acc: nat, route: Route, input: seq<ReadEvent>, closed: bool,
                    die: DieStream, draws: nat): (r: TurnRun)
    ensures |r.rest| <= |input|
    ensures r.draws == draws + 2 * |r.rerolls|
    ensures RollSums(r.rerolls)
    decreases |input|, RouteRank(route)
  {
    var p := TurnPass(first, acc, route, input, closed, die, draws);
    if p.over.Some? then TurnRun(p.over.value, p.reroll, p.rest, p.route, p.draws)
    else
      var r := Continue(first, p.acc, p.route, p.rest, closed, die, p.draws);
      r.(rerolls := p.reroll + r.rerolls)
  }

  /** A run with `taken` re-rolls in front of its own. */
  function Extended(taken: seq<int>, r: TurnRun): TurnRun {
    r.(rerolls := taken + r.rerolls)
  }

  lemma ExtendedTwice(a: seq<int>, b: seq<int>, r: TurnRun)
    ensures Extended(a, Extended(b, r)) == Extended(a + b, r)
  {
    assert a + (b + r.rerolls) == (a + b) + r.rerolls;
  }

  /** The loop is its first pass followed by the loop from where that pass left off. */
  lemma ContinueByPass(first: int, acc: nat, route: Route, input: seq<ReadEvent>, closed: bool,
                       die: DieStream, draws: nat)
    ensures var p := TurnPass(first, acc, route, input, closed, die, draws);
            && (p.over.Some? ==> Continue(first, acc, route, input, closed, die, draws)
                                   == TurnRun(p.over.value, p.reroll, p.rest, p.route, p.draws))
            && (p.over == None ==> Continue(first, acc, route, input, closed, die, draws)
                                   == Extended(p.reroll, Continue(first, p.acc, p.route, p.rest, closed, die, p.draws)))
  {
  }

  /** A whole turn: the first roll counts, then the loop. */
  function Turn(route: Route, input: seq<ReadEvent>, closed: bool, die: DieStream, draws: nat): (r: TurnRun)
    ensures |r.rest| <= |input|
    ensures r.draws == draws + 2 + 2 * |r.rerolls|
    ensures RollSums(r.rerolls)
  {
    var first := Roll(die, draws);
    Continue(first, first, route, input, closed, die, draws + 2)
  }

  /** A turn is the loop after a first roll of the next two dice, from that roll's sum. */
  lemma TurnOpensWithRoll(route: Route, input: seq<ReadEvent>, closed: bool, die: DieStream, draws: nat)
    ensures Turn(route, input, closed, die, draws)
            == Continue(Roll(die, draws), Roll(die, draws), route, input, closed, die, draws + 2)
  {
  }

  /** The scoring rule of a turn in the loop: what it banks follows from the re-rolls it took. */
  predicate ScoredBy(first: int, acc: nat, end: TurnEnd, rerolls: seq<int>) {
    && (forall k :: 0 <= k < |rerolls| - 1 ==> rerolls[k] != first)
    && (end.Banked? && end.points == 0 ==> rerolls != [] && rerolls[|rerolls| - 1] == first)
    && (end.Banked? && end.points != 0 ==>
          (rerolls == [] || rerolls[|rerolls| - 1] != first) && end.points == acc + Sum(rerolls))
    && (end.Banked? && rerolls != [] && rerolls[|rerolls| - 1] == first ==> end.points == 0)
    && (end.Forfeited? && rerolls != [] ==> rerolls[|rerolls| - 1] != first)
  }

  /** A pass that went on without busting keeps the scoring rule of the passes after it. */
  lemma ScoredByPrefix(first: int, acc: nat, reroll: seq<int>, end: TurnEnd, rest: seq<int>)
    requires |reroll| <= 1 && (reroll == [] || reroll[0] != first)
    requires acc + Sum(reroll) >= 0
    requires ScoredBy(first, acc + Sum(reroll), end, rest)
    ensures ScoredBy(first, acc, end, reroll + rest)
  {
    var rs := reroll + rest;
    if reroll != [] {
      assert rs[1..] == rest;
      assert Sum(rs) == reroll[0] + Sum(rest);
      assert Sum(reroll) == reroll[0] by {
        assert reroll[1..] == [];
      }
      if rest != [] {
        assert rs[|rs| - 1] == rest[|rest| - 1];
      }
      forall k | 0 <= k < |rs| - 1
        ensures rs[k] != first
      {
        if k > 0 {
          assert rs[k] == rest[k - 1];
        }
      }
    } else {
      assert rs == rest;
    }
  }

  lemma {:induction false} ContinueScores(first: int, acc: nat, route: Route, input: seq<ReadEvent>, closed: bool,
                                          die: DieStream, draws: nat)
    requires acc > 0
    ensures ScoredBy(first, acc, Continue(first, acc, route, input, closed, die, draws).end,
                     Continue(first, acc, route, input, closed, die, draws).rerolls)
    decreases |input|, RouteRank(route)
  {
    var p := TurnPass(first, acc, route, input, closed, die, draws);
    TurnPassScores(first, acc, route, input, closed, die, draws);
    if p.over == None {
      ContinueScores(first, p.acc, p.route, p.rest, closed, die, p.draws);
      var r := Continue(first, p.acc, p.route, p.rest, closed, die, p.draws);
      ScoredByPrefix(first, acc, p.reroll, r.end, r.rerolls);
    }
  }

  /**
   * What a turn banks: nothing when a re-roll repeated the first roll (it is
   * then the last roll of the turn), otherwise the first roll plus every
   * re-roll, none of which repeated the first.
   */
  lemma TurnScores(route: Route, input: seq<ReadEvent>, closed: bool, die: DieStream, draws: nat)
    ensures var r := Turn(route, input, closed, die, draws);
            ScoredBy(Roll(die, draws), Roll(die, draws), r.end, r.rerolls)
  {
    ContinueScores(Roll(die, draws), Roll(die, draws), route, input, closed, die, draws + 2);
  }

  /** A turn that banks at all banks zero (a bust) or at least the first roll, so at least 2. */
  lemma TurnBanksZeroOrAtLeastFirst(route: Route, input: seq<ReadEvent>, closed: bool, die: DieStream, draws: nat)
    ensures var r := Turn(route, input, closed, die, draws);
            r.end.Banked? ==> r.end.points == 0 || r.end.points >= Roll(die, draws) >= 2
  {
    var r := Turn(route, input, closed, die, draws);
    TurnScores(route, input, closed, die, draws);
    if r.end.Banked? && r.end.points != 0 {
      SumAtLeast(r.rerolls);
    }
  }

  /** Re-roll sums are at least 2 each. */
  lemma {:induction false} SumAtLeast(s: seq<int>)
    requires RollSums(s)
    ensures Sum(s) >= 2 * |s|
  {
    if s != [] {
      SumAtLeast(s[1..]);
    }
  }

  /** A player who answers "n" at the first prompt banks exactly the first roll. */
  lemma FirstAnswerNoBanksFirstRoll(rest: seq<ReadEvent>, die: DieStream, draws: nat)
    ensures Turn(Direct, [Line("n")] + rest, false, die, draws)
            == TurnRun(Banked(Roll(die, draws)), [], rest, Direct, draws + 2)
  {
    assert ([Line("n")] + rest)[1..] == rest;
    assert "n"[..1] == "n";
  }

  /** "chance-it" rolls again; a sum other than the first roll's is added and the loop goes on. */
  lemma ChanceItAdds(first: int, acc: nat, rest: seq<ReadEvent>, die: DieStream, draws: nat)
    requires Roll(die, draws) != first
    ensures Continue(first, acc, Direct, [Line("chance-it")] + rest, false, die, draws)
            == Extended([Roll(die, draws)], Continue(first, acc + Roll(die, draws), Direct, rest, false, die, draws + 2))
  {
    assert ([Line("chance-it")] + rest)[1..] == rest;
    assert "chance-it"[..9] == "chance-it";
    ContinueByPass(first, acc, Direct, [Line("chance-it")] + rest, false, die, draws);
  }

  /** "n" ends the turn and banks what was accumulated. */
  lemma NoBanksAccumulated(first: int, acc: nat, rest: seq<ReadEvent>, die: DieStream, draws: nat)
    ensures Continue(first, acc, Direct, [Line("n")] + rest, false, die, draws)
            == TurnRun(Banked(acc), [], rest, Direct, draws)
  {
    assert ([Line("n")] + rest)[1..] == rest;
    assert "n"[..1] == "n" && "n"[..1][0] == 'n';
  }

  /** A re-roll that is no bust, then "n": the turn banks the accumulator with the re-roll added. */
  lemma ChanceItThenNo(first: int, acc: nat, input: seq<ReadEvent>, rest: seq<ReadEvent>, die: DieStream, draws: nat)
    requires Roll(die, draws) != first
    requires input == [Line("chance-it")] + ([Line("n")] + rest)
    ensures Continue(first, acc, Direct, input, false, die, draws).end == Banked(acc + Roll(die, draws))
  {
    ChanceItAdds(first, acc, [Line("n")] + rest, die, draws);
    NoBanksAccumulated(first, acc + Roll(die, draws), rest, die, draws + 2);
  }

  /** Two re-rolls that are no bust, then "n": the turn banks the accumulator with both re-rolls added. */
  lemma TwoChanceItsThenNo(first: int, acc: nat, input: seq<ReadEvent>, more: seq<ReadEvent>, rest: seq<ReadEvent>,
                           die: DieStream, draws: nat)
    requires Roll(die, draws) != first && Roll(die, draws + 2) != first
    requires input == [Line("chance-it")] + more && more == [Line("chance-it")] + ([Line("n")] + rest)
    ensures Continue(first, acc, Direct, input, false, die, draws).end
            == Banked(acc + Roll(die, draws) + Roll(die, draws + 2))
  {
    ChanceItAdds(first, acc, more, die, draws);
    ChanceItThenNo(first, acc + Roll(die, draws), more, rest, die, draws + 2);
  }

  /** "stop" forfeits the game, whatever was accumulated. */
  lemma StopForfeits(first: int, acc: nat, rest: seq<ReadEvent>, die: DieStream, draws: nat)
    ensures Continue(first, acc, Direct, [Line("stop")] + rest, false, die, draws)
            == TurnRun(Forfeited(Stop), [], rest, Direct, draws)
  {
    assert ([Line("stop")] + rest)[1..] == rest;
    assert "stop"[..1][0] == 's' && "stop"[..4] == "stop";
  }

  /** A player who does not answer within the read timeout forfeits. */
  lemma SilenceForfeits(first: int, acc: nat, rest: seq<ReadEvent>, die: DieStream, draws: nat)
    ensures Continue(first, acc, Direct, [TimedOut] + rest, false, die, draws).end == Forfeited(Timeout)
  {
  }
}
